=== FILE: README.md ===
# Lynza progression core, modelled in Dafny

This project models the core of a small crypto-education game. A player
works through five levels of three lessons each and earns coins, experience
and badges.

- **The store** (`GameStore`) holds two things: the player's record and an
  overlay of `isUnlocked`/`isCompleted` flags on the static catalog
  (`GameData`). Every store action is a pure function from state to state:
  - `initializeUser`, `completeLesson`, `unlockLevel`, `awardBadge`,
    `addCoins`, `addExperience`, `checkAchievements` and `resetProgress`.
  - `completeLesson` is the centre of the store. It marks a lesson done,
    unlocks the next lesson, and completes a level when its last lesson is
    done. It then advances the player to the level numbered
    `user.level + 1`.
- **The screens** around the store are modelled as small state machines,
  with timers, haptics and animation removed:
  - the lesson viewer, with its section, mini-game and quiz steps;
  - the block-builder and security-checker mini-games, and the type
    dispatch between them;
  - the video lesson viewer's gating;
  - the profile card's figures;
  - page navigation.

Modules follow the source's files:

- `Wrappers`: `Option`.
- `GameTypes`: the records of `src/types/game.ts`.
- `GameData`: the catalog, as constants.
- `GameStore`: the store actions.
- `StoreProofs`: `completeLesson`'s fold set against an elementwise reference definition, and the exact result of a completion.
- `StoreLaws`: idempotence, unknown ids, well-formedness and the invariants that every action keeps.
- `CatalogFacts`: properties of the shipped catalog.
- `Scenarios`: level 1 played through from the first load.
- `MiniGame`, `LessonViewer`, `VideoLessonViewer`, `UserProfile` and `App`: the screens.

A few general modelling choices:

- Clocks are `now: int` parameters, in milliseconds.
- The host platform's user is an `Option<HostUser>`.
- Every click, timer expiry and callback is an explicit event. A click the screen does not offer is a no-op.
- A `completeLesson` with an unknown id still appends that id to the completed-lesson list (`src/store/gameStore.ts:151`), and so does the model (`StoreLaws.CompleteLessonUnknown`).

## Model

| member | source | states |
|---|---|---|
| GameStore.MarkLessons | src/store/gameStore.ts:82-95 | the lesson pass of the fold keeps every lesson's identity and reward, changing flags only |
| GameStore.MarkLevels | src/store/gameStore.ts:81-106 | the level pass of the fold keeps every level's identity, and once a level completes the flag stays raised |
| GameStore.AddBadge | src/store/gameStore.ts:124-128 | one reward badge is appended stamped `now` exactly when its id is not held; otherwise the held badges are returned unchanged |
| GameStore.AddRewardBadges | src/store/gameStore.ts:123-129 | reward badges are appended after the held ones, stamped `now`, only when their id is not yet held; the held ids plus the reward ids are exactly the result's ids, and unique ids stay unique |
| GameStore.FindLevel | src/store/gameStore.ts:134 | the first level with the given number, or none when no level has it |
| GameStore.AdvanceLevel | src/store/gameStore.ts:131-142 | the player advances one level exactly when no completed level is numbered `current + 1` and some level is; otherwise nothing changes |
| GameStore.CompleteLesson | src/store/gameStore.ts:67-160 | an already completed lesson is a no-op; otherwise the id is appended to completedLessons, the identity and the badge catalog are kept, and every level keeps its shape |
| GameStore.FindBadge | src/store/gameStore.ts:186 | a badge is found exactly when one with that id exists, and it is one of the given badges |
| GameStore.AwardBadge | src/store/gameStore.ts:184-196 | an unknown or already held badge id is a no-op; otherwise the catalog badge is appended, stamped `now` |
| GameStore.CheckAchievements | src/store/gameStore.ts:218-226 | the achievements that fire are exactly those whose condition holds of the user; the state is not changed |
| StoreProofs.MarkLessonsAgrees | src/store/gameStore.ts:82-95 | the lesson pass, with its `nextLessonId` cursor, equals the elementwise reference: the lesson completed, its successor unlocked |
| StoreProofs.MarkLessonsCursor | src/store/gameStore.ts:83-94 | after the lesson pass the cursor holds the completed lesson's reward and its successor's id (none after the last lesson), and is unchanged when no lesson has the id |
| StoreProofs.MarkLevelAgrees | src/store/gameStore.ts:81-106 | one level of the fold equals the reference level, with the level reward recorded exactly when the level newly completes |
| StoreProofs.MarkLevelsAgrees | src/store/gameStore.ts:81-106 | with distinct lesson ids, the fold's overlay equals the elementwise reference overlay |
| StoreProofs.MarkLevelsLessonReward | src/store/gameStore.ts:83-84 | the fold records a lesson reward exactly when some lesson has the id, and it is that lesson's reward |
| StoreProofs.MarkLevelsCompletion | src/store/gameStore.ts:97-103 | the fold reports a completed level exactly when some level newly completes, with the last such level's reward |
| StoreProofs.NewlyCompletesIff | src/store/gameStore.ts:98-99 | a level newly completes with lesson i exactly when it was open and every other lesson was done |
| StoreProofs.AbsentLevelUnchanged | src/store/gameStore.ts:91-105 | a level not containing the lesson is returned unchanged |
| StoreProofs.MarkedOwner | src/store/gameStore.ts:81-106 | on a well-formed overlay only the level owning the lesson can change |
| StoreProofs.FoldOnOwner | src/store/gameStore.ts:81-121 | the fold's cursor on a well-formed overlay: the owner lesson's reward, and the owner level's reward exactly when it completes |
| StoreProofs.AdvanceLevelAt | src/store/gameStore.ts:132-141 | with distinct level numbers, an open level numbered `current + 1` is unlocked with its first lesson and the player advances |
| StoreProofs.AdvanceLevelNone | src/store/gameStore.ts:132-133 | when every level numbered `current + 1` is completed the cascade changes nothing |
| StoreProofs.CascadeTarget | src/store/gameStore.ts:131-142 | the level the cascade opens is the one named by the reference `Advances` |
| StoreProofs.CompleteLessonUser | src/store/gameStore.ts:108-154 | coins and experience grow by exactly the lesson reward plus the level reward when the lesson finishes its level; badges, level, unlockedLevels (with `newLevel` appended even when unchanged) and completedLessons are given exactly |
| StoreProofs.OverlayShape | src/store/gameStore.ts:81-155 | the stored overlay is the reference overlay followed by the cascade's unlock |
| StoreProofs.AdvancesUnique | src/store/gameStore.ts:134 | at most one level is advanced to |
| StoreProofs.UnlockAtFlags | src/store/gameStore.ts:136-139 | the cascade's unlock turns on exactly that level's flag and its first lesson's |
| StoreProofs.MarkedLevelsFlags | src/store/gameStore.ts:81-106 | the reference overlay's flags: owner lesson completed, successor unlocked, owner level completed when finished, nothing else |
| StoreProofs.MarkedLessonsFlags | src/store/gameStore.ts:82-94 | within the owner level only the lesson and its successor change flags |
| StoreProofs.CompleteLessonLevelFlags | src/store/gameStore.ts:97-103 | after a completion, a level is completed iff it was or it is the owner that finishes; it is unlocked iff it was or it is the level advanced to |
| StoreProofs.CompleteLessonLessonFlags | src/store/gameStore.ts:82-94 | after a completion, a lesson is completed iff it was or it is the one completed; it is unlocked iff it was, or it follows that lesson in its level, or it opens the level advanced to |
| StoreLaws.MarkLessonsAbsent | src/store/gameStore.ts:82-95 | a lesson id absent from a level leaves the lesson pass the identity |
| StoreLaws.MarkLevelsAbsent | src/store/gameStore.ts:81-106 | an id absent from a consistent overlay leaves the whole fold the identity |
| StoreLaws.CompleteLessonUnknown | src/store/gameStore.ts:114-117 | an unknown id changes no coin, experience, badge or flag, but is still appended to completedLessons |
| StoreLaws.CompleteLessonIdempotent | src/store/gameStore.ts:71-73 | completing the same lesson again, at any time, changes nothing |
| StoreLaws.OwnerStaysConsistent | src/store/gameStore.ts:97-103 | the owner level's completion flag keeps agreeing with its lessons |
| StoreLaws.CompleteLessonWellFormed | src/store/gameStore.ts:81-142 | distinct ids and flags agreeing with lessons survive any completion, known id or not |
| StoreLaws.UnlockLevelWellFormed | src/store/gameStore.ts:164-173 | unlocking a level keeps the overlay well formed |
| StoreLaws.CompleteLessonGrows | src/store/gameStore.ts:109-121 | on a well-formed level list (which every reachable state has, by StoreLaws.ReachableInvariant) with non-negative rewards, coins and experience never decrease |
| StoreLaws.Step | src/store/gameStore.ts:46 | no action replaces the badge catalog |
| StoreLaws.AppendUniqueBadge | src/store/gameStore.ts:188-192 | appending a badge whose id is not held keeps badge ids unique |
| StoreLaws.AppendFreshId | src/store/gameStore.ts:71-73 | appending an id not yet present keeps completedLessons free of repeats |
| StoreLaws.StepKeepsInvariant | src/store/gameStore.ts:49-242 | every action keeps the overlay well formed, badge ids unique and completedLessons free of repeats |
| StoreLaws.RunKeepsInvariant | src/store/gameStore.ts:49-242 | any sequence of actions keeps that invariant |
| StoreLaws.ReachableInvariant | src/store/gameStore.ts:23-242 | the first-load state, and every state any sequence of actions reaches from it, satisfies that invariant |
| StoreLaws.RunKeepsIdentity | src/store/gameStore.ts:54 | once id and name are set, no sequence of actions changes them |
| StoreLaws.InitializeIdempotent | src/store/gameStore.ts:54-64 | initializing twice, with any host user the second time, equals initializing once |
| StoreLaws.ResetForgets | src/store/gameStore.ts:228-242 | a reset after any action other than `initializeUser` gives the same state as a reset before it: the progress that action made is gone |
| StoreLaws.ResetIdempotent | src/store/gameStore.ts:228-242 | resetting a reset state changes nothing |
| StoreLaws.GrantsCompose | src/store/gameStore.ts:198-216 | two coin grants, or two experience grants, equal one grant of the sum; a grant is undone by the opposite amount; coin and experience grants commute |
| StoreLaws.ResetInitial | src/store/gameStore.ts:23-45 | resetting the first-load state, whatever identity it carries, changes nothing: seed and reset agree |
| CatalogFacts.LessonIdsListed | src/data/gameData.ts:48-733 | five levels of three lessons, with the fifteen lesson ids in order |
| CatalogFacts.LessonIdsDistinct | src/data/gameData.ts:61-733 | the fifteen lesson ids are pairwise distinct |
| CatalogFacts.CatalogDistinct | src/data/gameData.ts:48-733 | no two catalog lessons share an id, and level numbers are distinct |
| CatalogFacts.LevelNumbering | src/data/gameData.ts:49-53 | level k (from 0) is numbered k + 1 and requires level k |
| CatalogFacts.CatalogFlags | src/data/gameData.ts:48-733 | nothing is completed and only level 1 and its first lesson are unlocked |
| CatalogFacts.CatalogWellFormed | src/data/gameData.ts:48-733 | the catalog overlay is well formed |
| CatalogFacts.SeedAndResetAreCatalog | src/store/gameStore.ts:38-45 | the first-load overlay and the reset overlay both equal the catalog |
| CatalogFacts.BadgesPartitioned | src/data/gameData.ts:3-46 | badge ids are distinct, and the five levels' reward badges in order are exactly the six catalog badges |
| CatalogFacts.RewardsPositive | src/data/gameData.ts:56-72 | every level and lesson reward is positive, and lessons carry no badges |
| CatalogFacts.LevelOneTotal | src/data/gameData.ts:56-72 | level 1 is worth 190 coins and 110 experience in all |
| CatalogFacts.AchievementConditions | src/data/gameData.ts:743-760 | speed-learner holds iff at least three lessons are completed; perfect-score iff experience exceeds 500 |
| Scenarios.StartOfLevelOne | src/store/gameStore.ts:23-45 | the first-load state is at the start of level 1 with nothing earned |
| Scenarios.CompleteKeepsShape | src/store/gameStore.ts:81-106 | completions never change the catalog's ids and rewards |
| Scenarios.EarlyLesson | src/store/gameStore.ts:81-121 | each of level 1's first two lessons pays its reward and opens the next lesson, nothing more |
| Scenarios.TwoFreshBadges | src/store/gameStore.ts:123-129 | two badges with distinct ids given to a player with none are both appended, stamped |
| Scenarios.LevelOneBadges | src/store/gameStore.ts:123-129 | level 1's reward gives First Steps and Money Historian |
| Scenarios.LastLessonSetting | src/store/gameStore.ts:97-141 | the third lesson of level 1 finishes the level and level 2 is the one opened |
| Scenarios.LastLesson | src/store/gameStore.ts:97-154 | the third lesson pays lesson and level rewards, moves the player to level 2 and opens level 2 with its first lesson |
| Scenarios.FinishLevelOne | src/store/gameStore.ts:67-160 | from the first load, the three lessons of level 1 give 190 coins, 110 experience, level 2, unlocked levels [1, 2] and the two level-1 badges |
| MiniGame.DigitRoundTrip | src/components/game/MiniGame.tsx:107 | a digit's character reads back as that digit, and only zero prints as '0' |
| MiniGame.ToBase | src/components/game/MiniGame.tsx:107 | `toString(base)` of a natural number is a non-empty string of digits with no leading zero unless it is zero |
| MiniGame.ToBaseRoundTrip | src/components/game/MiniGame.tsx:107 | parsing the printed digits gives the number back |
| MiniGame.LeadingZeros | src/components/game/MiniGame.tsx:107 | any number of leading zeros does not change the value read |
| MiniGame.PadStart | src/components/game/MiniGame.tsx:107 | `padStart` keeps the string as the suffix and fills only the front, up to the width |
| MiniGame.TxIdInjective | src/components/game/MiniGame.tsx:48 | `tx-i` names are distinct for distinct positions |
| MiniGame.TaggedDistinct | src/components/game/MiniGame.tsx:48 | the tagged pool has distinct ids |
| MiniGame.MockHashRoundTrip | src/components/game/MiniGame.tsx:104-108 | the hash of a block with non-negative total reads back as that total |
| MiniGame.WithoutId | src/components/game/MiniGame.tsx:61 | the filter keeps exactly the transactions with another id |
| MiniGame.WithoutIdAt | src/components/game/MiniGame.tsx:61 | with distinct ids, filtering by entry k's id removes exactly entry k |
| MiniGame.ResetDuringValidation | src/components/game/MiniGame.tsx:77-83 | a reset after the last select still completes the game, with an empty block |
| MiniGame.StartBuilderInv | src/components/game/MiniGame.tsx:46-57 | the mounted builder, with nothing selected and the tagged data as the pool, satisfies the builder invariant |
| MiniGame.DistinctByMultiset | src/components/game/MiniGame.tsx:59-64 | a permutation of a pool with distinct ids has distinct ids |
| MiniGame.SelectKeepsInv | src/components/game/MiniGame.tsx:59-85 | select keeps selection plus pool a permutation of the tagged data, and keeps the block in step with the selection |
| MiniGame.SelectionBound | src/components/game/MiniGame.tsx:77 | selection and pool together always hold as many transactions as the data |
| MiniGame.RemovePermutes | src/components/game/MiniGame.tsx:87-92 | remove moves one transaction between selection and pool, as a permutation |
| MiniGame.RemoveKeepsInv | src/components/game/MiniGame.tsx:87-102 | the corrected remove keeps the builder invariant |
| MiniGame.BuilderStepKeepsInv | src/components/game/MiniGame.tsx:59-123 | every enabled corrected event (select, cancelling remove, cancelling reset, timer) keeps the builder invariant |
| MiniGame.BuilderRunKeepsInv | src/components/game/MiniGame.tsx:59-123 | with the corrected handlers, any run of events keeps the builder invariant, timer clauses included |
| MiniGame.CompletedMeansFullBlock | src/components/game/MiniGame.tsx:77-83 | with the corrected handlers, the game completes only with score 100 and every transaction in the block |
| MiniGame.FreshBuilderPartition | src/components/game/MiniGame.tsx:110-123 | the builder a reset restores, whatever timers are pending, keeps selection plus pool a permutation of the tagged data with distinct ids and the block in step |
| MiniGame.SelectKeepsPartition | src/components/game/MiniGame.tsx:59-85 | select keeps selection plus pool a permutation of the tagged data with distinct ids, and the block showing the selection and its hash |
| MiniGame.RemoveKeepsPartition | src/components/game/MiniGame.tsx:87-102 | the remove as written keeps that partition |
| MiniGame.BuilderStepAsWrittenKeepsPartition | src/components/game/MiniGame.tsx:59-123 | every enabled event with the handlers as written keeps the partition |
| MiniGame.BuilderRunAsWrittenKeepsPartition | src/components/game/MiniGame.tsx:59-123 | as written, no run of events loses, duplicates or invents a transaction, and the block always shows the selection and its hash |
| MiniGame.CorrectCount | src/components/game/MiniGame.tsx:372-374 | the right answers are at most the answers given; all are right, or none is, exactly as the per-answer test says |
| MiniGame.Percent | src/components/game/MiniGame.tsx:375 | the score is the percentage rounded half up, and none (NaN) when there are no scenarios |
| MiniGame.PercentBounds | src/components/game/MiniGame.tsx:375 | the score lies in 0..100, and is 100 for all right and 0 for none right |
| MiniGame.AnswerCounts | src/components/game/MiniGame.tsx:358-363 | recording an answer adds one to the right-answer tally exactly when the chosen option is marked correct |
| MiniGame.TimeoutNeverRight | src/components/game/MiniGame.tsx:386-389 | the timed-out answer -1 is never right |
| MiniGame.CheckerStepKeepsInv | src/components/game/MiniGame.tsx:358-390 | every enabled event keeps one answer per scenario reached, and a finished game's score and phase agree with the answers |
| MiniGame.FinishedChecker | src/components/game/MiniGame.tsx:365-379 | a finished game has one answer per scenario, a score in 0..100, and is completed iff the score is at least 70 |
| MiniGame.Dispatch | src/components/game/MiniGame.tsx:948-967 | without a type the screen is Coming Soon; block-builder, security-checker and investment-simulator each run their own game, and wallet-manager runs the security checker |
| MiniGame.Reports | src/components/game/MiniGame.tsx:424-432 | every game screen reports only `true`; Coming Soon reports nothing |
| LessonViewer.NextAsWritten | src/components/game/LessonViewer.tsx:34-52 | Next moves a section, or on the last one opens the mini-game, then the quiz, and completes only when neither is left to open |
| LessonViewer.Next | src/components/game/LessonViewer.tsx:34-52 | the corrected Next: as above, but an open quiz is not sent back to the mini-game |
| LessonViewer.Previous | src/components/game/LessonViewer.tsx:54-69 | Back peels one layer: the quiz (reopening the mini-game if the lesson has one), the mini-game, a section, or the page |
| LessonViewer.QuizCorrect | src/components/game/LessonViewer.tsx:149-151 | the tally is at most the number of questions; it is all of them iff every question has its correct answer recorded |
| LessonViewer.PerfectIsComplete | src/components/game/LessonViewer.tsx:148-151 | a perfect tally means every question is answered |
| LessonViewer.StepWith | src/components/game/LessonViewer.tsx:92-95 | the lesson is completed only when the results view opens, and the results view offers nothing |
| LessonViewer.StepKeepsInv | src/components/game/LessonViewer.tsx:32-69 | the section stays in range, overlays open only when the lesson has them and only on the last section, answers only for quiz questions |
| LessonViewer.RunKeepsInv | src/components/game/LessonViewer.tsx:32-69 | any run of clicks keeps that invariant |
| LessonViewer.StepKeepsAnswers | src/components/game/LessonViewer.tsx:185-186 | an answer, once recorded, is never changed, and its question's options are disabled |
| LessonViewer.PreviousUndoesNext | src/components/game/LessonViewer.tsx:34-69 | with the corrected Next, Back undoes a Next that did not complete |
| LessonViewer.PreviousUndoesNextAsWritten | src/components/game/LessonViewer.tsx:34-69 | with Next as written, Back undoes a Next that did not complete, everywhere except the open quiz of a lesson that also has a mini-game |
| LessonViewer.PreviousAfterReopenedGame | src/components/game/LessonViewer.tsx:34-69 | in that excluded case, Next then Back leaves the mini-game showing instead of returning to the quiz |
| LessonViewer.ResultsAreFinal | src/components/game/LessonViewer.tsx:242-282 | from the results view no click changes anything |
| LessonViewer.CompletesAtMostOnce | src/components/game/LessonViewer.tsx:92-95 | a visit completes the lesson at most once |
| LessonViewer.CompletionIgnoresScore | src/components/game/LessonViewer.tsx:214-233 | the quiz's own Complete Lesson button is offered exactly when every question has an answer, whatever the answers, and it completes the lesson |
| LessonViewer.NavCompletesUnanswered | src/components/game/LessonViewer.tsx:361-376 | the navigation button, labelled Complete while the quiz shows, completes a lesson with a quiz and no mini-game in two clicks with no question answered |
| LessonViewer.QuizButtonReopensGame | src/components/game/LessonViewer.tsx:35-43 | as written, the navigation button, labelled Complete while the quiz shows, reopens the mini-game of a lesson that has both |
| LessonViewer.QuizButtonCompletes | src/components/game/LessonViewer.tsx:361-376 | with the correction, the navigation button, labelled Complete while the quiz shows, completes the lesson |
| LessonViewer.Mounted | src/components/game/MiniGame.tsx:948-957 | a lesson's mini-game, mounted with its type, can report success |
| LessonViewer.MountedAsWritten | src/components/game/LessonViewer.tsx:341 | mounted as written, the mini-game reports nothing |
| LessonViewer.GameLessonNeverCompletes | src/components/game/LessonViewer.tsx:340-341 | as written, no sequence of clicks completes a lesson that has a mini-game |
| LessonViewer.GameLessonStuckFromStart | src/components/game/LessonViewer.tsx:340-341 | the same, from the lesson's first screen |
| LessonViewer.GameLessonCompletes | src/components/game/LessonViewer.tsx:76-90 | with both corrections (the game type passed through and the corrected Next), a one-section lesson with a mini-game completes by starting and winning the game, then, if there is a quiz, pressing the navigation button labelled Complete |
| VideoLessonViewer.VideoStepFn | src/components/game/VideoLessonViewer.tsx:47-49 | no click reports a failed completion |
| VideoLessonViewer.VideoStepKeepsInv | src/components/game/VideoLessonViewer.tsx:140-150 | the interactive step is shown only after the video ends and only for a non-upsell interactive |
| VideoLessonViewer.FlagsMonotone | src/components/game/VideoLessonViewer.tsx:27-37 | the video and interactive flags are only ever set, never cleared |
| VideoLessonViewer.CompletesAfterVideo | src/components/game/VideoLessonViewer.tsx:41-52 | completion is reported only once the video has ended, and always with `true` |
| VideoLessonViewer.VideoRunKeepsInv | src/components/game/VideoLessonViewer.tsx:140-195 | any run keeps the step invariant |
| VideoLessonViewer.VideoRunFacts | src/components/game/VideoLessonViewer.tsx:23-49 | along any run the flags stay set and every reported completion is a success |
| VideoLessonViewer.UpsellNeverOpens | src/components/game/VideoLessonViewer.tsx:38-40 | the upsell modal never opens, since its only opener runs on a step an upsell lesson cannot enter |
| VideoLessonViewer.InteractiveLessonCompletes | src/components/game/VideoLessonViewer.tsx:140-195 | watching, continuing and finishing the interactive completes the lesson |
| UserProfile.Progress | src/components/game/UserProfile.tsx:11-13 | progress lies in 0..100 |
| UserProfile.ProgressIsClamp | src/components/game/UserProfile.tsx:11-13 | progress is experience minus 100 times the level, clamped to 0..100 |
| UserProfile.Insert | src/components/game/UserProfile.tsx:163-167 | inserting into a recency-sorted list keeps it sorted and adds exactly that badge |
| UserProfile.SortByRecency | src/components/game/UserProfile.tsx:162-167 | the sorted badges are a permutation, most recent first, a missing time counting as 0 |
| UserProfile.RecentBadges | src/components/game/UserProfile.tsx:162-168 | at most four badges are shown, sorted, drawn from the user's, and none hidden is more recent than one shown |
| UserProfile.InsertStable | src/components/game/UserProfile.tsx:163-167 | an inserted badge goes ahead of every badge with the same earned time |
| UserProfile.SortStable | src/components/game/UserProfile.tsx:163-167 | the sort is stable: badges with the same earned time keep their input order |
| UserProfile.SplitStampShowsNewestFirst | src/components/game/UserProfile.tsx:162-168 | a level reward's two badges stamped a millisecond apart show the later one first on the card |
| UserProfile.NewForADay | src/components/game/UserProfile.tsx:185 | a badge shows NEW iff it was earned less than 86,400,000 ms ago |
| UserProfile.AwardedIsNew | src/components/game/UserProfile.tsx:185 | a badge `awardBadge` adds at `now` shows NEW at `now` and no longer a day later |
| UserProfile.RewardedAreNew | src/components/game/UserProfile.tsx:185 | every badge a lesson or level reward adds at `now` shows NEW at `now` and no longer a day later |
| UserProfile.NewOnlyFades | src/components/game/UserProfile.tsx:185 | once a badge no longer shows NEW it never does again as time goes on |
| UserProfile.CountersCountDistinct | src/components/game/UserProfile.tsx:103-116 | on every state the store reaches, the Lessons counter is the number of distinct completed lessons and the Badges counter the number of distinct badge ids held |
| UserProfile.LevelsCounterExceedsDistinct | src/components/game/UserProfile.tsx:118-124 | the Levels counter can exceed the distinct levels: one `unlockLevel(1)` from the first load shows 2 for one level |
| UserProfile.LevelsCounterCountsRepeats | src/components/game/UserProfile.tsx:122 | the Levels counter counts entries, so a repeated level is counted twice |
| App.Render | src/App.tsx:70-100 | a level or lesson page renders only with a truthy id; otherwise home |
| App.NavigationRenders | src/App.tsx:30-68 | opening a level with a truthy id shows it, home shows home, opening a lesson with a truthy id under a rendering level shows it; back from a level is home, and completing a lesson lands where back from it does |
| App.AppStepKeepsInv | src/App.tsx:30-68 | home names nothing, a level page names no lesson, and a lesson page sits under a level that renders |
| App.AppRunKeepsInv | src/App.tsx:30-68 | any run of clicks keeps that invariant |
| App.LessonReturnsToLevel | src/App.tsx:51-68 | from any reachable lesson, Back or completion lands on its level's page, which renders |
| App.BackUndoesLesson | src/App.tsx:37-60 | Back undoes opening a lesson |
| App.FallbacksRenderHome | src/App.tsx:76-90 | a level page without a truthy level id, or a lesson page without a truthy lesson id, renders home |

## Left out

- Persistence (the store's `persist` wrapper and local storage): the store is an in-memory value.
- The host platform wrapper and its haptic and button calls: they do not affect state. The host user is a parameter.
- GameStore.AddRewardBadges: one `now` stands for the fresh `new Date()` the source takes for each reward badge (`src/store/gameStore.ts:126`); badges of one reward stamped a millisecond apart sort newest first on the card (UserProfile.SplitStampShowsNewestFirst), not in reward order.
- Video-lesson progression: the store has no video-lesson list or unlock rule, so none is modelled.
- LessonViewer.PreviousUndoesNext: proved for the corrected Next only. As written, Back does not undo Next from the open quiz of a lesson with both a mini-game and a quiz, because Next reopens the game there (see PreviousAfterReopenedGame); PreviousUndoesNextAsWritten covers every other state.
- VideoLessonViewer.VideoEnabled: offers the interactive's back link on the whole interactive step, also on the security checker's result screen, which renders none (`src/components/game/MiniGame.tsx:392-447`); the inner game's phases are not modelled here.
- The investment simulator: it uses floating-point returns and randomness. It appears only as a dispatch target.
- Timers: each `setTimeout` is an explicit event. The security checker's countdown is a tick event plus a time-up event. The lesson viewer's delayed `onComplete` is the completion outcome itself.
- Achievement awarding: `checkAchievements` only logs, so it is modelled as the list of achievements that fire, with no state change.
- Aliasing: `completeLesson` and `unlockLevel` mutate nested lesson objects in place, and the profile sorts `user.badges` in place. All three are modelled as value updates, so a change shared through an alias is not modelled.
- Presentation: progress bars, animations, labels, the video player, the checklist exercises and the upsell modal's contents.
- The lesson data's shape: the catalog's security scenarios use `situation`/`correct`, while the checker reads `options[].isCorrect`. The checker is modelled over the shape it reads.
- An empty scenario list: the checker's screen cannot render it. The model keeps NaN as a missing score, which fails.
- Lessons without sections: the viewer would render an undefined section. The model treats such a lesson as being on its last section.
- GameStore.AddCoins: amounts are unbounded integers, not JavaScript doubles, so fractional amounts and rounding are not modelled.
- GameStore.AddExperience: amounts are unbounded integers, not JavaScript doubles, so fractional amounts and rounding are not modelled.
- UserProfile.Progress: the float expression `(exp − 100L) / 100 * 100` is computed exactly, not with double rounding.
- UserProfile.SortByRecency: an `earnedAt` read back from storage as a string is not modelled; times are integers or missing.
- MiniGame.Percent: the rounding of `c / n * 100` in doubles is modelled as exact half-up rounding, which may differ when the double product lands just below a half.
- MiniGame.MockHash: the amount is an unbounded integer, while the source's is a JavaScript number (`src/components/game/MiniGame.tsx:28`); a fractional sum makes `toString(16)` print a hex fraction, which the model cannot produce.
- BuilderRunAsWrittenKeepsPartition: with the handlers as written the timer clauses of the builder invariant do not hold (a pending validation can outlive a reset or remove), so only the partition is promised for as-written runs.

## Findings

| source | as written | input that shows it | evidently intended | confidence | as-written member | corrected member |
|---|---|---|---|---|---|---|
| src/components/game/LessonViewer.tsx:35-47 | on the last section, Next opens the mini-game whenever it is not showing, including from the open quiz, whose button is labelled Complete | a lesson with both a mini-game and a quiz: win the game, then press the navigation Complete button | the navigation Complete button completes the lesson | not executed; no catalog lesson has both, so it is latent | LessonViewer.QuizButtonReopensGame | LessonViewer.QuizButtonCompletes |
| src/components/game/LessonViewer.tsx:341 | the mini-game is mounted with a `miniGame` prop, while it reads `type` and `data`, so it shows Coming Soon and never reports | any of blocks-and-chains, security-practices or defi-basics: no sequence of clicks completes it | the lesson's game type and data are passed, and winning completes the lesson | not executed | LessonViewer.GameLessonNeverCompletes | LessonViewer.GameLessonCompletes |
| src/components/game/MiniGame.tsx:77-83 | the validation timer started by the last select is never cancelled, so a reset or remove before it fires still completes the game with score 100 | data [Alice→Bob 10]: select it, then reset before 1.5 s | reset and remove cancel a pending validation, so the game completes only with a full block | not executed | MiniGame.ResetDuringValidation | MiniGame.CompletedMeansFullBlock |

=== FILE: app.dfy ===
/**
 * Page navigation: home, a level, a lesson within it. The page record may
 * name a page whose id is missing or falsy; rendering then falls back to
 * home.
 */
module App {
  import opened Wrappers

  datatype Page = HomePage | LevelPage | LessonPage

  datatype AppState = AppState(page: Page, levelId: Option<int>, lessonId: Option<string>)

  const StartApp := AppState(HomePage, None, None)

  /** JavaScript truthiness of an optional number or string: present and not 0 / "". */
  predicate TruthyId(x: Option<int>) { x.Some? && x.value != 0 }
  predicate TruthyName(x: Option<string>) { x.Some? && x.value != "" }

  function NavigateToLevel(id: int): (r: AppState)
    ensures r.page == LevelPage && r.levelId == Some(id) && r.lessonId.None?
  {
    AppState(LevelPage, Some(id), None)
  }

  /** Opens a lesson, keeping the selected level. */
  function NavigateToLesson(s: AppState, id: string): (r: AppState)
    ensures r.page == LessonPage && r.levelId == s.levelId && r.lessonId == Some(id)
  {
    s.(page := LessonPage, lessonId := Some(id))
  }

  function NavigateToHome(): (r: AppState)
    ensures r == StartApp
  {
    AppState(HomePage, None, None)
  }

  /** One page up: lesson to its level, level to home; home stays. */
  function NavigateBack(s: AppState): (r: AppState)
    ensures s.page == LessonPage ==> r == AppState(LevelPage, s.levelId, None)
    ensures s.page == LevelPage ==> r == StartApp
    ensures s.page == HomePage ==> r == s
  {
    match s.page
    case LessonPage => AppState(LevelPage, s.levelId, None)
    case LevelPage => NavigateToHome()
    case HomePage => s
  }

  /** After a lesson completes, back to the level it belongs to. */
  function LessonComplete(s: AppState): (r: AppState)
    ensures r == AppState(LevelPage, s.levelId, None)
  {
    AppState(LevelPage, s.levelId, None)
  }

  /** What is on screen. */
  datatype View = HomeView | LevelView(levelId: int) | LessonView(lessonId: string)

  function Render(s: AppState): (r: View)
    ensures r.LevelView? <==> s.page == LevelPage && TruthyId(s.levelId)
    ensures r.LessonView? <==> s.page == LessonPage && TruthyName(s.lessonId)
    ensures r.LevelView? ==> r.levelId == s.levelId.value
    ensures r.LessonView? ==> r.lessonId == s.lessonId.value
  {
    match s.page
    case HomePage => HomeView
    case LevelPage => if TruthyId(s.levelId) then LevelView(s.levelId.value) else HomeView
    case LessonPage => if TruthyName(s.lessonId) then LessonView(s.lessonId.value) else HomeView
  }

  datatype AppEvent = SelectLevel(levelId: int) | SelectLesson(lessonId: string) | Back | LessonDone

  /** Each page offers its own callbacks: home selects a level; a level selects a lesson or goes back; a lesson goes back or completes. */
  predicate AppEnabled(s: AppState, e: AppEvent)
  {
    match Render(s)
    case HomeView => e.SelectLevel?
    case LevelView(_) => e.SelectLesson? || e.Back?
    case LessonView(_) => e.Back? || e.LessonDone?
  }

  function AppStep(s: AppState, e: AppEvent): (r: AppState)
    ensures !AppEnabled(s, e) ==> r == s
  {
    if !AppEnabled(s, e) then s
    else
      match e
      case SelectLevel(id) => NavigateToLevel(id)
      case SelectLesson(id) => NavigateToLesson(s, id)
      case Back => NavigateBack(s)
      case LessonDone => LessonComplete(s)
  }

  function AppRun(s: AppState, events: seq<AppEvent>): AppState
    decreases |events|
  {
    if events == [] then s else AppRun(AppStep(s, events[0]), events[1..])
  }

  /**
   * Every reachable page record: home names nothing, a level names no lesson,
   * and a lesson is open only under a level that renders.
   */
  predicate AppInv(s: AppState)
  {
    && (s.page == HomePage ==> s.levelId.None? && s.lessonId.None?)
    && (s.page == LevelPage ==> s.lessonId.None?)
    && (s.page == LessonPage ==> s.lessonId.Some? && TruthyId(s.levelId))
  }

  lemma AppStepKeepsInv(s: AppState, e: AppEvent)
    requires AppInv(s)
    ensures AppInv(AppStep(s, e))
  {
  }

  lemma {:induction false} AppRunKeepsInv(s: AppState, events: seq<AppEvent>)
    requires AppInv(s)
    ensures AppInv(AppRun(s, events))
    decreases |events|
  {
    if events != [] {
      AppStepKeepsInv(s, events[0]);
      AppRunKeepsInv(AppStep(s, events[0]), events[1..]);
    }
  }

  /** From any reachable lesson page, going back or completing lands on its level's page, which renders. */
  lemma LessonReturnsToLevel(s: AppState)
    requires AppInv(s) && s.page == LessonPage
    ensures Render(NavigateBack(s)) == LevelView(s.levelId.value)
    ensures Render(LessonComplete(s)) == LevelView(s.levelId.value)
  {
  }

  /** Back undoes opening a lesson from a level's page. */
  lemma BackUndoesLesson(s: AppState, id: string)
    requires AppInv(s) && s.page == LevelPage
    ensures NavigateBack(NavigateToLesson(s, id)) == s
  {
  }

  /**
   * What each navigation shows: a level by a truthy id, home, a lesson under
   * a rendering level by a truthy id. Back from a level is home, and
   * completing a lesson lands where back from it does.
   */
  lemma NavigationRenders(s: AppState, levelId: int, lessonId: string)
    ensures Render(NavigateToLevel(levelId)) == (if levelId != 0 then LevelView(levelId) else HomeView)
    ensures Render(NavigateToHome()) == HomeView
    ensures TruthyId(s.levelId) ==>
      Render(NavigateToLesson(s, lessonId)) == (if lessonId != "" then LessonView(lessonId) else HomeView)
    ensures NavigateBack(NavigateToLevel(levelId)) == StartApp
    ensures s.page == LessonPage ==> LessonComplete(s) == NavigateBack(s)
  {
  }

  /** A level page with a falsy id, or a lesson page with a falsy id, shows home. */
  lemma FallbacksRenderHome(levelId: Option<int>, lessonId: Option<string>)
    ensures !TruthyId(levelId) ==> Render(AppState(LevelPage, levelId, lessonId)) == HomeView
    ensures !TruthyName(lessonId) ==> Render(AppState(LessonPage, levelId, lessonId)) == HomeView
  {
  }
}

=== FILE: catalog_facts.dfy ===
/**
 * Facts about the static catalog that the store relies on: its lesson ids
 * are distinct, levels are numbered 1 to 5 with each requiring the one
 * before, every badge is the reward of exactly one level, rewards are
 * positive, and the first-load overlay is the catalog itself.
 */
module CatalogFacts {
  import opened Wrappers
  import opened GameTypes
  import opened GameData
  import opened StoreProofs
  import GameStore

  /** The fifteen lesson ids in catalog order. */
  const LessonIds: seq<string> := [
    "what-is-money", "digital-money", "what-is-blockchain",
    "blocks-and-chains", "consensus", "decentralization",
    "bitcoin-basics", "ethereum-smart-contracts", "stablecoins",
    "keys-and-addresses", "wallet-types", "security-practices",
    "defi-basics", "staking", "daos-nfts"]

  /** Five levels of three lessons; lesson `i` of level `k` is the id at `3k + i`. */
  lemma LessonIdsListed()
    ensures |Levels| == 5 && |LessonIds| == 15
    ensures forall k :: 0 <= k < 5 ==> |Levels[k].lessons| == 3
    ensures forall k, i :: 0 <= k < 5 && 0 <= i < 3 ==> Levels[k].lessons[i].id == LessonIds[3 * k + i]
  {
  }

  lemma LessonIdsDistinct()
    ensures forall a, b :: 0 <= a < b < |LessonIds| ==> LessonIds[a] != LessonIds[b]
  {
  }

  /** No two lessons of the catalog share an id, and level numbers are distinct. */
  lemma CatalogDistinct()
    ensures DistinctLessonIds(Levels) && DistinctLevelIds(Levels)
  {
    LessonIdsListed();
    LessonIdsDistinct();
    forall k1, i1, k2, i2 | ValidLoc(Levels, k1, i1) && ValidLoc(Levels, k2, i2) && (k1 != k2 || i1 != i2)
      ensures Levels[k1].lessons[i1].id != Levels[k2].lessons[i2].id
    {
      assert 3 * k1 + i1 != 3 * k2 + i2;
    }
  }

  /** Level `k` (from 0) is numbered `k + 1` and requires level `k`. */
  lemma LevelNumbering()
    ensures forall k :: 0 <= k < |Levels| ==> Levels[k].id == k + 1 && Levels[k].requiredLevel == k
  {
  }

  /** Nothing in the catalog is completed; only level 1 and its first lesson are unlocked. */
  lemma CatalogFlags()
    ensures forall k :: 0 <= k < |Levels| ==> !Levels[k].isCompleted && Levels[k].isUnlocked == (k == 0)
    ensures forall k, i :: ValidLoc(Levels, k, i) ==>
      !Levels[k].lessons[i].isCompleted && Levels[k].lessons[i].isUnlocked == (k == 0 && i == 0)
  {
    LessonIdsListed();
  }

  /** The catalog's overlay is well formed. */
  lemma CatalogWellFormed()
    ensures WellFormed(Levels)
  {
    CatalogDistinct();
    CatalogFlags();
    forall k | 0 <= k < |Levels|
      ensures Levels[k].isCompleted <==> AllCompleted(Levels[k].lessons)
    {
      assert ValidLoc(Levels, k, 0);
    }
  }

  /** The store's first-load overlay, and the overlay a reset writes, are the catalog itself. */
  lemma SeedAndResetAreCatalog()
    ensures GameStore.SeedLevels(Levels) == Levels
    ensures GameStore.ResetLevels(Levels) == Levels
  {
    CatalogFlags();
    var a, b := GameStore.SeedLevels(Levels), GameStore.ResetLevels(Levels);
    forall k | 0 <= k < |Levels|
      ensures a[k] == Levels[k] && b[k] == Levels[k]
    {
      assert a[k].lessons == Levels[k].lessons by {
        forall i | 0 <= i < |a[k].lessons|
          ensures a[k].lessons[i] == Levels[k].lessons[i]
        {
          assert ValidLoc(Levels, k, i);
        }
      }
      assert b[k].lessons == Levels[k].lessons by {
        forall i | 0 <= i < |b[k].lessons|
          ensures b[k].lessons[i] == Levels[k].lessons[i]
        {
          assert ValidLoc(Levels, k, i);
        }
      }
    }
  }

  /** Badge ids are distinct, and the levels' reward badges, in level order, are exactly the catalog's badges. */
  lemma BadgesPartitioned()
    ensures UniqueBadgeIds(Badges)
    ensures Levels[0].reward.badges + Levels[1].reward.badges + Levels[2].reward.badges
          + Levels[3].reward.badges + Levels[4].reward.badges == Badges
  {
  }

  /** Every lesson and level reward is positive in coins and experience, and lessons carry no badges. */
  lemma RewardsPositive()
    ensures forall k :: 0 <= k < |Levels| ==> Levels[k].reward.coins > 0 && Levels[k].reward.experience > 0
    ensures forall k, i :: ValidLoc(Levels, k, i) ==>
      && Levels[k].lessons[i].reward.coins > 0 && Levels[k].lessons[i].reward.experience > 0
      && Levels[k].lessons[i].reward.badges == []
  {
    LessonIdsListed();
  }

  /** Level 1 is worth 190 coins and 110 experience in all: its three lessons plus its level reward. */
  lemma LevelOneTotal()
    ensures var ls := Levels[0].lessons;
      && ls[0].reward.coins + ls[1].reward.coins + ls[2].reward.coins + Levels[0].reward.coins == 190
      && ls[0].reward.experience + ls[1].reward.experience + ls[2].reward.experience + Levels[0].reward.experience == 110
  {
  }

  /** Speed Learner fires at three completed lessons; Perfect Score above 500 experience. */
  lemma AchievementConditions(u: User)
    ensures Holds(SpeedLearner.condition, u) <==> |u.completedLessons| >= 3
    ensures Holds(PerfectScore.condition, u) <==> u.experience > 500
  {
  }
}

=== FILE: game_data.dfy ===
/**
 * The static catalog: six badges, five levels of three lessons each, and two
 * achievements. Only the fields the game logic reads are kept; titles,
 * descriptions and section texts are presentation.
 */
module GameData {
  import opened Wrappers
  import opened GameTypes

  const FirstSteps := Badge("first-steps", "First Steps", Common, None)
  const MoneyHistorian := Badge("money-historian", "Money Historian", Common, None)
  const FirstBlockBuilder := Badge("block-builder", "First Block Builder", Rare, None)
  const CryptoCollector := Badge("crypto-collector", "Crypto Collector", Epic, None)
  const GuardianOfKeys := Badge("guardian-of-keys", "Guardian of Keys", Epic, None)
  const DefiMaster := Badge("defi-master", "DeFi Master", Legendary, None)

  const Badges: seq<Badge> :=
    [FirstSteps, MoneyHistorian, FirstBlockBuilder, CryptoCollector, GuardianOfKeys, DefiMaster]

  /** A catalog lesson: every lesson starts out neither completed nor unlocked, except the very first. */
  function CatalogLesson(id: string, sections: nat, quiz: Option<Quiz>, game: Option<MiniGameType>,
                         coins: int, experience: int, unlocked: bool): Lesson
  {
    Lesson(id, sections, quiz, game, Reward(coins, experience, []), false, unlocked)
  }

  const MoneyQuiz := Quiz("money-quiz-1", [Question("q1", 4, 1)])

  const LevelOne := Level(1, 0, [
      CatalogLesson("what-is-money", 2, Some(MoneyQuiz), None, 25, 15, true),
      CatalogLesson("digital-money", 2, None, None, 30, 20, false),
      CatalogLesson("what-is-blockchain", 1, None, None, 35, 25, false)],
    Reward(100, 50, [Badges[0], Badges[1]]), true, false)

  const LevelTwo := Level(2, 1, [
      CatalogLesson("blocks-and-chains", 1, None, Some(BlockBuilder), 40, 30, false),
      CatalogLesson("consensus", 1, None, None, 45, 35, false),
      CatalogLesson("decentralization", 1, None, None, 40, 30, false)],
    Reward(200, 100, [Badges[2]]), false, false)

  const LevelThree := Level(3, 2, [
      CatalogLesson("bitcoin-basics", 2, None, None, 50, 40, false),
      CatalogLesson("ethereum-smart-contracts", 1, None, None, 55, 45, false),
      CatalogLesson("stablecoins", 1, None, None, 45, 35, false)],
    Reward(300, 150, [Badges[3]]), false, false)

  const LevelFour := Level(4, 3, [
      CatalogLesson("keys-and-addresses", 1, None, None, 60, 50, false),
      CatalogLesson("wallet-types", 1, None, None, 55, 45, false),
      CatalogLesson("security-practices", 1, None, Some(SecurityChecker), 65, 55, false)],
    Reward(400, 200, [Badges[4]]), false, false)

  const LevelFive := Level(5, 4, [
      CatalogLesson("defi-basics", 1, None, Some(InvestmentSimulator), 80, 70, false),
      CatalogLesson("staking", 1, None, None, 70, 60, false),
      CatalogLesson("daos-nfts", 2, None, None, 75, 65, false)],
    Reward(500, 300, [Badges[5]]), false, false)

  const Levels: seq<Level> := [LevelOne, LevelTwo, LevelThree, LevelFour, LevelFive]

  const SpeedLearner := Achievement("speed-learner", "Speed Learner", CompletedAtLeast(3), Reward(100, 50, []))
  const PerfectScore := Achievement("perfect-score", "Perfect Score", ExperienceAbove(500), Reward(200, 100, []))

  const Achievements: seq<Achievement> := [SpeedLearner, PerfectScore]
}

=== FILE: game_store.dfy ===
/**
 * The progression store: the user record plus the per-user overlay on the
 * catalog's levels, and every store action as a function from state to state.
 * The clock that stamps earned badges is the parameter `now`.
 */
module GameStore {
  import opened Wrappers
  import opened GameTypes
  import GameData

  datatype GameState = GameState(user: User, levels: seq<Level>, availableBadges: seq<Badge>)

  /** The identity the host platform may supply; both parts may be missing. */
  datatype HostUser = HostUser(id: Option<string>, firstName: Option<string>)

  const InitialUser := User("", "", 1, 0, 0, [], [], [1])

  const DemoUserId := "demo-user"
  const DemoUserName := "Crypto Explorer"

  /** Overlay of the store's first load: only the first level and its first lesson are unlocked. */
  function SeedLevels(catalog: seq<Level>): (r: seq<Level>)
    ensures |r| == |catalog|
    ensures forall k :: 0 <= k < |r| ==>
      && r[k] == catalog[k].(isUnlocked := k == 0, lessons := r[k].lessons)
      && |r[k].lessons| == |catalog[k].lessons|
      && forall i :: 0 <= i < |r[k].lessons| ==>
           r[k].lessons[i] == catalog[k].lessons[i].(isUnlocked := k == 0 && i == 0)
  {
    seq(|catalog|, k requires 0 <= k < |catalog| =>
      var lv := catalog[k];
      lv.(isUnlocked := k == 0,
          lessons := seq(|lv.lessons|, i requires 0 <= i < |lv.lessons| =>
            lv.lessons[i].(isUnlocked := k == 0 && i == 0))))
  }

  /** Overlay written by `resetProgress`: like the seed, and nothing completed. */
  function ResetLevels(catalog: seq<Level>): (r: seq<Level>)
    ensures |r| == |catalog|
    ensures forall k :: 0 <= k < |r| ==>
      && r[k] == catalog[k].(isUnlocked := k == 0, isCompleted := false, lessons := r[k].lessons)
      && |r[k].lessons| == |catalog[k].lessons|
      && forall i :: 0 <= i < |r[k].lessons| ==>
           r[k].lessons[i] == catalog[k].lessons[i].(isUnlocked := k == 0 && i == 0, isCompleted := false)
  {
    seq(|catalog|, k requires 0 <= k < |catalog| =>
      var lv := catalog[k];
      lv.(isUnlocked := k == 0, isCompleted := false,
          lessons := seq(|lv.lessons|, i requires 0 <= i < |lv.lessons| =>
            lv.lessons[i].(isUnlocked := k == 0 && i == 0, isCompleted := false))))
  }

  const InitialState := GameState(InitialUser, SeedLevels(GameData.Levels), GameData.Badges)

  /** A string is truthy in JavaScript when it is not empty: `id || fallback`. */
  function OrElse(s: Option<string>, fallback: string): (r: string)
    ensures s.Some? && s.value != "" ==> r == s.value
    ensures (s.None? || s.value == "") ==> r == fallback
  {
    if s.Some? && s.value != "" then s.value else fallback
  }

  /**
   * `initializeUser`: a user missing its id or its name is replaced by the
   * initial user carrying the host identity (or the demo fallbacks). The
   * level overlay is left as it is.
   */
  function InitializeUser(s: GameState, host: Option<HostUser>): (r: GameState)
    ensures s.user.id != "" && s.user.name != "" ==> r == s
    ensures (s.user.id == "" || s.user.name == "") ==>
      && r.levels == s.levels && r.availableBadges == s.availableBadges
      && r.user.(id := "", name := "") == InitialUser
      && r.user.id == (if host.Some? then OrElse(host.value.id, DemoUserId) else DemoUserId)
      && r.user.name == (if host.Some? then OrElse(host.value.firstName, DemoUserName) else DemoUserName)
  {
    if s.user.id == "" || s.user.name == "" then
      var id := if host.Some? then OrElse(host.value.id, DemoUserId) else DemoUserId;
      var name := if host.Some? then OrElse(host.value.firstName, DemoUserName) else DemoUserName;
      s.(user := InitialUser.(id := id, name := name))
    else
      s
  }

  // ---------------------------------------------------------------------------
  // completeLesson

  /**
   * The variables the nested `Array.map` callbacks of `completeLesson` write as they go:
   * the id of the lesson to unlock next, the completed lesson's reward, and
   * whether (and with which reward) some level has just become completed.
   * They are threaded through every lesson of every level in order.
   */
  datatype Cursor = Cursor(next: Option<string>, lessonReward: Option<Reward>,
                           levelCompleted: bool, levelReward: Option<Reward>)

  const StartCursor := Cursor(None, None, false, None)

  /**
   * `a` is `b` with its flags possibly switched on: the catalog part is
   * untouched and nothing completed or unlocked is undone.
   */
  predicate SameLesson(a: Lesson, b: Lesson)
  {
    && a.(isCompleted := b.isCompleted, isUnlocked := b.isUnlocked) == b
    && (b.isCompleted ==> a.isCompleted)
    && (b.isUnlocked ==> a.isUnlocked)
  }

  /** The same for a level and each of its lessons. */
  predicate SameLevel(a: Level, b: Level)
  {
    && a.(isCompleted := b.isCompleted, isUnlocked := b.isUnlocked, lessons := b.lessons) == b
    && (b.isCompleted ==> a.isCompleted)
    && (b.isUnlocked ==> a.isUnlocked)
    && |a.lessons| == |b.lessons|
    && forall i :: 0 <= i < |a.lessons| ==> SameLesson(a.lessons[i], b.lessons[i])
  }

  /** One lesson of the inner `map`: complete it, or unlock it if it is the one named next. */
  function MarkLesson(lessons: seq<Lesson>, i: nat, lessonId: string, c: Cursor): (Lesson, Cursor)
    requires i < |lessons|
  {
    var l := lessons[i];
    if l.id == lessonId then
      (l.(isCompleted := true),
       c.(lessonReward := Some(l.reward),
          next := if i < |lessons| - 1 then Some(lessons[i + 1].id) else c.next))
    else if c.next == Some(l.id) then
      (l.(isUnlocked := true), c)
    else
      (l, c)
  }

  /** The inner `map` over `lessons[i..]`. */
  function MarkLessons(lessons: seq<Lesson>, i: nat, lessonId: string, c: Cursor): (r: (seq<Lesson>, Cursor))
    requires i <= |lessons|
    ensures |r.0| == |lessons| - i
    ensures forall j :: 0 <= j < |r.0| ==> SameLesson(r.0[j], lessons[i + j])
    ensures r.1.levelCompleted == c.levelCompleted && r.1.levelReward == c.levelReward
    decreases |lessons| - i
  {
    if i == |lessons| then ([], c)
    else
      var head := MarkLesson(lessons, i, lessonId, c);
      var tail := MarkLessons(lessons, i + 1, lessonId, head.1);
      ([head.0] + tail.0, tail.1)
  }

  /** One level of the outer `map`: mark its lessons, then test it for completion. */
  function MarkLevel(lv: Level, lessonId: string, c: Cursor): (Level, Cursor)
  {
    var m := MarkLessons(lv.lessons, 0, lessonId, c);
    if AllCompleted(m.0) && !lv.isCompleted then
      (lv.(lessons := m.0, isCompleted := true),
       m.1.(levelCompleted := true, levelReward := Some(lv.reward)))
    else
      (lv.(lessons := m.0), m.1)
  }

  /** The outer `map` over all levels. */
  function MarkLevels(levels: seq<Level>, lessonId: string, c: Cursor): (r: (seq<Level>, Cursor))
    ensures |r.0| == |levels|
    ensures forall k :: 0 <= k < |levels| ==> SameLevel(r.0[k], levels[k])
    ensures c.levelCompleted ==> r.1.levelCompleted
    decreases |levels|
  {
    if levels == [] then ([], c)
    else
      var head := MarkLevel(levels[0], lessonId, c);
      var tail := MarkLevels(levels[1..], lessonId, head.1);
      ([head.0] + tail.0, tail.1)
  }

  /** The level reward's badges, each appended (stamped `now`) unless a badge with its id is already held. */
  function AddRewardBadges(held: seq<Badge>, rewards: seq<Badge>, now: int): (r: seq<Badge>)
    ensures |r| >= |held| && r[..|held|] == held
    ensures forall j :: |held| <= j < |r| ==> exists b :: b in rewards && r[j] == b.(earnedAt := Some(now))
    ensures forall id :: HasBadge(r, id) <==> HasBadge(held, id) || HasBadge(rewards, id)
    ensures UniqueBadgeIds(held) ==> UniqueBadgeIds(r)
    decreases |rewards|
  {
    if rewards == [] then held
    else
      var held' := AddBadge(held, rewards[0], now);
      var r := AddRewardBadges(held', rewards[1..], now);
      AddRewardStep(held, held', rewards, now, r);
      r
  }

  /** One reward badge: kept out when its id is already held, otherwise appended stamped `now`. */
  function AddBadge(held: seq<Badge>, b: Badge, now: int): (r: seq<Badge>)
    ensures HasBadge(held, b.id) ==> r == held
    ensures !HasBadge(held, b.id) ==> r == held + [b.(earnedAt := Some(now))]
    ensures |r| >= |held| && r[..|held|] == held
    ensures forall j :: |held| <= j < |r| ==> r[j] == b.(earnedAt := Some(now))
    ensures forall id :: HasBadge(r, id) <==> HasBadge(held, id) || b.id == id
    ensures UniqueBadgeIds(held) ==> UniqueBadgeIds(r)
  {
    HasBadgeAppend(held, b.(earnedAt := Some(now)));
    if HasBadge(held, b.id) then held else held + [b.(earnedAt := Some(now))]
  }

  /** The facts about the rest of the rewards carry over to all of them. */
  lemma AddRewardStep(held: seq<Badge>, held': seq<Badge>, rewards: seq<Badge>, now: int, r: seq<Badge>)
    requires rewards != []
    requires |held'| >= |held| && held'[..|held|] == held
    requires forall j :: |held| <= j < |held'| ==> held'[j] == rewards[0].(earnedAt := Some(now))
    requires forall id :: HasBadge(held', id) <==> HasBadge(held, id) || rewards[0].id == id
    requires UniqueBadgeIds(held) ==> UniqueBadgeIds(held')
    requires |r| >= |held'| && r[..|held'|] == held'
    requires forall j :: |held'| <= j < |r| ==> exists b :: b in rewards[1..] && r[j] == b.(earnedAt := Some(now))
    requires forall id :: HasBadge(r, id) <==> HasBadge(held', id) || HasBadge(rewards[1..], id)
    requires UniqueBadgeIds(held') ==> UniqueBadgeIds(r)
    ensures |r| >= |held| && r[..|held|] == held
    ensures forall j :: |held| <= j < |r| ==> exists b :: b in rewards && r[j] == b.(earnedAt := Some(now))
    ensures forall id :: HasBadge(r, id) <==> HasBadge(held, id) || HasBadge(rewards, id)
    ensures UniqueBadgeIds(held) ==> UniqueBadgeIds(r)
  {
    HasBadgeCons(rewards);
    assert r[..|held|] == r[..|held'|][..|held|];
    forall j | |held| <= j < |r|
      ensures exists b :: b in rewards && r[j] == b.(earnedAt := Some(now))
    {
      if j < |held'| {
        assert r[j] == r[..|held'|][j] == held'[j];
        assert rewards[0] in rewards;
      } else {
        var x := r[j];
        assert exists b :: b in rewards[1..] && r[j] == b.(earnedAt := Some(now));
        var b :| b in rewards[1..] && r[j] == b.(earnedAt := Some(now));
        assert b in rewards;
      }
    }
  }

  /** The first index of a level with the given id (`Array.find`). */
  function FindLevel(levels: seq<Level>, id: int): (r: Option<nat>)
    ensures r.Some? ==>
      && r.value < |levels| && levels[r.value].id == id
      && forall j :: 0 <= j < r.value ==> levels[j].id != id
    ensures r.None? ==> forall j :: 0 <= j < |levels| ==> levels[j].id != id
  {
    if levels == [] then None
    else if levels[0].id == id then Some(0)
    else
      var t := FindLevel(levels[1..], id);
      if t.Some? then Some(t.value + 1) else None
  }

  /** Unlock level `j` and its first lesson. */
  function UnlockAt(levels: seq<Level>, j: nat): (r: seq<Level>)
    requires j < |levels|
    ensures |r| == |levels| && forall k :: 0 <= k < |levels| ==> SameLevel(r[k], levels[k])
  {
    var lv := levels[j];
    var lessons := if |lv.lessons| > 0 then lv.lessons[0 := lv.lessons[0].(isUnlocked := true)] else lv.lessons;
    levels[j := lv.(isUnlocked := true, lessons := lessons)]
  }

  /** Whether some level with this id is completed (`Array.findIndex` not returning -1). */
  predicate SomeCompletedWithId(levels: seq<Level>, id: int)
  {
    exists j :: 0 <= j < |levels| && levels[j].isCompleted && levels[j].id == id
  }

  /**
   * The cascade after a level completes: unless a completed level already has
   * the number `current + 1`, the first level with that number (if any) and
   * its first lesson are unlocked and become the user's level.
   */
  function AdvanceLevel(levels: seq<Level>, current: int): (r: (seq<Level>, int))
    ensures |r.0| == |levels|
    ensures r.1 == current || r.1 == current + 1
    ensures r.1 == current ==> r.0 == levels
    ensures r.1 == current + 1 <==> !SomeCompletedWithId(levels, current + 1) && FindLevel(levels, current + 1).Some?
    ensures forall k :: 0 <= k < |levels| ==> SameLevel(r.0[k], levels[k])
  {
    var target := current + 1;
    var next := if !SomeCompletedWithId(levels, target) then FindLevel(levels, target) else None;
    if next.Some? then (UnlockAt(levels, next.value), target) else (levels, current)
  }

  /**
   * `completeLesson`. A lesson already in `completedLessons` changes nothing.
   * Otherwise the lesson is completed, the next one in its level unlocked,
   * rewards added, a newly completed level rewarded, and the level numbered
   * `user.level + 1` unlocked. The id is appended to `completedLessons` even
   * when no lesson has it.
   */
  function CompleteLesson(s: GameState, lessonId: string, now: int): (r: GameState)
    ensures lessonId in s.user.completedLessons ==> r == s
    ensures lessonId !in s.user.completedLessons ==>
      r.user.completedLessons == s.user.completedLessons + [lessonId]
    ensures r.user.id == s.user.id && r.user.name == s.user.name
    ensures r.availableBadges == s.availableBadges
    ensures |r.levels| == |s.levels|
    ensures forall k :: 0 <= k < |s.levels| ==> SameLevel(r.levels[k], s.levels[k])
  {
    if lessonId in s.user.completedLessons then s
    else
      var user := s.user;
      var m := MarkLevels(s.levels, lessonId, StartCursor);
      var c := m.1;
      var lessonCoins := if c.lessonReward.Some? then c.lessonReward.value.coins else 0;
      var lessonXp := if c.lessonReward.Some? then c.lessonReward.value.experience else 0;
      var rewarded := c.levelCompleted && c.levelReward.Some?;
      var levelCoins := if rewarded then c.levelReward.value.coins else 0;
      var levelXp := if rewarded then c.levelReward.value.experience else 0;
      var badges := if rewarded then AddRewardBadges(user.badges, c.levelReward.value.badges, now) else user.badges;
      var advanced := if rewarded then AdvanceLevel(m.0, user.level) else (m.0, user.level);
      var levels := advanced.0;
      var newLevel := advanced.1;
      SameLevelsCompose(levels, m.0, s.levels);
      GameState(
        user.(level := newLevel,
              coins := user.coins + lessonCoins + levelCoins,
              experience := user.experience + lessonXp + levelXp,
              completedLessons := user.completedLessons + [lessonId],
              badges := badges,
              unlockedLevels := if c.levelCompleted then user.unlockedLevels + [newLevel] else user.unlockedLevels),
        levels,
        s.availableBadges)
  }

  /** Flags switched on twice are flags switched on. */
  lemma SameLevelsCompose(a: seq<Level>, b: seq<Level>, c: seq<Level>)
    requires |a| == |b| == |c|
    requires forall k :: 0 <= k < |b| ==> SameLevel(a[k], b[k])
    requires forall k :: 0 <= k < |c| ==> SameLevel(b[k], c[k])
    ensures forall k :: 0 <= k < |c| ==> SameLevel(a[k], c[k])
  {
    forall k | 0 <= k < |c|
      ensures SameLevel(a[k], c[k])
    {
      var x, y, z := a[k], b[k], c[k];
      forall i | 0 <= i < |x.lessons|
        ensures SameLesson(x.lessons[i], z.lessons[i])
      {
        assert SameLesson(x.lessons[i], y.lessons[i]) && SameLesson(y.lessons[i], z.lessons[i]);
      }
    }
  }

  // ---------------------------------------------------------------------------
  // The direct setters

  /**
   * `unlockLevel`: every level with this id, and its first lesson, become
   * unlocked; the id is appended to `unlockedLevels` whether or not a level
   * has it and whether or not it is already there.
   */
  function UnlockLevel(s: GameState, levelId: int): (r: GameState)
    ensures r.user == s.user.(unlockedLevels := s.user.unlockedLevels + [levelId])
    ensures r.availableBadges == s.availableBadges
    ensures |r.levels| == |s.levels|
    ensures forall k :: 0 <= k < |s.levels| && s.levels[k].id != levelId ==> r.levels[k] == s.levels[k]
    ensures forall k :: 0 <= k < |s.levels| && s.levels[k].id == levelId ==>
      && r.levels[k].isUnlocked
      && r.levels[k].(isUnlocked := s.levels[k].isUnlocked, lessons := s.levels[k].lessons) == s.levels[k]
      && |r.levels[k].lessons| == |s.levels[k].lessons|
      && (|s.levels[k].lessons| > 0 ==>
            r.levels[k].lessons[0] == s.levels[k].lessons[0].(isUnlocked := true)
            && r.levels[k].lessons[1..] == s.levels[k].lessons[1..])
  {
    var levels := seq(|s.levels|, k requires 0 <= k < |s.levels| =>
      var lv := s.levels[k];
      if lv.id == levelId then
        lv.(isUnlocked := true,
            lessons := if |lv.lessons| > 0 then lv.lessons[0 := lv.lessons[0].(isUnlocked := true)] else lv.lessons)
      else lv);
    s.(levels := levels, user := s.user.(unlockedLevels := s.user.unlockedLevels + [levelId]))
  }

  /** The first catalog badge with this id (`Array.find`). */
  function FindBadge(badges: seq<Badge>, id: string): (r: Option<Badge>)
    ensures r.Some? <==> HasBadge(badges, id)
    ensures r.Some? ==> r.value.id == id && r.value in badges
  {
    if badges == [] then None
    else if badges[0].id == id then Some(badges[0])
    else
      var t := FindBadge(badges[1..], id);
      assert t.Some? ==> t.value in badges;
      assert HasBadge(badges[1..], id) ==> HasBadge(badges, id) by {
        if HasBadge(badges[1..], id) {
          var k :| 0 <= k < |badges[1..]| && badges[1..][k].id == id;
          assert badges[k + 1].id == id;
        }
      }
      t
  }

  /** `awardBadge`: append a known badge, stamped `now`, unless the user already holds that id. */
  function AwardBadge(s: GameState, badgeId: string, now: int): (r: GameState)
    ensures (!HasBadge(s.availableBadges, badgeId) || HasBadge(s.user.badges, badgeId)) ==> r == s
    ensures HasBadge(s.availableBadges, badgeId) && !HasBadge(s.user.badges, badgeId) ==>
      && r == s.(user := r.user)
      && r.user == s.user.(badges := r.user.badges)
      && |r.user.badges| == |s.user.badges| + 1
      && r.user.badges[..|s.user.badges|] == s.user.badges
      && var b := r.user.badges[|s.user.badges|];
         b.id == badgeId && exists c :: c in s.availableBadges && b == c.(earnedAt := Some(now))
  {
    var badge := FindBadge(s.availableBadges, badgeId);
    if badge.Some? && !HasBadge(s.user.badges, badgeId) then
      s.(user := s.user.(badges := s.user.badges + [badge.value.(earnedAt := Some(now))]))
    else s
  }

  /** `addCoins`: no check on the sign of `amount`. */
  function AddCoins(s: GameState, amount: int): (r: GameState)
    ensures r == s.(user := s.user.(coins := r.user.coins))
    ensures r.user.coins - s.user.coins == amount
  {
    s.(user := s.user.(coins := s.user.coins + amount))
  }

  /** `addExperience`: no check on the sign of `amount`. */
  function AddExperience(s: GameState, amount: int): (r: GameState)
    ensures r == s.(user := s.user.(experience := r.user.experience))
    ensures r.user.experience - s.user.experience == amount
  {
    s.(user := s.user.(experience := s.user.experience + amount))
  }

  /**
   * `checkAchievements`: the achievements whose condition holds, in catalog
   * order. The action only logs them; the state does not change.
   */
  function CheckAchievements(u: User, achievements: seq<Achievement>): (fired: seq<Achievement>)
    ensures forall a :: a in fired <==> a in achievements && Holds(a.condition, u)
    ensures |fired| <= |achievements|
  {
    if achievements == [] then []
    else
      var rest := CheckAchievements(u, achievements[1..]);
      if Holds(achievements[0].condition, u) then [achievements[0]] + rest else rest
  }

  /** `resetProgress`: keep the identity, restore everything else from the catalog. */
  function ResetProgress(s: GameState): (r: GameState)
    ensures r.user == InitialUser.(id := s.user.id, name := s.user.name)
    ensures r.levels == ResetLevels(GameData.Levels)
    ensures r.availableBadges == s.availableBadges
  {
    s.(user := InitialUser.(id := s.user.id, name := s.user.name), levels := ResetLevels(GameData.Levels))
  }
}

=== FILE: game_types.dfy ===
/**
 * The records of the game: badges, rewards, lessons, levels, the user and
 * achievements. Catalog fields and the per-user `isUnlocked`/`isCompleted`
 * overlay live in the same record, as they do in the game.
 */
module GameTypes {
  import opened Wrappers

  datatype Rarity = Common | Rare | Epic | Legendary

  /** A badge; `earnedAt` (milliseconds since the epoch) is set once the user holds it. */
  datatype Badge = Badge(id: string, name: string, rarity: Rarity, earnedAt: Option<int>)

  /** Coins, experience and badges granted for a lesson or a level. */
  datatype Reward = Reward(coins: int, experience: int, badges: seq<Badge>)

  datatype Question = Question(id: string, optionCount: nat, correctAnswer: int)

  datatype Quiz = Quiz(id: string, questions: seq<Question>)

  datatype MiniGameType = BlockBuilder | SecurityChecker | InvestmentSimulator | WalletManager

  /**
   * A lesson. Its content is reduced to the number of sections, which is all
   * the lesson viewer's step machine looks at.
   */
  datatype Lesson = Lesson(
    id: string,
    sectionCount: nat,
    quiz: Option<Quiz>,
    miniGame: Option<MiniGameType>,
    reward: Reward,
    isCompleted: bool,
    isUnlocked: bool)

  datatype Level = Level(
    id: int,
    requiredLevel: int,
    lessons: seq<Lesson>,
    reward: Reward,
    isUnlocked: bool,
    isCompleted: bool)

  datatype User = User(
    id: string,
    name: string,
    level: int,
    coins: int,
    experience: int,
    completedLessons: seq<string>,
    badges: seq<Badge>,
    unlockedLevels: seq<int>)

  /** The two achievement conditions the catalog uses, as data. */
  datatype Condition = CompletedAtLeast(lessons: nat) | ExperienceAbove(points: int)

  datatype Achievement = Achievement(id: string, name: string, condition: Condition, reward: Reward)

  /** Whether an achievement's condition holds of a user. */
  predicate Holds(c: Condition, u: User)
  {
    match c
    case CompletedAtLeast(n) => |u.completedLessons| >= n
    case ExperienceAbove(p) => u.experience > p
  }

  /** Whether some badge in `held` has the given id. */
  predicate HasBadge(held: seq<Badge>, id: string)
  {
    exists k :: 0 <= k < |held| && held[k].id == id
  }

  lemma HasBadgeAppend(held: seq<Badge>, b: Badge)
    ensures forall id :: HasBadge(held + [b], id) <==> HasBadge(held, id) || b.id == id
  {
    forall id | HasBadge(held + [b], id)
      ensures HasBadge(held, id) || b.id == id
    {
      var k :| 0 <= k < |held + [b]| && (held + [b])[k].id == id;
      if k < |held| {
        assert held[k].id == id;
      }
    }
    forall id | HasBadge(held, id)
      ensures HasBadge(held + [b], id)
    {
      var k :| 0 <= k < |held| && held[k].id == id;
      assert (held + [b])[k].id == id;
    }
    assert (held + [b])[|held|] == b;
  }

  lemma HasBadgeCons(badges: seq<Badge>)
    requires |badges| > 0
    ensures forall id :: HasBadge(badges, id) <==> badges[0].id == id || HasBadge(badges[1..], id)
  {
    forall id | HasBadge(badges, id) && badges[0].id != id
      ensures HasBadge(badges[1..], id)
    {
      var k :| 0 <= k < |badges| && badges[k].id == id;
      assert badges[1..][k - 1].id == id;
    }
    forall id | HasBadge(badges[1..], id)
      ensures HasBadge(badges, id)
    {
      var k :| 0 <= k < |badges[1..]| && badges[1..][k].id == id;
      assert badges[k + 1].id == id;
    }
  }

  /** No two badges in `held` share an id. */
  predicate UniqueBadgeIds(held: seq<Badge>)
  {
    forall j, k :: 0 <= j < k < |held| ==> held[j].id != held[k].id
  }

  /** Every lesson of the list is completed (true of an empty list, like `Array.every`). */
  predicate AllCompleted(lessons: seq<Lesson>)
  {
    forall j :: 0 <= j < |lessons| ==> lessons[j].isCompleted
  }
}

=== FILE: lesson_viewer.dfy ===
/**
 * The lesson screen as a state machine: a run of content sections, then the
 * lesson's mini-game and quiz as overlays, then the results view. Clicks are
 * events; a click the screen does not offer is a no-op. Completing the
 * lesson is an outcome the caller turns into the store's `completeLesson`.
 */
module LessonViewer {
  import opened Wrappers
  import opened GameTypes
  import MiniGame

  datatype Viewer = Viewer(section: nat, showQuiz: bool, showMiniGame: bool,
                           answers: map<string, int>, showResults: bool)

  const Start := Viewer(0, false, false, map[], false)

  /** What a click asks of the surrounding page. */
  datatype Outcome = Stay | CompleteLesson | GoBack

  datatype ViewerEvent =
    | NextButton
    | BackButton
    | Choose(questionId: string, option: int)
    | GameOver(success: bool)
    | CompleteButton

  /** `isLastSection`, compared as integers: a lesson without sections is on its last one. */
  predicate IsLast(l: Lesson, s: Viewer)
  {
    s.section as int >= l.sectionCount - 1
  }

  /** The results view: the lesson is recorded as completed. */
  function Finish(s: Viewer): (r: Viewer)
    ensures r.showResults && r == s.(showResults := true)
  {
    s.(showResults := true)
  }

  /**
   * The next button as written. On the last section it opens the
   * mini-game whenever one exists and is not showing, even from the quiz.
   */
  function NextAsWritten(l: Lesson, s: Viewer): (r: (Viewer, Outcome))
    ensures r.1 != GoBack
    ensures !IsLast(l, s) ==> r == (s.(section := s.section + 1), Stay)
    ensures IsLast(l, s) ==> r.0.section == s.section && r.0.answers == s.answers
    ensures r.1 == CompleteLesson <==>
      IsLast(l, s) && (l.miniGame.None? || s.showMiniGame) && (l.quiz.None? || s.showQuiz)
    ensures r.1 == CompleteLesson ==> r.0 == Finish(s)
  {
    if !IsLast(l, s) then (s.(section := s.section + 1), Stay)
    else if l.miniGame.Some? && !s.showMiniGame then (s.(showMiniGame := true), Stay)
    else if l.quiz.Some? && !s.showQuiz then (s.(showQuiz := true), Stay)
    else (Finish(s), CompleteLesson)
  }

  /** The next button with the mini-game step skipped once the quiz is open: the navigation button, labelled Complete while the quiz shows, completes. */
  function Next(l: Lesson, s: Viewer): (r: (Viewer, Outcome))
    ensures r.1 != GoBack
    ensures !IsLast(l, s) ==> r == (s.(section := s.section + 1), Stay)
    ensures IsLast(l, s) ==> r.0.section == s.section && r.0.answers == s.answers
    ensures r.1 == CompleteLesson <==>
      IsLast(l, s) && (l.miniGame.None? || s.showMiniGame || s.showQuiz) && (l.quiz.None? || s.showQuiz)
    ensures r.1 == CompleteLesson ==> r.0 == Finish(s)
  {
    if !IsLast(l, s) then (s.(section := s.section + 1), Stay)
    else if l.miniGame.Some? && !s.showMiniGame && !s.showQuiz then (s.(showMiniGame := true), Stay)
    else if l.quiz.Some? && !s.showQuiz then (s.(showQuiz := true), Stay)
    else (Finish(s), CompleteLesson)
  }

  /** The back button peels one layer: the quiz (back to the mini-game, if any), the mini-game, a section, the page. */
  function Previous(l: Lesson, s: Viewer): (r: (Viewer, Outcome))
    ensures r.1 != CompleteLesson
    ensures r.1 == GoBack <==> !s.showQuiz && !s.showMiniGame && s.section == 0
    ensures r.1 == GoBack ==> r.0 == s
    ensures !r.0.showQuiz && r.0.answers == s.answers && r.0.showResults == s.showResults
    ensures s.showQuiz ==> r.0 == s.(showQuiz := false, showMiniGame := s.showMiniGame || l.miniGame.Some?)
    ensures r.0.section == (if !s.showQuiz && !s.showMiniGame && s.section > 0 then s.section - 1 else s.section)
  {
    if s.showQuiz then (s.(showQuiz := false, showMiniGame := if l.miniGame.Some? then true else s.showMiniGame), Stay)
    else if s.showMiniGame then (s.(showMiniGame := false), Stay)
    else if s.section > 0 then (s.(section := s.section - 1), Stay)
    else (s, GoBack)
  }

  /** The mini-game's report: on success, on to the quiz or straight to completion; on failure, stay for a retry. */
  function GameFinished(l: Lesson, s: Viewer, success: bool): (r: (Viewer, Outcome))
    ensures !success ==> r == (s, Stay)
    ensures success ==> !r.0.showMiniGame && r.0.section == s.section && r.0.answers == s.answers
    ensures success && l.quiz.Some? ==> r == (s.(showMiniGame := false, showQuiz := true), Stay)
    ensures success && l.quiz.None? ==> r == (Finish(s.(showMiniGame := false)), CompleteLesson)
  {
    if !success then (s, Stay)
    else if l.quiz.Some? then (s.(showMiniGame := false, showQuiz := true), Stay)
    else (Finish(s.(showMiniGame := false)), CompleteLesson)
  }

  // ---------------------------------------------------------------------------
  // Quiz

  /** A question of the quiz with this id offers this option. */
  predicate ValidChoice(q: Quiz, id: string, option: int)
  {
    exists i :: 0 <= i < |q.questions| && q.questions[i].id == id && 0 <= option < q.questions[i].optionCount
  }

  predicate IsQuestion(q: Quiz, id: string)
  {
    exists i :: 0 <= i < |q.questions| && q.questions[i].id == id
  }

  /** `allAnswered`: every question's id has an answer. */
  predicate AllAnswered(q: Quiz, answers: map<string, int>)
  {
    forall i :: 0 <= i < |q.questions| ==> q.questions[i].id in answers
  }

  /** The question's recorded answer is its correct one. */
  predicate AnsweredRight(answers: map<string, int>, question: Question)
  {
    question.id in answers && answers[question.id] == question.correctAnswer
  }

  /** `correctAnswers`: how many questions have their correct answer recorded. */
  function QuizCorrect(questions: seq<Question>, answers: map<string, int>): (r: nat)
    ensures r <= |questions|
    ensures r == |questions| <==> forall i :: 0 <= i < |questions| ==> AnsweredRight(answers, questions[i])
    ensures r == 0 <==> forall i :: 0 <= i < |questions| ==> !AnsweredRight(answers, questions[i])
    decreases |questions|
  {
    if questions == [] then 0
    else
      var rest := QuizCorrect(questions[1..], answers);
      assert forall i :: 1 <= i < |questions| ==> questions[1..][i - 1] == questions[i];
      (if AnsweredRight(answers, questions[0]) then 1 else 0) + rest
  }

  /** A perfect tally means every question was answered. */
  lemma PerfectIsComplete(q: Quiz, answers: map<string, int>)
    requires QuizCorrect(q.questions, answers) == |q.questions|
    ensures AllAnswered(q, answers)
  {
    forall i | 0 <= i < |q.questions|
      ensures q.questions[i].id in answers
    {
      assert AnsweredRight(answers, q.questions[i]);
    }
  }

  /** The quiz is on screen: open, and not covered by the mini-game. */
  predicate InQuiz(l: Lesson, s: Viewer)
  {
    s.showQuiz && !(s.showMiniGame && l.miniGame.Some?) && l.quiz.Some?
  }

  // ---------------------------------------------------------------------------
  // Events

  /**
   * The clicks the screen offers. `reports` is the set of results the mounted
   * mini-game can send. The results view offers nothing; the next button is
   * disabled while the mini-game plays; an option can be picked only in the
   * quiz view, once per question; the in-quiz completion button appears when
   * every question is answered.
   */
  predicate Enabled(l: Lesson, reports: set<bool>, s: Viewer, e: ViewerEvent)
  {
    !s.showResults &&
    match e
    case NextButton => !s.showMiniGame
    case BackButton => true
    case Choose(id, option) => InQuiz(l, s) && ValidChoice(l.quiz.value, id, option) && id !in s.answers
    case GameOver(success) => s.showMiniGame && l.miniGame.Some? && success in reports
    case CompleteButton => InQuiz(l, s) && AllAnswered(l.quiz.value, s.answers)
  }

  /** One click, with the next button as written or corrected. */
  function StepWith(l: Lesson, reports: set<bool>, asWritten: bool, s: Viewer, e: ViewerEvent): (r: (Viewer, Outcome))
    ensures !Enabled(l, reports, s, e) ==> r == (s, Stay)
    ensures s.showResults ==> r == (s, Stay)
    ensures r.1 == CompleteLesson ==> !s.showResults && r.0.showResults
    ensures r.1 != CompleteLesson ==> r.0.showResults == s.showResults
  {
    if !Enabled(l, reports, s, e) then (s, Stay)
    else
      match e
      case NextButton => if asWritten then NextAsWritten(l, s) else Next(l, s)
      case BackButton => Previous(l, s)
      case Choose(id, option) => (s.(answers := s.answers[id := option]), Stay)
      case GameOver(success) => GameFinished(l, s, success)
      case CompleteButton => (Finish(s), CompleteLesson)
  }

  /** A run of clicks: the final state and each click's outcome. */
  function RunWith(l: Lesson, reports: set<bool>, asWritten: bool, s: Viewer, events: seq<ViewerEvent>): (r: (Viewer, seq<Outcome>))
    ensures |r.1| == |events|
    decreases |events|
  {
    if events == [] then (s, [])
    else
      var step := StepWith(l, reports, asWritten, s, events[0]);
      var rest := RunWith(l, reports, asWritten, step.0, events[1..]);
      (rest.0, [step.1] + rest.1)
  }

  /** What the mounted mini-game reports once it is given the lesson's game type. */
  function Mounted(l: Lesson): (r: set<bool>)
    ensures l.miniGame.Some? ==> r == {true}
  {
    MiniGame.Reports(MiniGame.Dispatch(l.miniGame))
  }

  /**
   * As written, the mini-game is mounted with a `miniGame` prop while it reads
   * `type`, so it always shows "Coming Soon" and never reports.
   */
  function MountedAsWritten(l: Lesson): (r: set<bool>)
    ensures r == {}
  {
    MiniGame.Reports(MiniGame.Dispatch(None))
  }

  function Run(l: Lesson, s: Viewer, events: seq<ViewerEvent>): (Viewer, seq<Outcome>)
  {
    RunWith(l, Mounted(l), false, s, events)
  }

  function RunAsWritten(l: Lesson, s: Viewer, events: seq<ViewerEvent>): (Viewer, seq<Outcome>)
  {
    RunWith(l, MountedAsWritten(l), true, s, events)
  }

  // ---------------------------------------------------------------------------
  // Properties

  /**
   * What every reachable screen satisfies: the section is in range, an
   * overlay is open only if the lesson has it and only on the last section,
   * and answers are recorded only for the quiz's questions.
   */
  predicate ViewerInv(l: Lesson, s: Viewer)
  {
    && (if l.sectionCount == 0 then s.section == 0 else s.section < l.sectionCount)
    && (s.showMiniGame ==> l.miniGame.Some?)
    && (s.showQuiz ==> l.quiz.Some?)
    && (s.showQuiz || s.showMiniGame ==> IsLast(l, s))
    && (forall id :: id in s.answers ==> l.quiz.Some? && IsQuestion(l.quiz.value, id))
  }

  lemma StartInv(l: Lesson)
    ensures ViewerInv(l, Start)
  {
  }

  lemma StepKeepsInv(l: Lesson, reports: set<bool>, asWritten: bool, s: Viewer, e: ViewerEvent)
    requires ViewerInv(l, s)
    ensures ViewerInv(l, StepWith(l, reports, asWritten, s, e).0)
  {
    var t := StepWith(l, reports, asWritten, s, e).0;
    if e.Choose? && Enabled(l, reports, s, e) {
      forall id | id in t.answers
        ensures IsQuestion(l.quiz.value, id)
      {
        if id == e.questionId {
          var i :| 0 <= i < |l.quiz.value.questions| && l.quiz.value.questions[i].id == id
                   && 0 <= e.option < l.quiz.value.questions[i].optionCount;
        }
      }
    }
  }

  /** Recorded answers are never changed or withdrawn: each question takes one answer. */
  lemma StepKeepsAnswers(l: Lesson, reports: set<bool>, asWritten: bool, s: Viewer, e: ViewerEvent)
    ensures var t := StepWith(l, reports, asWritten, s, e).0;
      forall id :: id in s.answers ==> id in t.answers && t.answers[id] == s.answers[id]
    ensures e.Choose? && Enabled(l, reports, s, e) ==>
      var t := StepWith(l, reports, asWritten, s, e).0;
      t.answers == s.answers[e.questionId := e.option] && !Enabled(l, reports, t, e)
  {
  }

  lemma {:induction false} RunKeepsInv(l: Lesson, reports: set<bool>, asWritten: bool, s: Viewer, events: seq<ViewerEvent>)
    requires ViewerInv(l, s)
    ensures ViewerInv(l, RunWith(l, reports, asWritten, s, events).0)
    decreases |events|
  {
    if events != [] {
      StepKeepsInv(l, reports, asWritten, s, events[0]);
      RunKeepsInv(l, reports, asWritten, StepWith(l, reports, asWritten, s, events[0]).0, events[1..]);
    }
  }

  /** The back button undoes a (corrected) next click that did not complete the lesson. */
  lemma PreviousUndoesNext(l: Lesson, s: Viewer)
    requires ViewerInv(l, s) && !s.showMiniGame && Next(l, s).1 == Stay
    ensures Previous(l, Next(l, s).0) == (s, Stay)
  {
  }

  /**
   * As written, back undoes a next click too, except from the open quiz of a
   * lesson that also has a mini-game, where next reopens the game.
   */
  lemma PreviousUndoesNextAsWritten(l: Lesson, s: Viewer)
    requires ViewerInv(l, s) && !s.showMiniGame && NextAsWritten(l, s).1 == Stay
    requires !(s.showQuiz && l.miniGame.Some?)
    ensures Previous(l, NextAsWritten(l, s).0) == (s, Stay)
  {
  }

  /** The excluded case: from that quiz, next then back leaves the mini-game showing instead of the quiz. */
  lemma PreviousAfterReopenedGame(l: Lesson, s: Viewer)
    requires ViewerInv(l, s) && InQuiz(l, s) && l.miniGame.Some?
    ensures NextAsWritten(l, s).1 == Stay
    ensures Previous(l, NextAsWritten(l, s).0) == (s.(showQuiz := false, showMiniGame := true), Stay)
    ensures Previous(l, NextAsWritten(l, s).0).0 != s
  {
  }

  /** The results view offers no further action: every click leaves it as it is. */
  lemma {:induction false} ResultsAreFinal(l: Lesson, reports: set<bool>, asWritten: bool, s: Viewer, events: seq<ViewerEvent>)
    requires s.showResults
    ensures RunWith(l, reports, asWritten, s, events).0 == s
    ensures forall i :: 0 <= i < |events| ==> RunWith(l, reports, asWritten, s, events).1[i] == Stay
    decreases |events|
  {
    if events != [] {
      ResultsAreFinal(l, reports, asWritten, s, events[1..]);
    }
  }

  /** The lesson is completed at most once per visit; not at all from the results view. */
  lemma {:induction false} CompletesAtMostOnce(l: Lesson, reports: set<bool>, asWritten: bool, s: Viewer, events: seq<ViewerEvent>, i: int, j: int)
    requires 0 <= i < j < |events|
    requires RunWith(l, reports, asWritten, s, events).1[i] == CompleteLesson
    ensures RunWith(l, reports, asWritten, s, events).1[j] != CompleteLesson
    decreases |events|
  {
    var step := StepWith(l, reports, asWritten, s, events[0]);
    var rest := RunWith(l, reports, asWritten, step.0, events[1..]);
    assert RunWith(l, reports, asWritten, s, events).1 == [step.1] + rest.1;
    if i == 0 {
      ResultsAreFinal(l, reports, asWritten, step.0, events[1..]);
      assert rest.1[j - 1] == Stay;
    } else {
      CompletesAtMostOnce(l, reports, asWritten, step.0, events[1..], i - 1, j - 1);
    }
  }

  /**
   * The navigation button, labelled "Complete" while the quiz shows, calls
   * the same handler as on any other step: a lesson with a quiz and no
   * mini-game completes in two clicks with no question answered, as written
   * and corrected alike.
   */
  lemma NavCompletesUnanswered(l: Lesson)
    requires l.miniGame.None? && l.quiz.Some? && l.sectionCount <= 1
    ensures RunAsWritten(l, Start, [NextButton, NextButton]) == (Finish(Start.(showQuiz := true)), [Stay, CompleteLesson])
    ensures Run(l, Start, [NextButton, NextButton]) == (Finish(Start.(showQuiz := true)), [Stay, CompleteLesson])
    ensures Finish(Start.(showQuiz := true)).answers == map[]
  {
    NavClicks(l, MountedAsWritten(l), true);
    NavClicks(l, Mounted(l), false);
  }

  lemma NavClicks(l: Lesson, reports: set<bool>, asWritten: bool)
    requires l.miniGame.None? && l.quiz.Some? && l.sectionCount <= 1
    ensures RunWith(l, reports, asWritten, Start, [NextButton, NextButton]) == (Finish(Start.(showQuiz := true)), [Stay, CompleteLesson])
  {
    var s1 := Start.(showQuiz := true);
    var s2 := Finish(s1);
    assert StepWith(l, reports, asWritten, Start, NextButton) == (s1, Stay);
    assert StepWith(l, reports, asWritten, s1, NextButton) == (s2, CompleteLesson);
    assert RunWith(l, reports, asWritten, s2, []) == (s2, []);
    var one, two := [NextButton], [NextButton, NextButton];
    assert one[0] == NextButton && one[1..] == [];
    assert two[0] == NextButton && two[1..] == one;
    var run1 := RunWith(l, reports, asWritten, s1, one);
    assert run1.0 == s2 && run1.1 == [CompleteLesson];
    var run2 := RunWith(l, reports, asWritten, Start, two);
    assert run2.0 == s2 && run2.1 == [Stay, CompleteLesson];
  }

  /** The quiz's own completion button does not depend on the score: only on which questions have answers. */
  lemma CompletionIgnoresScore(l: Lesson, reports: set<bool>, s: Viewer, other: map<string, int>)
    requires other.Keys == s.answers.Keys
    ensures Enabled(l, reports, s, CompleteButton) == Enabled(l, reports, s.(answers := other), CompleteButton)
    ensures Enabled(l, reports, s, CompleteButton) ==>
      StepWith(l, reports, false, s, CompleteButton).1 == CompleteLesson
  {
    if l.quiz.Some? {
      assert AllAnswered(l.quiz.value, s.answers) == AllAnswered(l.quiz.value, other) by {
        forall i | 0 <= i < |l.quiz.value.questions|
          ensures (l.quiz.value.questions[i].id in s.answers) == (l.quiz.value.questions[i].id in other)
        {
        }
      }
    }
  }

  // ---------------------------------------------------------------------------
  // The navigation button, labelled Complete while the quiz shows, reopens the mini-game

  /** As written: with both a mini-game and a quiz, the navigation button, labelled Complete while the quiz shows, starts the mini-game again. */
  lemma QuizButtonReopensGame(l: Lesson, s: Viewer)
    requires l.miniGame.Some? && l.quiz.Some? && IsLast(l, s)
    requires s.showQuiz && !s.showMiniGame
    ensures NextAsWritten(l, s) == (s.(showMiniGame := true), Stay)
  {
  }

  /** Corrected: the navigation button, labelled Complete while the quiz shows, completes the lesson. */
  lemma QuizButtonCompletes(l: Lesson, s: Viewer)
    requires ViewerInv(l, s) && InQuiz(l, s)
    ensures Next(l, s) == (Finish(s), CompleteLesson)
  {
  }

  // ---------------------------------------------------------------------------
  // A lesson with a mini-game cannot be completed as written

  /** What holds along any as-written run of a lesson with a mini-game: the quiz never opens, the results never show. */
  ghost predicate Stuck(l: Lesson, s: Viewer)
  {
    l.miniGame.Some? && !s.showQuiz && !s.showResults
  }

  lemma StuckStep(l: Lesson, s: Viewer, e: ViewerEvent)
    requires Stuck(l, s)
    ensures StepWith(l, MountedAsWritten(l), true, s, e).1 != CompleteLesson
    ensures Stuck(l, StepWith(l, MountedAsWritten(l), true, s, e).0)
  {
  }

  /** As written, no sequence of clicks completes a lesson that has a mini-game. */
  lemma {:induction false} GameLessonNeverCompletes(l: Lesson, s: Viewer, events: seq<ViewerEvent>)
    requires Stuck(l, s)
    ensures CompleteLesson !in RunAsWritten(l, s, events).1
    decreases |events|
  {
    if events != [] {
      var step := StepWith(l, MountedAsWritten(l), true, s, events[0]);
      StuckStep(l, s, events[0]);
      GameLessonNeverCompletes(l, step.0, events[1..]);
      assert RunAsWritten(l, s, events).1 == [step.1] + RunAsWritten(l, step.0, events[1..]).1;
    }
  }

  lemma GameLessonStuckFromStart(l: Lesson, events: seq<ViewerEvent>)
    requires l.miniGame.Some?
    ensures CompleteLesson !in RunAsWritten(l, Start, events).1
  {
    GameLessonNeverCompletes(l, Start, events);
  }

  /**
   * With the game type passed through, a one-section lesson with a mini-game
   * completes with the corrected next button as well: start the game and win
   * it, then, if there is a quiz, press the navigation button, labelled
   * Complete while the quiz shows (as written it would reopen the game).
   */
  lemma GameLessonCompletes(l: Lesson)
    requires l.miniGame.Some? && l.sectionCount <= 1
    ensures l.quiz.None? ==> Run(l, Start, [NextButton, GameOver(true)]).1 == [Stay, CompleteLesson]
    ensures l.quiz.Some? ==> Run(l, Start, [NextButton, GameOver(true), NextButton]).1 == [Stay, Stay, CompleteLesson]
  {
    var r := Mounted(l);
    var s1 := Start.(showMiniGame := true);
    assert StepWith(l, r, false, Start, NextButton) == (s1, Stay);
    if l.quiz.None? {
      var s2 := Finish(s1.(showMiniGame := false));
      assert StepWith(l, r, false, s1, GameOver(true)) == (s2, CompleteLesson);
      assert Run(l, s2, []) == (s2, []);
      assert Run(l, s1, [GameOver(true)]).1 == [CompleteLesson] + [];
      assert [NextButton, GameOver(true)][1..] == [GameOver(true)];
    } else {
      var s2 := s1.(showMiniGame := false, showQuiz := true);
      assert StepWith(l, r, false, s1, GameOver(true)) == (s2, Stay);
      var s3 := Finish(s2);
      assert StepWith(l, r, false, s2, NextButton) == (s3, CompleteLesson);
      assert Run(l, s3, []) == (s3, []);
      assert Run(l, s2, [NextButton]).1 == [CompleteLesson];
      assert [GameOver(true), NextButton][1..] == [NextButton];
      assert Run(l, s1, [GameOver(true), NextButton]).1 == [Stay, CompleteLesson];
      assert [NextButton, GameOver(true), NextButton][1..] == [GameOver(true), NextButton];
    }
  }
}

=== FILE: mini_game.dfy ===
/**
 * The mini-games: the block builder (a pool of transactions moved into a
 * block, with a mock hash), the security checker (timed multiple-choice
 * scenarios scored in percent), and the type dispatch that picks one. The
 * builder's validation delay and the checker's countdown are explicit
 * events; haptics and animation are not modelled.
 */
module MiniGame {
  import opened Wrappers
  import opened GameTypes

  // ---------------------------------------------------------------------------
  // Numerals

  /** The lower-case digit character for `d`. */
  function DigitChar(d: nat): char
    requires d < 16
  {
    if d < 10 then ('0' as int + d) as char else ('a' as int + d - 10) as char
  }

  /** The value of a digit character in `base`, if it is one. */
  function DigitValue(c: char, base: nat): (r: Option<nat>)
    requires 2 <= base <= 16
    ensures r.Some? ==> r.value < base && DigitChar(r.value) == c
  {
    if '0' <= c <= '9' && (c as int - '0' as int) < base then Some(c as int - '0' as int)
    else if 'a' <= c <= 'f' && (c as int - 'a' as int) + 10 < base then Some(c as int - 'a' as int + 10)
    else None
  }

  lemma DigitRoundTrip(d: nat, base: nat)
    requires 2 <= base <= 16 && d < base
    ensures DigitValue(DigitChar(d), base) == Some(d)
    ensures DigitChar(d) == '0' <==> d == 0
  {
  }

  /** The quotient and remainder `ToBase` splits a number into. */
  lemma DivMod(n: nat, base: nat)
    requires 2 <= base <= 16 && n >= base
    ensures 1 <= n / base < n && n % base < base && n == (n / base) * base + n % base
  {
  }

  /** `n` written in `base` (2 to 16) with lower-case digits and no leading zero, like `Number.toString(base)`. */
  function ToBase(n: nat, base: nat): (r: string)
    requires 2 <= base <= 16
    ensures |r| >= 1
    ensures forall i :: 0 <= i < |r| ==> DigitValue(r[i], base).Some?
    ensures r[0] == '0' <==> n == 0
    decreases n
  {
    if n < base then
      DigitRoundTrip(n, base);
      [DigitChar(n)]
    else
      DivMod(n, base);
      DigitRoundTrip(n % base, base);
      ToBase(n / base, base) + [DigitChar(n % base)]
  }

  /** Read a non-empty string of digits in `base`; leading zeros are allowed. */
  function FromBase(s: string, base: nat): Option<nat>
    requires 2 <= base <= 16
    decreases |s|
  {
    if |s| == 0 then None
    else
      var last := DigitValue(s[|s| - 1], base);
      if last.None? then None
      else if |s| == 1 then last
      else
        var front := FromBase(s[..|s| - 1], base);
        if front.None? then None else Some(front.value * base + last.value)
  }

  /** Reading back what `ToBase` writes gives the number. */
  lemma {:induction false} ToBaseRoundTrip(n: nat, base: nat)
    requires 2 <= base <= 16
    ensures FromBase(ToBase(n, base), base) == Some(n)
    decreases n
  {
    if n < base {
      DigitRoundTrip(n, base);
    } else {
      DivMod(n, base);
      var q, m := n / base, n % base;
      var front := ToBase(q, base);
      var s := front + [DigitChar(m)];
      assert ToBase(n, base) == s;
      ToBaseRoundTrip(q, base);
      DigitRoundTrip(m, base);
      assert s[..|s| - 1] == front;
      assert DigitValue(s[|s| - 1], base) == Some(m);
      assert FromBase(s, base) == Some(q * base + m);
    }
  }

  /** A leading zero does not change a numeral's value. */
  lemma {:induction false} LeadingZero(s: string, base: nat)
    requires 2 <= base <= 16 && |s| >= 1
    ensures FromBase("0" + s, base) == FromBase(s, base)
    decreases |s|
  {
    var z := "0" + s;
    if |s| > 1 {
      assert z[..|z| - 1] == "0" + s[..|s| - 1];
      LeadingZero(s[..|s| - 1], base);
      SameFrontSameValue(z, s, base);
    } else {
      assert z == ['0', s[0]];
      ZeroThenDigit(s[0], base);
    }
  }

  /** Two numerals of length two or more with the same last character and equal fronts read the same. */
  lemma SameFrontSameValue(a: string, b: string, base: nat)
    requires 2 <= base <= 16 && |a| >= 2 && |b| >= 2 && a[|a| - 1] == b[|b| - 1]
    requires FromBase(a[..|a| - 1], base) == FromBase(b[..|b| - 1], base)
    ensures FromBase(a, base) == FromBase(b, base)
  {
  }

  /** "0" followed by one character reads as that character alone. */
  lemma ZeroThenDigit(c: char, base: nat)
    requires 2 <= base <= 16
    ensures FromBase(['0', c], base) == FromBase([c], base)
  {
    assert ['0', c][..1] == ['0'];
    assert FromBase(['0'], base) == Some(0);
  }

  function Repeat(c: char, n: nat): (r: string)
    ensures |r| == n && forall i :: 0 <= i < n ==> r[i] == c
  {
    if n == 0 then "" else [c] + Repeat(c, n - 1)
  }

  lemma {:induction false} LeadingZeros(k: nat, s: string, base: nat)
    requires 2 <= base <= 16 && |s| >= 1
    ensures FromBase(Repeat('0', k) + s, base) == FromBase(s, base)
    decreases k
  {
    if k > 0 {
      assert Repeat('0', k) + s == "0" + (Repeat('0', k - 1) + s);
      LeadingZero(Repeat('0', k - 1) + s, base);
      LeadingZeros(k - 1, s, base);
    } else {
      assert Repeat('0', k) + s == s;
    }
  }

  /** `padStart(width, c)`: `c` repeated in front up to `width` characters; a longer string is left alone. */
  function PadStart(s: string, width: nat, c: char): (r: string)
    ensures |s| >= width ==> r == s
    ensures |s| < width ==> |r| == width
    ensures |r| >= |s| && r[|r| - |s|..] == s
    ensures forall i :: 0 <= i < |r| - |s| ==> r[i] == c
  {
    if |s| >= width then s else Repeat(c, width - |s|) + s
  }

  /** `Number.toString(16)` of an integer: a minus sign, then the hex digits of the magnitude. */
  function JsHex(n: int): string
  {
    if n < 0 then "-" + ToBase(-n, 16) else ToBase(n, 16)
  }

  // ---------------------------------------------------------------------------
  // Block builder

  /** A transfer as the lesson data gives it. */
  datatype Transfer = Transfer(from: string, to: string, amount: int)

  /** A pool transaction: a transfer tagged with its position in the data. */
  datatype Tx = Tx(transfer: Transfer, id: string)

  datatype Phase = Playing | Completed | Failed

  /** The block on screen; the timestamp and nonce are presentation and are left out. */
  datatype Block = Block(transactions: seq<Tx>, previousHash: string, hash: string)

  /**
   * The builder's state. `timers` counts the validation timers started and
   * not yet fired: nothing ever cancels one.
   */
  datatype Builder = Builder(selected: seq<Tx>, available: seq<Tx>, block: Block,
                             validating: bool, timers: nat, phase: Phase, score: int)

  const PreviousHash := "000abc123def456..."

  function TxId(i: nat): string
  {
    "tx-" + ToBase(i, 10)
  }

  /** Distinct positions give distinct ids. */
  lemma TxIdInjective(i: nat, j: nat)
    requires TxId(i) == TxId(j)
    ensures i == j
  {
    assert TxId(i)[3..] == ToBase(i, 10);
    assert TxId(j)[3..] == ToBase(j, 10);
    ToBaseRoundTrip(i, 10);
    ToBaseRoundTrip(j, 10);
  }

  /** The data's transfers tagged `tx-0`, `tx-1`, … in order. */
  function Tagged(data: seq<Transfer>): (r: seq<Tx>)
    ensures |r| == |data|
    ensures forall i :: 0 <= i < |r| ==> r[i] == Tx(data[i], TxId(i))
  {
    seq(|data|, i requires 0 <= i < |data| => Tx(data[i], TxId(i)))
  }

  predicate DistinctTxIds(txs: seq<Tx>)
  {
    forall i, j :: 0 <= i < j < |txs| ==> txs[i].id != txs[j].id
  }

  lemma TaggedDistinct(data: seq<Transfer>)
    ensures DistinctTxIds(Tagged(data))
  {
    var t := Tagged(data);
    forall i, j | 0 <= i < j < |t|
      ensures t[i].id != t[j].id
    {
      if t[i].id == t[j].id {
        TxIdInjective(i, j);
      }
    }
  }

  function SumAmounts(txs: seq<Tx>): int
  {
    if txs == [] then 0 else SumAmounts(txs[..|txs| - 1]) + txs[|txs| - 1].transfer.amount
  }

  /**
   * `generateMockHash`: empty for no transactions, otherwise `00`, the hex
   * of the summed amounts padded with zeros to six characters, and `...`.
   */
  function MockHash(txs: seq<Tx>): (r: string)
    ensures txs == [] <==> r == ""
    ensures txs != [] ==>
      && |r| >= 11 && r[..2] == "00" && r[|r| - 3..] == "..."
      && r[2..|r| - 3] == PadStart(JsHex(SumAmounts(txs)), 6, '0')
  {
    if txs == [] then ""
    else
      var digits := PadStart(JsHex(SumAmounts(txs)), 6, '0');
      var r := "00" + digits + "...";
      assert r[2..|r| - 3] == digits;
      r
  }

  /** Read the amount back out of a mock hash; `None` for anything `MockHash` does not write. */
  function HashAmount(h: string): Option<nat>
  {
    if |h| < 5 || h[..2] != "00" || h[|h| - 3..] != "..." then None
    else FromBase(h[2..|h| - 3], 16)
  }

  /** The hash encodes the block's total: reading it back gives the sum of the amounts when that is not negative. */
  lemma MockHashRoundTrip(txs: seq<Tx>)
    requires txs != [] && SumAmounts(txs) >= 0
    ensures HashAmount(MockHash(txs)) == Some(SumAmounts(txs) as nat)
  {
    var n := SumAmounts(txs) as nat;
    var padded := PadStart(ToBase(n, 16), 6, '0');
    assert JsHex(SumAmounts(txs)) == ToBase(n, 16);
    PaddedRoundTrip(n);
    HashReadsDigits(padded);
  }

  /** The padded hex digits of `n` read back as `n`. */
  lemma PaddedRoundTrip(n: nat)
    ensures FromBase(PadStart(ToBase(n, 16), 6, '0'), 16) == Some(n)
  {
    var hex := ToBase(n, 16);
    if |hex| < 6 {
      assert PadStart(hex, 6, '0') == Repeat('0', 6 - |hex|) + hex;
      LeadingZeros(6 - |hex|, hex, 16);
    }
    ToBaseRoundTrip(n, 16);
  }

  /** Reading a mock hash reads the digits between its "00" and its "...". */
  lemma HashReadsDigits(digits: string)
    requires |digits| >= 6
    ensures HashAmount("00" + digits + "...") == FromBase(digits, 16)
  {
    var h := "00" + digits + "...";
    assert h[..2] == "00" && h[|h| - 3..] == "..." && h[2..|h| - 3] == digits;
  }

  /** The builder as it mounts, and as `handleReset` restores it, apart from pending timers. */
  function FreshBuilder(data: seq<Transfer>, timers: nat): Builder
  {
    Builder([], Tagged(data), Block([], PreviousHash, ""), false, timers, Playing, 0)
  }

  function StartBuilder(data: seq<Transfer>): (r: Builder)
    ensures r.selected == [] && r.available == Tagged(data) && r.phase == Playing && r.timers == 0
  {
    FreshBuilder(data, 0)
  }

  /** The transactions whose id is not `id`, in order, as `Array.filter` keeps them. */
  function WithoutId(txs: seq<Tx>, id: string): (r: seq<Tx>)
    ensures |r| <= |txs|
    ensures forall x :: x in r <==> x in txs && x.id != id
  {
    if txs == [] then []
    else if txs[|txs| - 1].id == id then WithoutId(txs[..|txs| - 1], id)
    else WithoutId(txs[..|txs| - 1], id) + [txs[|txs| - 1]]
  }

  /** With distinct ids, filtering out the id of element `k` removes exactly that element. */
  lemma {:induction false} WithoutIdAt(txs: seq<Tx>, k: nat)
    requires DistinctTxIds(txs) && k < |txs|
    ensures WithoutId(txs, txs[k].id) == txs[..k] + txs[k + 1..]
    decreases |txs|
  {
    var n := |txs| - 1;
    var front := txs[..n];
    DistinctFront(txs);
    if k == n {
      WithoutIdLast(txs);
    } else {
      assert front[k] == txs[k];
      WithoutIdAt(front, k);
      WithoutIdKeepsLast(txs, txs[k].id);
      SpliceSnoc(txs, k);
    }
  }

  /** Dropping the last element keeps ids distinct. */
  lemma DistinctFront(txs: seq<Tx>)
    requires DistinctTxIds(txs) && |txs| > 0
    ensures DistinctTxIds(txs[..|txs| - 1])
  {
    var front := txs[..|txs| - 1];
    forall i, j | 0 <= i < j < |front|
      ensures front[i].id != front[j].id
    {
      assert front[i] == txs[i] && front[j] == txs[j];
    }
  }

  /** With distinct ids, filtering out the last element's id removes just that element. */
  lemma WithoutIdLast(txs: seq<Tx>)
    requires DistinctTxIds(txs) && |txs| > 0
    ensures WithoutId(txs, txs[|txs| - 1].id) == txs[..|txs| - 1]
  {
    var n := |txs| - 1;
    var front, id := txs[..n], txs[n].id;
    forall i | 0 <= i < |front|
      ensures front[i].id != id
    {
      assert front[i] == txs[i];
    }
    WithoutIdNone(front, id);
  }

  /** Filtering out an id the last element does not have keeps that element at the end. */
  lemma WithoutIdKeepsLast(txs: seq<Tx>, id: string)
    requires |txs| > 0 && txs[|txs| - 1].id != id
    ensures WithoutId(txs, id) == WithoutId(txs[..|txs| - 1], id) + [txs[|txs| - 1]]
  {
  }

  /** Cutting entry `k` out of a list, then adding the last element, equals cutting it from the whole list. */
  lemma SpliceSnoc(txs: seq<Tx>, k: nat)
    requires k + 1 < |txs|
    ensures var front := txs[..|txs| - 1];
      front[..k] + front[k + 1..] + [txs[|txs| - 1]] == txs[..k] + txs[k + 1..]
  {
    var n := |txs| - 1;
    var front := txs[..n];
    assert front[..k] == txs[..k];
    assert front[k + 1..] + [txs[n]] == txs[k + 1..];
  }

  /** Filtering out an id that no element has changes nothing. */
  lemma {:induction false} WithoutIdNone(txs: seq<Tx>, id: string)
    requires forall i :: 0 <= i < |txs| ==> txs[i].id != id
    ensures WithoutId(txs, id) == txs
    decreases |txs|
  {
    if txs != [] {
      var front := txs[..|txs| - 1];
      assert forall i :: 0 <= i < |front| ==> front[i] == txs[i];
      WithoutIdNone(front, id);
      WithoutIdKeepsLast(txs, id);
      assert front + [txs[|txs| - 1]] == txs;
    }
  }

  /**
   * `handleTransactionSelect` on pool entry `k`: it moves to the end of the
   * selection, leaves the pool by id, and the block shows the selection and
   * its hash. Selecting the data's last transaction starts validation and a
   * timer. The pool buttons do nothing outside play.
   */
  function Select(data: seq<Transfer>, b: Builder, k: nat): (r: Builder)
    requires k < |b.available|
    ensures b.phase != Playing ==> r == b
    ensures b.phase == Playing ==>
      && r.selected == b.selected + [b.available[k]]
      && r.available == WithoutId(b.available, b.available[k].id)
      && r.block == b.block.(transactions := r.selected, hash := MockHash(r.selected))
      && r.phase == Playing && r.score == b.score
      && (|r.selected| == |data| ==> r.validating && r.timers == b.timers + 1)
      && (|r.selected| != |data| ==> r.validating == b.validating && r.timers == b.timers)
  {
    if b.phase != Playing then b
    else
      var t := b.available[k];
      var selected := b.selected + [t];
      var full := |selected| == |data|;
      b.(selected := selected,
         available := WithoutId(b.available, t.id),
         block := b.block.(transactions := selected, hash := MockHash(selected)),
         validating := if full then true else b.validating,
         timers := if full then b.timers + 1 else b.timers)
  }

  /**
   * `handleRemoveTransaction` on block entry `k`: it leaves the selection by
   * id and goes back to the end of the pool; the block is updated. A pending
   * validation is not cancelled.
   */
  function Remove(b: Builder, k: nat): (r: Builder)
    requires k < |b.selected|
    ensures b.phase != Playing ==> r == b
    ensures b.phase == Playing ==>
      && r.selected == WithoutId(b.selected, b.selected[k].id)
      && r.available == b.available + [b.selected[k]]
      && r.block == b.block.(transactions := r.selected, hash := MockHash(r.selected))
      && r.validating == b.validating && r.timers == b.timers && r.phase == b.phase
  {
    if b.phase != Playing then b
    else
      var t := b.selected[k];
      var selected := WithoutId(b.selected, t.id);
      b.(selected := selected,
         available := b.available + [t],
         block := b.block.(transactions := selected, hash := MockHash(selected)))
  }

  /** `handleReset`, shown only in play: back to the mounted builder, but started timers keep running. */
  function ResetAsWritten(data: seq<Transfer>, b: Builder): (r: Builder)
    ensures b.phase == Playing ==> r == FreshBuilder(data, b.timers)
    ensures b.phase != Playing ==> r == b
  {
    if b.phase == Playing then FreshBuilder(data, b.timers) else b
  }

  /** A validation timer firing: the game is completed with score 100, whatever the block now holds. */
  function TimerFires(b: Builder): (r: Builder)
    requires b.timers > 0
    ensures r.phase == Completed && r.score == 100 && r.timers == b.timers - 1
    ensures r.selected == b.selected && r.available == b.available
  {
    b.(timers := b.timers - 1, phase := Completed, score := 100)
  }

  datatype BuilderEvent = SelectTx(k: nat) | RemoveTx(k: nat) | ResetBlock | Validated

  /** An event is possible when the button or timer it stands for exists. */
  predicate BuilderEnabled(b: Builder, e: BuilderEvent)
  {
    match e
    case SelectTx(k) => k < |b.available|
    case RemoveTx(k) => k < |b.selected|
    case ResetBlock => true
    case Validated => b.timers > 0
  }

  function BuilderStepAsWritten(data: seq<Transfer>, b: Builder, e: BuilderEvent): Builder
    requires BuilderEnabled(b, e)
  {
    match e
    case SelectTx(k) => Select(data, b, k)
    case RemoveTx(k) => Remove(b, k)
    case ResetBlock => ResetAsWritten(data, b)
    case Validated => TimerFires(b)
  }

  /**
   * A reset while the block is validating does not stop the timer: the game
   * then completes, with score 100, holding no transactions.
   */
  lemma ResetDuringValidation()
    ensures var data := [Transfer("Alice", "Bob", 10)];
      var b1 := Select(data, StartBuilder(data), 0);
      var b2 := ResetAsWritten(data, b1);
      && b1.validating && b2.timers == 1
      && TimerFires(b2).phase == Completed && TimerFires(b2).selected == []
  {
  }

  /** `handleReset`, also cancelling a pending validation. */
  function Reset(data: seq<Transfer>, b: Builder): (r: Builder)
    ensures b.phase == Playing ==> r == StartBuilder(data)
    ensures b.phase != Playing ==> r == b
  {
    if b.phase == Playing then StartBuilder(data) else b
  }

  /** `handleRemoveTransaction` with a pending validation cancelled. */
  function RemoveCancelling(b: Builder, k: nat): (r: Builder)
    requires k < |b.selected|
    ensures b.phase == Playing ==> r == Remove(b, k).(validating := false, timers := 0)
    ensures b.phase != Playing ==> r == b
  {
    var r := Remove(b, k);
    if b.phase == Playing then r.(validating := false, timers := 0) else r
  }

  function BuilderStep(data: seq<Transfer>, b: Builder, e: BuilderEvent): Builder
    requires BuilderEnabled(b, e)
  {
    match e
    case SelectTx(k) => Select(data, b, k)
    case RemoveTx(k) => RemoveCancelling(b, k)
    case ResetBlock => Reset(data, b)
    case Validated => TimerFires(b)
  }

  /**
   * What every builder reachable with the corrected handlers satisfies: the
   * partition below, a timer pending only for a full block, and completion
   * only with every transaction in the block.
   */
  ghost predicate BuilderInv(data: seq<Transfer>, b: Builder)
  {
    && BuilderPartition(data, b)
    && (b.timers > 0 ==> |b.selected| == |data|)
    && (b.phase != Playing ==> b.phase == Completed && |b.selected| == |data| && b.score == 100)
    && (b.phase == Playing ==> b.score == 0)
  }

  /**
   * The part of the invariant that holds with the handlers as written too:
   * the selection and the pool together are a permutation of the tagged
   * data, ids stay distinct, and the block shows the selection and its hash.
   */
  ghost predicate BuilderPartition(data: seq<Transfer>, b: Builder)
  {
    && multiset(b.selected + b.available) == multiset(Tagged(data))
    && DistinctTxIds(b.selected + b.available)
    && b.block.transactions == b.selected && b.block.hash == MockHash(b.selected)
  }

  lemma FreshBuilderPartition(data: seq<Transfer>, timers: nat)
    ensures BuilderPartition(data, FreshBuilder(data, timers))
  {
    TaggedDistinct(data);
    assert [] + Tagged(data) == Tagged(data);
  }

  lemma StartBuilderInv(data: seq<Transfer>)
    ensures BuilderInv(data, StartBuilder(data))
  {
    FreshBuilderPartition(data, 0);
  }

  lemma DistinctSplit(a: seq<Tx>, c: seq<Tx>)
    requires DistinctTxIds(a + c)
    ensures DistinctTxIds(a) && DistinctTxIds(c)
    ensures forall i, j :: 0 <= i < |a| && 0 <= j < |c| ==> a[i].id != c[j].id
  {
    forall i, j | 0 <= i < j < |c|
      ensures c[i].id != c[j].id
    {
      assert (a + c)[|a| + i] == c[i] && (a + c)[|a| + j] == c[j];
    }
    forall i, j | 0 <= i < |a| && 0 <= j < |c|
      ensures a[i].id != c[j].id
    {
      assert (a + c)[i] == a[i] && (a + c)[|a| + j] == c[j];
    }
    forall i, j | 0 <= i < j < |a|
      ensures a[i].id != a[j].id
    {
      assert (a + c)[i] == a[i] && (a + c)[j] == a[j];
    }
  }

  /** The same elements, as multisets, have the same ids pairwise distinct. */
  lemma DistinctByMultiset(x: seq<Tx>, y: seq<Tx>)
    requires multiset(x) == multiset(y) && DistinctTxIds(y)
    ensures DistinctTxIds(x)
  {
    forall i, j | 0 <= i < j < |x|
      ensures x[i].id != x[j].id
    {
      if x[i].id == x[j].id {
        assert x[i] in multiset(y) && x[j] in multiset(y);
        var p :| 0 <= p < |y| && y[p] == x[i];
        var q :| 0 <= q < |y| && y[q] == x[j];
        if p == q {
          assert x[i] == x[j];
          assert x == x[..i] + [x[i]] + x[i + 1..j] + [x[j]] + x[j + 1..];
          assert multiset(x)[x[i]] >= 2;
          MultiplicityOne(y, p);
        }
      }
    }
  }

  /** In a list with distinct ids every element occurs once. */
  lemma MultiplicityOne(y: seq<Tx>, p: nat)
    requires DistinctTxIds(y) && p < |y|
    ensures multiset(y)[y[p]] == 1
  {
    var before, after := y[..p], y[p + 1..];
    assert y == before + [y[p]] + after;
    assert y[p] !in before by {
      forall i | 0 <= i < p
        ensures y[i] != y[p]
      {
      }
    }
    assert y[p] !in after by {
      forall i | p < i < |y|
        ensures y[i] != y[p]
      {
      }
      assert forall i :: 0 <= i < |after| ==> after[i] == y[p + 1 + i];
    }
  }

  lemma SelectKeepsPartition(data: seq<Transfer>, b: Builder, k: nat)
    requires BuilderPartition(data, b) && k < |b.available|
    ensures BuilderPartition(data, Select(data, b, k))
  {
    if b.phase == Playing {
      var r := Select(data, b, k);
      SelectPermutes(b.selected, b.available, k);
      assert r.selected + r.available == (b.selected + [b.available[k]]) + WithoutId(b.available, b.available[k].id);
      DistinctByMultiset(r.selected + r.available, b.selected + b.available);
    }
  }

  lemma SelectKeepsInv(data: seq<Transfer>, b: Builder, k: nat)
    requires BuilderInv(data, b) && k < |b.available|
    ensures BuilderInv(data, Select(data, b, k))
  {
    SelectKeepsPartition(data, b, k);
    SelectionBound(data, b);
  }

  /** Selecting pool entry `k` moves it to the selection: the two lists together keep their elements. */
  lemma SelectPermutes(sel: seq<Tx>, avail: seq<Tx>, k: nat)
    requires DistinctTxIds(sel + avail) && k < |avail|
    ensures multiset((sel + [avail[k]]) + WithoutId(avail, avail[k].id)) == multiset(sel + avail)
  {
    DistinctSplit(sel, avail);
    WithoutIdAt(avail, k);
    var x, p, q := avail[k], avail[..k], avail[k + 1..];
    assert avail == p + [x] + q;
    MoveToSelection(sel, p, x, q);
  }

  /** Moving `x` out of the middle of the pool to the end of the selection keeps the elements. */
  lemma MoveToSelection(sel: seq<Tx>, p: seq<Tx>, x: Tx, q: seq<Tx>)
    ensures multiset((sel + [x]) + (p + q)) == multiset(sel + (p + [x] + q))
  {
    calc {
      multiset((sel + [x]) + (p + q));
      multiset(sel) + multiset([x]) + (multiset(p) + multiset(q));
      multiset(sel) + (multiset(p) + multiset([x]) + multiset(q));
      multiset(sel + (p + [x] + q));
    }
  }

  /** The selection is never longer than the data. */
  lemma SelectionBound(data: seq<Transfer>, b: Builder)
    requires multiset(b.selected + b.available) == multiset(Tagged(data))
    ensures |b.selected| + |b.available| == |data|
  {
    assert |multiset(b.selected + b.available)| == |b.selected + b.available|;
    assert |multiset(Tagged(data))| == |Tagged(data)|;
  }

  /** Removing block entry `k` moves it to the pool: the two lists together keep their elements. */
  lemma RemovePermutes(sel: seq<Tx>, avail: seq<Tx>, k: nat)
    requires DistinctTxIds(sel + avail) && k < |sel|
    ensures multiset(WithoutId(sel, sel[k].id) + (avail + [sel[k]])) == multiset(sel + avail)
  {
    DistinctSplit(sel, avail);
    WithoutIdAt(sel, k);
    var x, p, q := sel[k], sel[..k], sel[k + 1..];
    assert sel == p + [x] + q;
    MoveToPool(p, x, q, avail);
  }

  /** Moving `x` out of the middle of the selection to the end of the pool keeps the elements. */
  lemma MoveToPool(p: seq<Tx>, x: Tx, q: seq<Tx>, avail: seq<Tx>)
    ensures multiset((p + q) + (avail + [x])) == multiset((p + [x] + q) + avail)
  {
    calc {
      multiset((p + q) + (avail + [x]));
      multiset(p) + multiset(q) + (multiset(avail) + multiset([x]));
      multiset(p) + multiset([x]) + multiset(q) + multiset(avail);
      multiset((p + [x] + q) + avail);
    }
  }

  lemma RemoveKeepsPartition(data: seq<Transfer>, b: Builder, k: nat)
    requires BuilderPartition(data, b) && k < |b.selected|
    ensures BuilderPartition(data, Remove(b, k))
  {
    if b.phase == Playing {
      var r := Remove(b, k);
      RemovePermutes(b.selected, b.available, k);
      assert r.selected + r.available == WithoutId(b.selected, b.selected[k].id) + (b.available + [b.selected[k]]);
      DistinctByMultiset(r.selected + r.available, b.selected + b.available);
    }
  }

  lemma RemoveKeepsInv(data: seq<Transfer>, b: Builder, k: nat)
    requires BuilderInv(data, b) && k < |b.selected|
    ensures BuilderInv(data, RemoveCancelling(b, k))
  {
    RemoveKeepsPartition(data, b, k);
  }

  /** Every enabled event keeps the invariant of the builder with cancelling timers. */
  lemma BuilderStepKeepsInv(data: seq<Transfer>, b: Builder, e: BuilderEvent)
    requires BuilderInv(data, b) && BuilderEnabled(b, e)
    ensures BuilderInv(data, BuilderStep(data, b, e))
  {
    match e
    case SelectTx(k) => SelectKeepsInv(data, b, k);
    case RemoveTx(k) => RemoveKeepsInv(data, b, k);
    case ResetBlock => StartBuilderInv(data);
    case Validated =>
  }

  /** A run of enabled events; events that are not enabled are skipped. */
  function BuilderRun(data: seq<Transfer>, b: Builder, events: seq<BuilderEvent>): Builder
    decreases |events|
  {
    if events == [] then b
    else
      var next := if BuilderEnabled(b, events[0]) then BuilderStep(data, b, events[0]) else b;
      BuilderRun(data, next, events[1..])
  }

  lemma {:induction false} BuilderRunKeepsInv(data: seq<Transfer>, b: Builder, events: seq<BuilderEvent>)
    requires BuilderInv(data, b)
    ensures BuilderInv(data, BuilderRun(data, b, events))
    decreases |events|
  {
    if events != [] {
      var next := if BuilderEnabled(b, events[0]) then BuilderStep(data, b, events[0]) else b;
      if BuilderEnabled(b, events[0]) {
        BuilderStepKeepsInv(data, b, events[0]);
      }
      BuilderRunKeepsInv(data, next, events[1..]);
    }
  }

  /** Every enabled event keeps the partition with the handlers as written. */
  lemma BuilderStepAsWrittenKeepsPartition(data: seq<Transfer>, b: Builder, e: BuilderEvent)
    requires BuilderPartition(data, b) && BuilderEnabled(b, e)
    ensures BuilderPartition(data, BuilderStepAsWritten(data, b, e))
  {
    match e
    case SelectTx(k) => SelectKeepsPartition(data, b, k);
    case RemoveTx(k) => RemoveKeepsPartition(data, b, k);
    case ResetBlock => FreshBuilderPartition(data, b.timers);
    case Validated =>
  }

  /** A run of the handlers as written; events that are not enabled are skipped. */
  function BuilderRunAsWritten(data: seq<Transfer>, b: Builder, events: seq<BuilderEvent>): Builder
    decreases |events|
  {
    if events == [] then b
    else
      var next := if BuilderEnabled(b, events[0]) then BuilderStepAsWritten(data, b, events[0]) else b;
      BuilderRunAsWritten(data, next, events[1..])
  }

  /** As written, no run loses, duplicates or invents a transaction, and the block always shows the selection. */
  lemma {:induction false} BuilderRunAsWrittenKeepsPartition(data: seq<Transfer>, b: Builder, events: seq<BuilderEvent>)
    requires BuilderPartition(data, b)
    ensures BuilderPartition(data, BuilderRunAsWritten(data, b, events))
    decreases |events|
  {
    if events != [] {
      var next := if BuilderEnabled(b, events[0]) then BuilderStepAsWritten(data, b, events[0]) else b;
      if BuilderEnabled(b, events[0]) {
        BuilderStepAsWrittenKeepsPartition(data, b, events[0]);
      }
      BuilderRunAsWrittenKeepsPartition(data, next, events[1..]);
    }
  }

  /** From the mounted builder, the game is completed only with every transaction in the block. */
  lemma CompletedMeansFullBlock(data: seq<Transfer>, events: seq<BuilderEvent>)
    ensures var b := BuilderRun(data, StartBuilder(data), events);
      b.phase == Completed ==> b.score == 100 && multiset(b.selected) == multiset(Tagged(data))
  {
    StartBuilderInv(data);
    BuilderRunKeepsInv(data, StartBuilder(data), events);
    var b := BuilderRun(data, StartBuilder(data), events);
    if b.phase == Completed {
      SelectionBound(data, b);
      assert b.available == [];
      assert b.selected + b.available == b.selected;
    }
  }

  // ---------------------------------------------------------------------------
  // Security checker

  /** A scenario as the checker reads it: for each option, whether it is the right one. */
  type Scenario = seq<bool>

  const TimeLimit := 30

  /**
   * The checker's state. `score` is `None` when the score computes to NaN
   * (no scenarios at all).
   */
  datatype Checker = Checker(current: nat, answers: seq<int>, showExplanation: bool,
                             timeLeft: nat, phase: Phase, score: Option<int>)

  const StartChecker := Checker(0, [], false, TimeLimit, Playing, Some(0))

  /** Answer `a` to scenario `i` is right: the option exists and is marked correct (`options[a]?.isCorrect`). */
  predicate RightAnswer(scenarios: seq<Scenario>, i: int, a: int)
  {
    0 <= i < |scenarios| && 0 <= a < |scenarios[i]| && scenarios[i][a]
  }

  /** How many of the answers, by position, are right. */
  function CorrectCount(scenarios: seq<Scenario>, answers: seq<int>): (r: nat)
    ensures r <= |answers|
    ensures r == |answers| <==> forall i :: 0 <= i < |answers| ==> RightAnswer(scenarios, i, answers[i])
    ensures r == 0 <==> forall i :: 0 <= i < |answers| ==> !RightAnswer(scenarios, i, answers[i])
    decreases |answers|
  {
    if answers == [] then 0
    else
      var n := |answers| - 1;
      var front := CorrectCount(scenarios, answers[..n]);
      assert forall i :: 0 <= i < n ==> answers[..n][i] == answers[i];
      front + if RightAnswer(scenarios, n, answers[n]) then 1 else 0
  }

  /** `Math.round(correct / total * 100)`, computed exactly; NaN (`None`) when there are no scenarios. */
  function Percent(correct: nat, total: nat): (r: Option<int>)
    ensures total == 0 <==> r.None?
    ensures total > 0 ==> 2 * total * r.value <= 200 * correct + total < 2 * total * (r.value + 1)
  {
    if total == 0 then None else Some((200 * correct + total) / (2 * total))
  }

  lemma PercentBounds(correct: nat, total: nat)
    requires 0 < total && correct <= total
    ensures 0 <= Percent(correct, total).value <= 100
    ensures correct == total ==> Percent(correct, total).value == 100
    ensures correct == 0 ==> Percent(correct, total).value == 0
  {
    var r, a := Percent(correct, total).value, 2 * total;
    PositiveFactor(a, r + 1);
    CancelLess(a, r, 101);
    if correct == total {
      CancelLess(a, 100, r + 1);
    }
    if correct == 0 {
      CancelLess(a, r, 1);
    }
  }

  /** A positive product with a positive factor has a positive cofactor. */
  lemma PositiveFactor(a: int, x: int)
    requires a > 0 && a * x > 0
    ensures x > 0
  {
  }

  /** Multiplication by a positive number cancels in a strict comparison. */
  lemma CancelLess(a: int, x: int, y: int)
    requires a > 0 && a * x < a * y
    ensures x < y
  {
    assert a * (y - x) == a * y - a * x;
    PositiveFactor(a, y - x);
  }

  /** The pass mark: 70 percent. NaN never passes. */
  predicate Passes(score: Option<int>)
  {
    score.Some? && score.value >= 70
  }

  /** `handleAnswer`: record the answer for the current scenario and show its explanation. */
  function Answer(c: Checker, a: int): (r: Checker)
    ensures r == c.(answers := c.answers + [a], showExplanation := true)
  {
    c.(answers := c.answers + [a], showExplanation := true)
  }

  /** Answering adds a right answer to the tally exactly when the chosen option is the correct one. */
  lemma AnswerCounts(scenarios: seq<Scenario>, c: Checker, a: int)
    ensures CorrectCount(scenarios, Answer(c, a).answers)
         == CorrectCount(scenarios, c.answers) + (if RightAnswer(scenarios, |c.answers|, a) then 1 else 0)
  {
    var xs := c.answers + [a];
    assert xs[..|c.answers|] == c.answers;
  }

  /** `handleNext`: the next scenario with a fresh countdown, or the final score after the last. */
  function NextScenario(scenarios: seq<Scenario>, c: Checker): (r: Checker)
    ensures !r.showExplanation
    ensures c.current + 1 < |scenarios| ==>
      r == c.(showExplanation := false, current := c.current + 1, timeLeft := TimeLimit)
    ensures c.current + 1 >= |scenarios| ==>
      && r.answers == c.answers && r.current == c.current
      && r.score == Percent(CorrectCount(scenarios, c.answers), |scenarios|)
      && (r.phase == Completed <==> Passes(r.score))
      && (r.phase == Failed <==> !Passes(r.score))
  {
    if c.current + 1 < |scenarios| then
      c.(showExplanation := false, current := c.current + 1, timeLeft := TimeLimit)
    else
      var score := Percent(CorrectCount(scenarios, c.answers), |scenarios|);
      c.(showExplanation := false, score := score, phase := if Passes(score) then Completed else Failed)
  }

  datatype CheckerEvent = Choose(option: int) | Tick | TimeUp | Continue

  /** What the screen offers: options while the clock runs, the clock's own tick and expiry, and Next under an explanation. */
  predicate CheckerEnabled(scenarios: seq<Scenario>, c: Checker, e: CheckerEvent)
  {
    c.phase == Playing &&
    match e
    case Choose(a) => !c.showExplanation && c.timeLeft > 0 && c.current < |scenarios| && 0 <= a < |scenarios[c.current]|
    case Tick => !c.showExplanation && c.timeLeft > 0
    case TimeUp => !c.showExplanation && c.timeLeft == 0
    case Continue => c.showExplanation
  }

  function CheckerStep(scenarios: seq<Scenario>, c: Checker, e: CheckerEvent): Checker
    requires CheckerEnabled(scenarios, c, e)
  {
    match e
    case Choose(a) => Answer(c, a)
    case Tick => c.(timeLeft := c.timeLeft - 1)
    case TimeUp => Answer(c, -1)
    case Continue => NextScenario(scenarios, c)
  }

  /** A timed-out answer is never right. */
  lemma TimeoutNeverRight(scenarios: seq<Scenario>, i: int)
    ensures !RightAnswer(scenarios, i, -1)
  {
  }

  /**
   * What every reachable checker satisfies while playing: one answer per
   * scenario reached, the explanation shown exactly when the current one is
   * answered; once finished, the score is the rounded percentage of right
   * answers and the phase says whether it passes.
   */
  ghost predicate CheckerInv(scenarios: seq<Scenario>, c: Checker)
  {
    && (|scenarios| > 0 ==> c.current < |scenarios|)
    && |c.answers| == c.current + (if c.showExplanation || c.phase != Playing then 1 else 0)
    && c.timeLeft <= TimeLimit
    && (c.phase == Playing ==> c.score == Some(0))
    && (c.phase != Playing ==>
          && c.current + 1 >= |scenarios| && !c.showExplanation
          && c.score == Percent(CorrectCount(scenarios, c.answers), |scenarios|)
          && (c.phase == Completed <==> Passes(c.score)))
  }

  lemma CheckerStepKeepsInv(scenarios: seq<Scenario>, c: Checker, e: CheckerEvent)
    requires CheckerInv(scenarios, c) && CheckerEnabled(scenarios, c, e)
    ensures CheckerInv(scenarios, CheckerStep(scenarios, c, e))
  {
  }

  /** When the last scenario is done, every scenario has been answered once and the score says how many were right. */
  lemma FinishedChecker(scenarios: seq<Scenario>, c: Checker)
    requires CheckerInv(scenarios, c) && c.phase != Playing && |scenarios| > 0
    ensures |c.answers| == |scenarios|
    ensures c.score.Some? && 0 <= c.score.value <= 100
    ensures c.phase == Completed <==> c.score.value >= 70
  {
    PercentBounds(CorrectCount(scenarios, c.answers), |scenarios|);
  }

  // ---------------------------------------------------------------------------
  // Dispatch

  /** What `renderGame` shows for a type; without one it shows "Coming Soon". */
  datatype Screen = BlockBuilderScreen | SecurityCheckerScreen | InvestmentSimulatorScreen | ComingSoon

  function Dispatch(t: Option<MiniGameType>): (r: Screen)
    ensures r == ComingSoon <==> t.None?
    ensures t == Some(BlockBuilder) ==> r == BlockBuilderScreen
    ensures t == Some(SecurityChecker) ==> r == SecurityCheckerScreen
    ensures t == Some(InvestmentSimulator) ==> r == InvestmentSimulatorScreen
    ensures t == Some(WalletManager) ==> r == SecurityCheckerScreen
  {
    match t
    case None => ComingSoon
    case Some(BlockBuilder) => BlockBuilderScreen
    case Some(SecurityChecker) => SecurityCheckerScreen
    case Some(InvestmentSimulator) => InvestmentSimulatorScreen
    case Some(WalletManager) => SecurityCheckerScreen
  }

  /**
   * The results a screen can send to its `onComplete`: every game's result
   * button sends `true`, whether the game was passed or failed; "Coming Soon"
   * has no button.
   */
  function Reports(screen: Screen): (r: set<bool>)
    ensures false !in r
    ensures r == {} <==> screen == ComingSoon
  {
    if screen == ComingSoon then {} else {true}
  }
}

=== FILE: scenarios.dfy ===
/**
 * Playing through level 1 from the store's first load: the three lessons in
 * order, each stamped at its own time, leave the user at level 2 with 190
 * coins, 110 experience and level 1's two badges, and open level 2.
 */
module Scenarios {
  import opened Wrappers
  import opened GameTypes
  import opened GameData
  import opened GameStore
  import opened StoreProofs
  import StoreLaws
  import CatalogFacts

  /** The catalog's ids and rewards, which completing lessons never changes. */
  ghost predicate CatalogShape(levels: seq<Level>)
  {
    && |levels| == 5
    && forall k :: 0 <= k < 5 ==>
      && levels[k].id == k + 1 && levels[k].reward == Levels[k].reward && |levels[k].lessons| == 3
      && forall i :: 0 <= i < 3 ==>
           levels[k].lessons[i].id == CatalogFacts.LessonIds[3 * k + i]
           && levels[k].lessons[i].reward == Levels[k].lessons[i].reward
  }

  /** The user after the first `done` lessons of level 1. */
  predicate UserAt(u: User, done: nat, coins: int, experience: int)
  {
    && done <= 3
    && u.level == 1 && u.unlockedLevels == [1] && u.badges == []
    && u.coins == coins && u.experience == experience
    && u.completedLessons == CatalogFacts.LessonIds[..done]
  }

  /** The flags after the first `done` lessons of level 1: nothing beyond level 1 is open. */
  ghost predicate FlagsAt(levels: seq<Level>, done: nat)
  {
    && CatalogShape(levels)
    && (forall k :: 0 <= k < 5 ==> !levels[k].isCompleted)
    && (forall i :: 0 <= i < 3 ==> levels[0].lessons[i].isCompleted == (i < done))
    && (forall k :: 1 <= k < 5 ==> !levels[k].isUnlocked && !levels[k].lessons[0].isUnlocked)
  }

  ghost predicate LevelOneProgress(s: GameState, done: nat, coins: int, experience: int)
  {
    WellFormed(s.levels) && UserAt(s.user, done, coins, experience) && FlagsAt(s.levels, done)
  }

  /** The first-load state is at the start of level 1. */
  lemma StartOfLevelOne()
    ensures LevelOneProgress(InitialState, 0, 0, 0)
  {
    CatalogFacts.SeedAndResetAreCatalog();
    CatalogFacts.CatalogWellFormed();
    CatalogIsShape();
    CatalogAtStart();
    assert UserAt(InitialUser, 0, 0, 0);
  }

  lemma CatalogIsShape()
    ensures CatalogShape(Levels)
  {
    CatalogFacts.LessonIdsListed();
  }

  /** The catalog's own flags: nothing completed, nothing past level 1 open. */
  lemma CatalogAtStart()
    ensures forall k :: 0 <= k < 5 ==> !Levels[k].isCompleted
    ensures forall i :: 0 <= i < 3 ==> !Levels[0].lessons[i].isCompleted
    ensures forall k :: 1 <= k < 5 ==> !Levels[k].isUnlocked && !Levels[k].lessons[0].isUnlocked
  {
    CatalogFacts.LessonIdsListed();
    CatalogFacts.CatalogFlags();
    forall k | 0 <= k < 5
      ensures k > 0 ==> !Levels[k].lessons[0].isUnlocked
    {
      assert ValidLoc(Levels, k, 0);
    }
    forall i | 0 <= i < 3
      ensures !Levels[0].lessons[i].isCompleted
    {
      assert ValidLoc(Levels, 0, i);
    }
  }

  /** `SameLevel` keeps every part but the flags. */
  lemma SameLevelParts(a: Level, b: Level)
    requires SameLevel(a, b)
    ensures a.id == b.id && a.reward == b.reward && |a.lessons| == |b.lessons|
    ensures forall i :: 0 <= i < |a.lessons| ==> a.lessons[i].id == b.lessons[i].id && a.lessons[i].reward == b.lessons[i].reward
  {
    assert a.(isCompleted := b.isCompleted, isUnlocked := b.isUnlocked, lessons := b.lessons).id == a.id;
    forall i | 0 <= i < |a.lessons|
      ensures a.lessons[i].id == b.lessons[i].id && a.lessons[i].reward == b.lessons[i].reward
    {
      var x, y := a.lessons[i], b.lessons[i];
      assert SameLesson(x, y);
      assert x.(isCompleted := y.isCompleted, isUnlocked := y.isUnlocked).id == x.id;
    }
  }

  lemma CompleteKeepsShape(s: GameState, t: string, now: int)
    requires CatalogShape(s.levels)
    ensures CatalogShape(CompleteLesson(s, t, now).levels)
  {
    var r := CompleteLesson(s, t, now);
    forall k | 0 <= k < 5
      ensures r.levels[k].id == s.levels[k].id && r.levels[k].reward == s.levels[k].reward
      ensures |r.levels[k].lessons| == 3
      ensures forall i :: 0 <= i < 3 ==>
        r.levels[k].lessons[i].id == s.levels[k].lessons[i].id && r.levels[k].lessons[i].reward == s.levels[k].lessons[i].reward
    {
      SameLevelParts(r.levels[k], s.levels[k]);
    }
  }

  /** The facts about the state that completing one of level 1's first two lessons depends on. */
  ghost predicate EarlySetting(s: GameState, i: nat)
  {
    && i < 2 && WellFormed(s.levels) && ValidLoc(s.levels, 0, i)
    && s.levels[0].lessons[i].id == CatalogFacts.LessonIds[i]
    && s.levels[0].lessons[i].reward == Levels[0].lessons[i].reward
    && CatalogFacts.LessonIds[i] !in s.user.completedLessons
    && !CompletesLevel(s.levels[0], i)
  }

  lemma EarlySettingHolds(s: GameState, i: nat, coins: int, experience: int)
    requires i < 2 && LevelOneProgress(s, i, coins, experience)
    ensures EarlySetting(s, i)
  {
    assert ValidLoc(s.levels, 0, i) && ValidLoc(s.levels, 0, 2);
    assert CatalogFacts.LessonIds[i] !in s.user.completedLessons by {
      CatalogFacts.LessonIdsDistinct();
    }
  }

  /** Completing one of level 1's first two lessons pays its reward and nothing more. */
  lemma EarlyUser(s: GameState, i: nat, now: int, coins: int, experience: int)
    requires i < 2 && LevelOneProgress(s, i, coins, experience)
    ensures UserAt(CompleteLesson(s, CatalogFacts.LessonIds[i], now).user, i + 1,
                   coins + Levels[0].lessons[i].reward.coins, experience + Levels[0].lessons[i].reward.experience)
  {
    EarlySettingHolds(s, i, coins, experience);
    EarlyUserFrom(s, i, now, coins, experience);
  }

  lemma EarlyUserFrom(s: GameState, i: nat, now: int, coins: int, experience: int)
    requires EarlySetting(s, i) && UserAt(s.user, i, coins, experience)
    ensures UserAt(CompleteLesson(s, CatalogFacts.LessonIds[i], now).user, i + 1,
                   coins + Levels[0].lessons[i].reward.coins, experience + Levels[0].lessons[i].reward.experience)
  {
    var t := CatalogFacts.LessonIds[i];
    EarlyRewards(s, i, now);
    EarlyLevelStays(s, i, now);
    PrefixSnoc(CatalogFacts.LessonIds, i);
  }

  lemma PrefixSnoc(xs: seq<string>, i: nat)
    requires i < |xs|
    ensures xs[..i + 1] == xs[..i] + [xs[i]]
  {
  }

  /** Only the lesson's own reward is paid, and no badge is added. */
  lemma EarlyRewards(s: GameState, i: nat, now: int)
    requires EarlySetting(s, i)
    ensures var u := CompleteLesson(s, CatalogFacts.LessonIds[i], now).user;
      && u.coins == s.user.coins + s.levels[0].lessons[i].reward.coins
      && u.experience == s.user.experience + s.levels[0].lessons[i].reward.experience
      && u.badges == s.user.badges
  {
    CompleteLessonRewards(s, CatalogFacts.LessonIds[i], now, 0, i);
  }

  /** No level completes, so the level number and the unlocked list stay. */
  lemma EarlyLevelStays(s: GameState, i: nat, now: int)
    requires EarlySetting(s, i)
    ensures var u := CompleteLesson(s, CatalogFacts.LessonIds[i], now).user;
      u.level == s.user.level && u.unlockedLevels == s.user.unlockedLevels
  {
    CompleteLessonLevel(s, CatalogFacts.LessonIds[i], now, 0, i);
    assert forall j :: !Advances(s, 0, i, j);
  }

  lemma EarlyFlags(s: GameState, i: nat, now: int, coins: int, experience: int)
    requires i < 2 && LevelOneProgress(s, i, coins, experience)
    ensures FlagsAt(CompleteLesson(s, CatalogFacts.LessonIds[i], now).levels, i + 1)
  {
    EarlySettingHolds(s, i, coins, experience);
    CompleteKeepsShape(s, CatalogFacts.LessonIds[i], now);
    EarlyLevelFlags(s, i, now);
    EarlyLessonFlags(s, i, now);
  }

  /** No level completes or opens. */
  lemma EarlyLevelFlags(s: GameState, i: nat, now: int)
    requires EarlySetting(s, i) && FlagsAt(s.levels, i)
    ensures var r := CompleteLesson(s, CatalogFacts.LessonIds[i], now).levels;
      |r| == 5 && forall k :: 0 <= k < 5 ==> !r[k].isCompleted && (k >= 1 ==> !r[k].isUnlocked)
  {
    CompleteLessonLevelFlags(s, CatalogFacts.LessonIds[i], now, 0, i);
  }

  /** Lesson `i` completes and the next one opens; no other level's first lesson opens. */
  lemma EarlyLessonFlags(s: GameState, i: nat, now: int)
    requires EarlySetting(s, i) && FlagsAt(s.levels, i)
    ensures var r := CompleteLesson(s, CatalogFacts.LessonIds[i], now).levels;
      && |r| == 5 && |r[0].lessons| == 3
      && (forall i' :: 0 <= i' < 3 ==> r[0].lessons[i'].isCompleted == (i' < i + 1))
      && (forall k :: 1 <= k < 5 ==> |r[k].lessons| > 0 && !r[k].lessons[0].isUnlocked)
  {
    var t := CatalogFacts.LessonIds[i];
    CompleteLessonLessonFlags(s, t, now, 0, i);
    var r := CompleteLesson(s, t, now).levels;
    forall k | 1 <= k < 5
      ensures |r[k].lessons| > 0 && !r[k].lessons[0].isUnlocked
    {
      assert ValidLoc(s.levels, k, 0);
    }
    forall i' | 0 <= i' < 3
      ensures r[0].lessons[i'].isCompleted == (i' < i + 1)
    {
      assert ValidLoc(s.levels, 0, i');
    }
  }

  lemma EarlyLesson(s: GameState, i: nat, now: int, coins: int, experience: int)
    requires i < 2 && LevelOneProgress(s, i, coins, experience)
    ensures LevelOneProgress(CompleteLesson(s, CatalogFacts.LessonIds[i], now), i + 1,
                             coins + Levels[0].lessons[i].reward.coins, experience + Levels[0].lessons[i].reward.experience)
  {
    EarlyUser(s, i, now, coins, experience);
    EarlyFlags(s, i, now, coins, experience);
    StoreLaws.CompleteLessonWellFormed(s, CatalogFacts.LessonIds[i], now);
  }

  /** Two badges with different ids, added to an empty collection, are both appended, stamped `now`. */
  lemma TwoFreshBadges(x: Badge, y: Badge, now: int)
    requires x.id != y.id
    ensures AddRewardBadges([], [x, y], now) == [x.(earnedAt := Some(now)), y.(earnedAt := Some(now))]
  {
    var x', y' := x.(earnedAt := Some(now)), y.(earnedAt := Some(now));
    assert !HasBadge([], x.id) && !HasBadge([x'], y.id);
    assert [x, y][1..] == [y] && [y][1..] == [];
    assert [] + [x'] == [x'] && [x'] + [y'] == [x', y'];
    assert AddRewardBadges([], [x, y], now) == AddRewardBadges([x'], [y], now);
    assert AddRewardBadges([x'], [y], now) == AddRewardBadges([x', y'], [], now);
  }

  /** Level 1's reward badges, added to an empty collection, stamped `now`. */
  lemma LevelOneBadges(now: int)
    ensures AddRewardBadges([], Levels[0].reward.badges, now)
         == [FirstSteps.(earnedAt := Some(now)), MoneyHistorian.(earnedAt := Some(now))]
  {
    assert LevelOne.reward.badges == [FirstSteps, MoneyHistorian];
    TwoFreshBadges(FirstSteps, MoneyHistorian, now);
  }

  /** The situation the last lesson of level 1 meets: it finishes level 1, and level 2 is the one to open. */
  lemma LastLessonSetting(s: GameState)
    requires LevelOneProgress(s, 2, 55, 35)
    ensures ValidLoc(s.levels, 0, 2) && s.levels[0].lessons[2].id == "what-is-blockchain"
    ensures "what-is-blockchain" !in s.user.completedLessons
    ensures CompletesLevel(s.levels[0], 2)
    ensures forall j :: Advances(s, 0, 2, j) <==> j == 1
    ensures s.user.completedLessons == ["what-is-money", "digital-money"]
    ensures s.levels[0].reward == LevelOne.reward && s.levels[0].lessons[2].reward == LevelOne.lessons[2].reward
  {
    CatalogFacts.LessonIdsListed();
    assert s.user.completedLessons == ["what-is-money", "digital-money"];
    assert Advances(s, 0, 2, 1);
    AdvancesUnique(s, 0, 2, 1);
  }

  lemma LastUser(s: GameState, now: int)
    requires LevelOneProgress(s, 2, 55, 35)
    ensures var u := CompleteLesson(s, "what-is-blockchain", now).user;
      && u.coins == 190 && u.experience == 110
      && u.level == 2 && u.unlockedLevels == [1, 2]
      && u.badges == [FirstSteps.(earnedAt := Some(now)), MoneyHistorian.(earnedAt := Some(now))]
      && u.completedLessons == ["what-is-money", "digital-money", "what-is-blockchain"]
  {
    LastLessonSetting(s);
    LastUserRewards(s, now);
    LastUserLevel(s, now);
    assert "what-is-blockchain" !in s.user.completedLessons;
  }

  /** The facts about the state that the last lesson's user update depends on. */
  ghost predicate LastSetting(s: GameState)
  {
    && WellFormed(s.levels) && ValidLoc(s.levels, 0, 2) && s.levels[0].lessons[2].id == "what-is-blockchain"
    && CompletesLevel(s.levels[0], 2) && Advances(s, 0, 2, 1)
    && s.user.completedLessons == ["what-is-money", "digital-money"]
    && s.user.level == 1 && s.user.unlockedLevels == [1] && s.user.badges == []
    && s.user.coins == 55 && s.user.experience == 35
    && s.levels[0].reward == LevelOne.reward && s.levels[0].lessons[2].reward == LevelOne.lessons[2].reward
  }

  lemma LastUserRewards(s: GameState, now: int)
    requires LastSetting(s)
    ensures var u := CompleteLesson(s, "what-is-blockchain", now).user;
      && u.coins == 190 && u.experience == 110
      && u.badges == [FirstSteps.(earnedAt := Some(now)), MoneyHistorian.(earnedAt := Some(now))]
  {
    CompleteLessonRewards(s, "what-is-blockchain", now, 0, 2);
    LevelOneBadges(now);
  }

  lemma LastUserLevel(s: GameState, now: int)
    requires LastSetting(s)
    ensures var u := CompleteLesson(s, "what-is-blockchain", now).user;
      u.level == 2 && u.unlockedLevels == [1, 2]
  {
    CompleteLessonLevel(s, "what-is-blockchain", now, 0, 2);
    assert Advances(s, 0, 2, 1);
  }

  lemma LastFlags(s: GameState, now: int)
    requires LevelOneProgress(s, 2, 55, 35)
    ensures var levels := CompleteLesson(s, "what-is-blockchain", now).levels;
      && levels[0].isCompleted && AllCompleted(levels[0].lessons)
      && levels[1].isUnlocked && levels[1].lessons[0].isUnlocked
      && !levels[2].isUnlocked && !levels[2].lessons[0].isUnlocked
  {
    LastLessonSetting(s);
    CompleteLessonLevelFlags(s, "what-is-blockchain", now, 0, 2);
    CompleteLessonLessonFlags(s, "what-is-blockchain", now, 0, 2);
    StoreLaws.CompleteLessonWellFormed(s, "what-is-blockchain", now);
    assert ValidLoc(s.levels, 1, 0) && ValidLoc(s.levels, 2, 0);
  }

  /**
   * The last lesson of level 1 completes it: its reward and the level's are
   * paid, both badges are stamped with its time, the user moves to level 2,
   * 2 is recorded as unlocked, and level 2 and its first lesson open.
   */
  lemma LastLesson(s: GameState, now: int)
    requires LevelOneProgress(s, 2, 55, 35)
    ensures var r := CompleteLesson(s, "what-is-blockchain", now);
      && r.user.coins == 190 && r.user.experience == 110
      && r.user.level == 2 && r.user.unlockedLevels == [1, 2]
      && r.user.badges == [FirstSteps.(earnedAt := Some(now)), MoneyHistorian.(earnedAt := Some(now))]
      && r.levels[0].isCompleted && r.levels[1].isUnlocked && r.levels[1].lessons[0].isUnlocked
      && !r.levels[2].isUnlocked
  {
    LastUser(s, now);
    LastFlags(s, now);
  }

  /** The whole of level 1 from the first load, one lesson after another. */
  lemma FinishLevelOne(t1: int, t2: int, t3: int)
    ensures var s1 := CompleteLesson(InitialState, "what-is-money", t1);
      var s2 := CompleteLesson(s1, "digital-money", t2);
      var s3 := CompleteLesson(s2, "what-is-blockchain", t3);
      && s3.user.coins == 190 && s3.user.experience == 110
      && s3.user.level == 2 && s3.user.unlockedLevels == [1, 2]
      && s3.user.badges == [FirstSteps.(earnedAt := Some(t3)), MoneyHistorian.(earnedAt := Some(t3))]
      && |s3.levels| == 5 && s3.levels[1].isUnlocked && s3.levels[1].lessons[0].isUnlocked
  {
    StartOfLevelOne();
    FinishFrom(InitialState, t1, t2, t3);
  }

  /** Level 1 played through from any state at its start. */
  lemma FinishFrom(s0: GameState, t1: int, t2: int, t3: int)
    requires LevelOneProgress(s0, 0, 0, 0)
    ensures var s1 := CompleteLesson(s0, "what-is-money", t1);
      var s2 := CompleteLesson(s1, "digital-money", t2);
      var s3 := CompleteLesson(s2, "what-is-blockchain", t3);
      && s3.user.coins == 190 && s3.user.experience == 110
      && s3.user.level == 2 && s3.user.unlockedLevels == [1, 2]
      && s3.user.badges == [FirstSteps.(earnedAt := Some(t3)), MoneyHistorian.(earnedAt := Some(t3))]
      && |s3.levels| == 5 && s3.levels[1].isUnlocked && s3.levels[1].lessons[0].isUnlocked
  {
    FirstIds();
    EarlyLesson(s0, 0, t1, 0, 0);
    var s1 := CompleteLesson(s0, "what-is-money", t1);
    EarlyLesson(s1, 1, t2, 25, 15);
    var s2 := CompleteLesson(s1, "digital-money", t2);
    LastLesson(s2, t3);
    StoreLaws.CompleteLessonWellFormed(s2, "what-is-blockchain", t3);
  }

  lemma FirstIds()
    ensures CatalogFacts.LessonIds[0] == "what-is-money" && CatalogFacts.LessonIds[1] == "digital-money"
    ensures Levels[0].lessons[0].reward.coins == 25 && Levels[0].lessons[0].reward.experience == 15
    ensures Levels[0].lessons[1].reward.coins == 30 && Levels[0].lessons[1].reward.experience == 20
  {
  }
}

=== FILE: store_laws.dfy ===
/**
 * Laws of the store as a whole: what `completeLesson` does with an id no
 * lesson has, that it is idempotent, and the invariants every store action
 * keeps (distinct ids, consistent level flags, unique badge ids, no lesson
 * recorded twice, the identity once set).
 */
module StoreLaws {
  import opened Wrappers
  import opened GameTypes
  import opened GameStore
  import opened StoreProofs
  import GameData
  import CatalogFacts

  // ---------------------------------------------------------------------------
  // An id no lesson has

  lemma {:induction false} MarkLessonsAbsent(lessons: seq<Lesson>, i: nat, t: string, c: Cursor)
    requires i <= |lessons| && c.next.None?
    requires forall j :: 0 <= j < |lessons| ==> lessons[j].id != t
    ensures MarkLessons(lessons, i, t, c) == (lessons[i..], c)
    decreases |lessons| - i
  {
    if i < |lessons| {
      MarkLessonsAbsent(lessons, i + 1, t, c);
      assert [lessons[i]] + lessons[i + 1..] == lessons[i..];
    }
  }

  lemma ConsistentTail(levels: seq<Level>)
    requires |levels| > 0 && Consistent(levels)
    ensures Consistent(levels[1..])
  {
    assert forall k :: 0 <= k < |levels[1..]| ==> levels[1..][k] == levels[k + 1];
  }

  /** With consistent flags, the fold leaves every level alone when no lesson has the id. */
  lemma {:induction false} MarkLevelsAbsent(levels: seq<Level>, t: string, c: Cursor)
    requires c.next.None? && Consistent(levels) && !HasLessonId(levels, t)
    ensures MarkLevels(levels, t, c) == (levels, c)
    decreases |levels|
  {
    if levels != [] {
      MissingTail(levels, t);
      ConsistentTail(levels);
      MarkLessonsAbsent(levels[0].lessons, 0, t, c);
      assert levels[0].lessons[0..] == levels[0].lessons;
      assert MarkLevel(levels[0], t, c) == (levels[0], c);
      MarkLevelsAbsent(levels[1..], t, c);
      assert [levels[0]] + levels[1..] == levels;
    }
  }

  /**
   * An id that no lesson has is still recorded as completed, and nothing
   * else changes: no reward, no flag, no level.
   */
  lemma CompleteLessonUnknown(s: GameState, t: string, now: int)
    requires Consistent(s.levels) && !HasLessonId(s.levels, t) && t !in s.user.completedLessons
    ensures CompleteLesson(s, t, now) == s.(user := s.user.(completedLessons := s.user.completedLessons + [t]))
  {
    MarkLevelsAbsent(s.levels, t, StartCursor);
  }

  /** Completing the same lesson again, at any time, changes nothing. */
  lemma CompleteLessonIdempotent(s: GameState, t: string, now: int, later: int)
    ensures var r := CompleteLesson(s, t, now);
      CompleteLesson(r, t, later) == r
  {
    var r := CompleteLesson(s, t, now);
    assert t in r.user.completedLessons by {
      if t !in s.user.completedLessons {
        assert r.user.completedLessons[|s.user.completedLessons|] == t;
      }
    }
  }

  // ---------------------------------------------------------------------------
  // Well-formed overlays stay well formed

  /** Switching flags on keeps every id, so it keeps distinctness. */
  lemma SameLevelsKeepIds(a: seq<Level>, b: seq<Level>)
    requires |a| == |b| && forall k :: 0 <= k < |a| ==> SameLevel(a[k], b[k])
    ensures DistinctLessonIds(a) <==> DistinctLessonIds(b)
    ensures DistinctLevelIds(a) <==> DistinctLevelIds(b)
  {
    forall k | 0 <= k < |a|
      ensures a[k].id == b[k].id && |a[k].lessons| == |b[k].lessons|
      ensures forall i :: 0 <= i < |a[k].lessons| ==> a[k].lessons[i].id == b[k].lessons[i].id
    {
      assert SameLevel(a[k], b[k]);
      assert a[k].(isCompleted := b[k].isCompleted, isUnlocked := b[k].isUnlocked, lessons := b[k].lessons).id == a[k].id;
      forall i | 0 <= i < |a[k].lessons|
        ensures a[k].lessons[i].id == b[k].lessons[i].id
      {
        var x, y := a[k].lessons[i], b[k].lessons[i];
        assert SameLesson(x, y);
        assert x.(isCompleted := y.isCompleted, isUnlocked := y.isUnlocked).id == x.id;
      }
    }
  }

  /** The owner level's flag still agrees with its lessons after lesson `i` is completed. */
  lemma OwnerStaysConsistent(before: Level, after: Level, i: int)
    requires 0 <= i < |before.lessons| == |after.lessons|
    requires before.isCompleted <==> AllCompleted(before.lessons)
    requires after.isCompleted == (before.isCompleted || CompletesLevel(before, i))
    requires forall j :: 0 <= j < |before.lessons| ==>
      after.lessons[j].isCompleted == (before.lessons[j].isCompleted || j == i)
    ensures after.isCompleted <==> AllCompleted(after.lessons)
  {
    if !before.isCompleted && !CompletesLevel(before, i) {
      var j :| 0 <= j < |before.lessons| && j != i && !before.lessons[j].isCompleted;
      assert !after.lessons[j].isCompleted;
    }
  }

  /** `completeLesson` keeps ids distinct and level flags in agreement with their lessons, for every id. */
  lemma CompleteLessonWellFormed(s: GameState, t: string, now: int)
    requires WellFormed(s.levels)
    ensures WellFormed(CompleteLesson(s, t, now).levels)
  {
    var r := CompleteLesson(s, t, now);
    SameLevelsKeepIds(r.levels, s.levels);
    if t in s.user.completedLessons {
    } else if HasLessonId(s.levels, t) {
      var k, i :| ValidLoc(s.levels, k, i) && s.levels[k].lessons[i].id == t;
      CompleteLessonLevelFlags(s, t, now, k, i);
      CompleteLessonLessonFlags(s, t, now, k, i);
      forall k' | 0 <= k' < |r.levels|
        ensures r.levels[k'].isCompleted <==> AllCompleted(r.levels[k'].lessons)
      {
        assert SameLevel(r.levels[k'], s.levels[k']);
        assert forall j :: 0 <= j < |s.levels[k'].lessons| ==> ValidLoc(s.levels, k', j);
        if k' == k {
          OwnerStaysConsistent(s.levels[k], r.levels[k], i);
        } else {
          assert AllCompleted(r.levels[k'].lessons) == AllCompleted(s.levels[k'].lessons);
        }
      }
    } else {
      CompleteLessonUnknown(s, t, now);
    }
  }

  /** `unlockLevel` only switches unlock flags on, so the overlay stays well formed. */
  lemma UnlockLevelWellFormed(s: GameState, levelId: int)
    requires WellFormed(s.levels)
    ensures WellFormed(UnlockLevel(s, levelId).levels)
  {
    var r := UnlockLevel(s, levelId);
    forall k | 0 <= k < |s.levels|
      ensures SameLevel(r.levels[k], s.levels[k])
      ensures r.levels[k].isCompleted == s.levels[k].isCompleted
      ensures AllCompleted(r.levels[k].lessons) == AllCompleted(s.levels[k].lessons)
    {
      if s.levels[k].id == levelId && |s.levels[k].lessons| > 0 {
        var a, b := r.levels[k].lessons, s.levels[k].lessons;
        assert forall i :: 0 < i < |a| ==> a[i] == b[1..][i - 1] == b[i];
      }
    }
    SameLevelsKeepIds(r.levels, s.levels);
  }

  // ---------------------------------------------------------------------------
  // Coins and experience

  /** Every reward in the overlay is non-negative, as the catalog's are. */
  predicate RewardsNonNegative(levels: seq<Level>)
  {
    forall k :: 0 <= k < |levels| ==>
      && levels[k].reward.coins >= 0 && levels[k].reward.experience >= 0
      && forall i :: 0 <= i < |levels[k].lessons| ==>
           levels[k].lessons[i].reward.coins >= 0 && levels[k].lessons[i].reward.experience >= 0
  }

  /** With non-negative rewards, completing a lesson never takes coins or experience away. */
  lemma CompleteLessonGrows(s: GameState, t: string, now: int)
    requires WellFormed(s.levels) && RewardsNonNegative(s.levels)
    ensures var r := CompleteLesson(s, t, now);
      r.user.coins >= s.user.coins && r.user.experience >= s.user.experience
  {
    if t in s.user.completedLessons {
    } else if HasLessonId(s.levels, t) {
      var k, i :| ValidLoc(s.levels, k, i) && s.levels[k].lessons[i].id == t;
      CompleteLessonUser(s, t, now, k, i);
    } else {
      CompleteLessonUnknown(s, t, now);
    }
  }

  // ---------------------------------------------------------------------------
  // Every action, and the invariants they keep

  /** The store's actions, as the screens call them. */
  datatype Action =
    | Initialize(host: Option<HostUser>)
    | Complete(lessonId: string, now: int)
    | Unlock(levelId: int)
    | Award(badgeId: string, now: int)
    | GiveCoins(amount: int)
    | GiveExperience(amount: int)
    | Reset

  function Step(s: GameState, a: Action): (r: GameState)
    ensures r.availableBadges == s.availableBadges
  {
    match a
    case Initialize(host) => InitializeUser(s, host)
    case Complete(id, now) => CompleteLesson(s, id, now)
    case Unlock(id) => UnlockLevel(s, id)
    case Award(id, now) => AwardBadge(s, id, now)
    case GiveCoins(n) => AddCoins(s, n)
    case GiveExperience(n) => AddExperience(s, n)
    case Reset => ResetProgress(s)
  }

  function Run(s: GameState, actions: seq<Action>): (r: GameState)
    ensures r.availableBadges == s.availableBadges
    decreases |actions|
  {
    if actions == [] then s else Run(Step(s, actions[0]), actions[1..])
  }

  predicate NoRepeats(ids: seq<string>)
  {
    forall j, k :: 0 <= j < k < |ids| ==> ids[j] != ids[k]
  }

  /** What every reachable state satisfies. */
  ghost predicate Invariant(s: GameState)
  {
    && WellFormed(s.levels)
    && UniqueBadgeIds(s.user.badges)
    && NoRepeats(s.user.completedLessons)
  }

  lemma AppendUniqueBadge(held: seq<Badge>, b: Badge)
    requires UniqueBadgeIds(held) && !HasBadge(held, b.id)
    ensures UniqueBadgeIds(held + [b])
  {
    forall j, k | 0 <= j < k < |held + [b]|
      ensures (held + [b])[j].id != (held + [b])[k].id
    {
      if k == |held| {
        assert (held + [b])[j] == held[j];
      }
    }
  }

  lemma AppendFreshId(ids: seq<string>, t: string)
    requires NoRepeats(ids) && t !in ids
    ensures NoRepeats(ids + [t])
  {
    forall j, k | 0 <= j < k < |ids + [t]|
      ensures (ids + [t])[j] != (ids + [t])[k]
    {
      if k == |ids| {
        assert (ids + [t])[j] == ids[j];
      }
    }
  }

  /** Each action keeps the invariant. */
  lemma StepKeepsInvariant(s: GameState, a: Action)
    requires Invariant(s)
    ensures Invariant(Step(s, a))
  {
    match a
    case Initialize(host) =>
    case Complete(id, now) =>
      CompleteLessonWellFormed(s, id, now);
      if id !in s.user.completedLessons {
        AppendFreshId(s.user.completedLessons, id);
      }
    case Unlock(id) =>
      UnlockLevelWellFormed(s, id);
    case Award(id, now) =>
      var r := AwardBadge(s, id, now);
      if HasBadge(s.availableBadges, id) && !HasBadge(s.user.badges, id) {
        assert r.user.badges == s.user.badges + [r.user.badges[|s.user.badges|]];
        AppendUniqueBadge(s.user.badges, r.user.badges[|s.user.badges|]);
      }
    case GiveCoins(n) =>
    case GiveExperience(n) =>
    case Reset =>
      CatalogFacts.SeedAndResetAreCatalog();
      CatalogFacts.CatalogWellFormed();
  }

  /** Every sequence of actions keeps the invariant. */
  lemma {:induction false} RunKeepsInvariant(s: GameState, actions: seq<Action>)
    requires Invariant(s)
    ensures Invariant(Run(s, actions))
    decreases |actions|
  {
    if actions != [] {
      StepKeepsInvariant(s, actions[0]);
      RunKeepsInvariant(Step(s, actions[0]), actions[1..]);
    }
  }

  /** The first-load state satisfies the invariant, so every state the actions reach from it does. */
  lemma ReachableInvariant(actions: seq<Action>)
    ensures Invariant(Run(InitialState, actions))
  {
    CatalogFacts.SeedAndResetAreCatalog();
    CatalogFacts.CatalogWellFormed();
    assert Invariant(InitialState);
    RunKeepsInvariant(InitialState, actions);
  }

  /** Once the user has an id and a name, no action changes them. */
  lemma {:induction false} RunKeepsIdentity(s: GameState, actions: seq<Action>)
    requires s.user.id != "" && s.user.name != ""
    ensures Run(s, actions).user.id == s.user.id && Run(s, actions).user.name == s.user.name
    decreases |actions|
  {
    if actions != [] {
      var s' := Step(s, actions[0]);
      assert s'.user.id == s.user.id && s'.user.name == s.user.name;
      RunKeepsIdentity(s', actions[1..]);
    }
  }

  // ---------------------------------------------------------------------------
  // Initialization and reset

  /** After `initializeUser` the user has an id and a name, so running it again does nothing. */
  lemma InitializeIdempotent(s: GameState, host: Option<HostUser>, host': Option<HostUser>)
    ensures var r := InitializeUser(s, host);
      r.user.id != "" && r.user.name != "" && InitializeUser(r, host') == r
  {
  }

  /** A reset forgets every action but `initializeUser`: what the action did to the progress is gone. */
  lemma ResetForgets(s: GameState, a: Action)
    requires !a.Initialize?
    ensures ResetProgress(Step(s, a)) == ResetProgress(s)
  {
    var s' := Step(s, a);
    assert s'.user.id == s.user.id && s'.user.name == s.user.name;
  }

  /** A reset after a reset changes nothing. */
  lemma ResetIdempotent(s: GameState)
    ensures ResetProgress(ResetProgress(s)) == ResetProgress(s)
  {
  }

  // ---------------------------------------------------------------------------
  // Coins and experience

  /**
   * Grants add up and can be taken back with the opposite amount, and the
   * two counters do not interact.
   */
  lemma GrantsCompose(s: GameState, a: int, b: int)
    ensures AddCoins(AddCoins(s, a), b) == AddCoins(s, a + b)
    ensures AddExperience(AddExperience(s, a), b) == AddExperience(s, a + b)
    ensures AddCoins(AddCoins(s, a), -a) == s && AddExperience(AddExperience(s, a), -a) == s
    ensures AddCoins(AddExperience(s, a), b) == AddExperience(AddCoins(s, b), a)
  {
  }

  /** Resetting the first-load state gives back the first-load state, whatever the identity. */
  lemma ResetInitial(id: string, name: string)
    ensures ResetProgress(InitialState.(user := InitialState.user.(id := id, name := name)))
         == InitialState.(user := InitialState.user.(id := id, name := name))
  {
    CatalogFacts.SeedAndResetAreCatalog();
  }
}

=== FILE: store_proofs.dfy ===
/**
 * What `completeLesson` does, stated without the threaded cursor: an
 * elementwise reference for the lesson/level overlay, the exact reward
 * arithmetic, and the level cascade. These hold for any state whose lesson
 * ids are distinct and whose level flags agree with their lessons, which the
 * catalog's states are.
 */
module StoreProofs {
  import opened Wrappers
  import opened GameTypes
  import opened GameStore

  predicate ValidLoc(levels: seq<Level>, k: int, i: int)
  {
    0 <= k < |levels| && 0 <= i < |levels[k].lessons|
  }

  /** No two lessons, in the same level or not, share an id. */
  ghost predicate DistinctLessonIds(levels: seq<Level>)
  {
    forall k1, i1, k2, i2 ::
      ValidLoc(levels, k1, i1) && ValidLoc(levels, k2, i2) && (k1 != k2 || i1 != i2) ==>
        levels[k1].lessons[i1].id != levels[k2].lessons[i2].id
  }

  predicate DistinctIds(lessons: seq<Lesson>)
  {
    forall i, j :: 0 <= i < j < |lessons| ==> lessons[i].id != lessons[j].id
  }

  predicate DistinctLevelIds(levels: seq<Level>)
  {
    forall j, k :: 0 <= j < k < |levels| ==> levels[j].id != levels[k].id
  }

  ghost predicate HasLessonId(levels: seq<Level>, x: string)
  {
    exists k, i :: ValidLoc(levels, k, i) && levels[k].lessons[i].id == x
  }

  /** A level is marked completed exactly when all of its lessons are. */
  predicate Consistent(levels: seq<Level>)
  {
    forall k :: 0 <= k < |levels| ==> (levels[k].isCompleted <==> AllCompleted(levels[k].lessons))
  }

  // ---------------------------------------------------------------------------
  // The reference overlay

  /** Lesson `j` after completing `t`: completed if it is `t`, unlocked if it follows `t`. */
  function MarkedLesson(lessons: seq<Lesson>, j: nat, t: string): Lesson
    requires j < |lessons|
  {
    var l := lessons[j];
    if l.id == t then l.(isCompleted := true)
    else if j > 0 && lessons[j - 1].id == t then l.(isUnlocked := true)
    else l
  }

  function MarkedLessons(lessons: seq<Lesson>, t: string): seq<Lesson>
  {
    seq(|lessons|, j requires 0 <= j < |lessons| => MarkedLesson(lessons, j, t))
  }

  /** The level was not completed and is once `t` is. */
  predicate NewlyCompletes(lv: Level, t: string)
  {
    !lv.isCompleted && AllCompleted(MarkedLessons(lv.lessons, t))
  }

  function MarkedLevel(lv: Level, t: string): Level
  {
    var ls := MarkedLessons(lv.lessons, t);
    if NewlyCompletes(lv, t) then lv.(lessons := ls, isCompleted := true) else lv.(lessons := ls)
  }

  function MarkedLevels(levels: seq<Level>, t: string): seq<Level>
  {
    seq(|levels|, k requires 0 <= k < |levels| => MarkedLevel(levels[k], t))
  }

  /** What the cursor's `next` may hold on reaching lesson `i`. */
  predicate NextOk(lessons: seq<Lesson>, i: nat, t: string, next: Option<string>)
  {
    if 0 < i < |lessons| && lessons[i - 1].id == t then next == Some(lessons[i].id)
    else next.None? || forall j :: i <= j < |lessons| ==> next != Some(lessons[j].id)
  }

  lemma {:induction false} MarkLessonsAgrees(lessons: seq<Lesson>, i: nat, t: string, c: Cursor)
    requires i <= |lessons|
    requires DistinctIds(lessons)
    requires NextOk(lessons, i, t, c.next)
    ensures MarkLessons(lessons, i, t, c).0 == MarkedLessons(lessons, t)[i..]
    decreases |lessons| - i
  {
    var m := MarkedLessons(lessons, t);
    if i < |lessons| {
      var head := MarkLesson(lessons, i, t, c);
      assert NextOk(lessons, i + 1, t, head.1.next);
      MarkLessonsAgrees(lessons, i + 1, t, head.1);
      assert head.0 == m[i];
      assert m[i..] == [m[i]] + m[i + 1..];
    }
  }

  /** The cursor after the lesson pass: the completed lesson's reward and its successor's id, or unchanged. */
  lemma {:induction false} MarkLessonsCursor(lessons: seq<Lesson>, i: nat, t: string, c: Cursor)
    requires i <= |lessons|
    requires DistinctIds(lessons)
    ensures var r := MarkLessons(lessons, i, t, c);
      && (forall p {:trigger lessons[p]} :: i <= p < |lessons| && lessons[p].id == t ==>
            r.1 == c.(lessonReward := Some(lessons[p].reward),
                      next := if p < |lessons| - 1 then Some(lessons[p + 1].id) else c.next))
      && ((forall p :: i <= p < |lessons| ==> lessons[p].id != t) ==> r.1 == c)
    decreases |lessons| - i
  {
    if i < |lessons| {
      var head := MarkLesson(lessons, i, t, c);
      MarkLessonsCursor(lessons, i + 1, t, head.1);
      if lessons[i].id == t {
        assert forall p :: i < p < |lessons| ==> lessons[p].id != t;
        assert MarkLessons(lessons, i, t, c).1 == head.1;
      } else {
        assert head.1 == c;
      }
    }
  }

  /** Splitting off the first level keeps ids distinct, and its ids are not in the rest. */
  lemma DistinctTail(levels: seq<Level>)
    requires |levels| > 0 && DistinctLessonIds(levels)
    ensures DistinctLessonIds(levels[1..])
    ensures DistinctIds(levels[0].lessons)
    ensures forall i :: 0 <= i < |levels[0].lessons| ==> !HasLessonId(levels[1..], levels[0].lessons[i].id)
  {
    assert forall k :: 0 <= k < |levels[1..]| ==> levels[1..][k] == levels[k + 1];
    forall i | 0 <= i < |levels[0].lessons|
      ensures !HasLessonId(levels[1..], levels[0].lessons[i].id)
    {
      forall k, j | ValidLoc(levels[1..], k, j)
        ensures levels[1..][k].lessons[j].id != levels[0].lessons[i].id
      {
        assert ValidLoc(levels, k + 1, j) && ValidLoc(levels, 0, i);
      }
    }
    forall i, j | 0 <= i < j < |levels[0].lessons|
      ensures levels[0].lessons[i].id != levels[0].lessons[j].id
    {
      assert ValidLoc(levels, 0, i) && ValidLoc(levels, 0, j);
    }
    forall k1, i1, k2, i2 | ValidLoc(levels[1..], k1, i1) && ValidLoc(levels[1..], k2, i2) && (k1 != k2 || i1 != i2)
      ensures levels[1..][k1].lessons[i1].id != levels[1..][k2].lessons[i2].id
    {
      assert ValidLoc(levels, k1 + 1, i1) && ValidLoc(levels, k2 + 1, i2);
    }
  }

  /** An id missing from all levels is missing from the rest after the first. */
  lemma MissingTail(levels: seq<Level>, x: string)
    requires |levels| > 0 && !HasLessonId(levels, x)
    ensures !HasLessonId(levels[1..], x)
    ensures forall i :: 0 <= i < |levels[0].lessons| ==> levels[0].lessons[i].id != x
  {
    forall k, j | ValidLoc(levels[1..], k, j)
      ensures levels[1..][k].lessons[j].id != x
    {
      assert levels[1..][k] == levels[k + 1];
      assert ValidLoc(levels, k + 1, j);
    }
    forall i | 0 <= i < |levels[0].lessons|
      ensures levels[0].lessons[i].id != x
    {
      assert ValidLoc(levels, 0, i);
    }
  }

  /** One level of the fold against the reference. */
  lemma MarkLevelAgrees(lv: Level, t: string, c: Cursor)
    requires DistinctIds(lv.lessons)
    requires c.next.None? || forall j :: 0 <= j < |lv.lessons| ==> c.next != Some(lv.lessons[j].id)
    ensures var r := MarkLevel(lv, t, c);
      && r.0 == MarkedLevel(lv, t)
      && (forall p :: 0 <= p < |lv.lessons| && lv.lessons[p].id == t ==> r.1.lessonReward == Some(lv.lessons[p].reward))
      && ((forall p :: 0 <= p < |lv.lessons| ==> lv.lessons[p].id != t) ==> r.1.lessonReward == c.lessonReward)
      && (r.1.next == c.next || exists p :: 0 < p < |lv.lessons| && r.1.next == Some(lv.lessons[p].id))
      && r.1.levelCompleted == (c.levelCompleted || NewlyCompletes(lv, t))
      && r.1.levelReward == (if NewlyCompletes(lv, t) then Some(lv.reward) else c.levelReward)
  {
    MarkLessonsAgrees(lv.lessons, 0, t, c);
    MarkLessonsCursor(lv.lessons, 0, t, c);
    var m := MarkLessons(lv.lessons, 0, t, c);
    assert m.0 == MarkedLessons(lv.lessons, t)[0..] == MarkedLessons(lv.lessons, t);
    if exists p :: 0 <= p < |lv.lessons| && lv.lessons[p].id == t {
      var p :| 0 <= p < |lv.lessons| && lv.lessons[p].id == t;
      assert lv.lessons[p] == lv.lessons[p];
    }
  }

  lemma MarkedLevelsCons(levels: seq<Level>, t: string)
    requires |levels| > 0
    ensures MarkedLevels(levels, t) == [MarkedLevel(levels[0], t)] + MarkedLevels(levels[1..], t)
  {
  }

  /** After one level the cursor's `next` is still absent from the remaining levels. */
  lemma NextStaysFresh(levels: seq<Level>, t: string, c: Cursor)
    requires |levels| > 0 && DistinctLessonIds(levels)
    requires c.next.None? || !HasLessonId(levels, c.next.value)
    ensures DistinctLessonIds(levels[1..])
    ensures var head := MarkLevel(levels[0], t, c);
      && head.0 == MarkedLevel(levels[0], t)
      && (head.1.next.None? || !HasLessonId(levels[1..], head.1.next.value))
  {
    var lv := levels[0];
    DistinctTail(levels);
    if c.next.Some? {
      MissingTail(levels, c.next.value);
    }
    MarkLevelAgrees(lv, t, c);
    var head := MarkLevel(lv, t, c);
    if head.1.next.Some? && head.1.next != c.next {
      var p :| 0 < p < |lv.lessons| && head.1.next == Some(lv.lessons[p].id);
    }
  }

  lemma {:induction false} MarkLevelsAgrees(levels: seq<Level>, t: string, c: Cursor)
    requires DistinctLessonIds(levels)
    requires c.next.None? || !HasLessonId(levels, c.next.value)
    ensures MarkLevels(levels, t, c).0 == MarkedLevels(levels, t)
    decreases |levels|
  {
    if levels != [] {
      NextStaysFresh(levels, t, c);
      MarkLevelsAgrees(levels[1..], t, MarkLevel(levels[0], t, c).1);
      MarkedLevelsCons(levels, t);
    }
  }

  lemma {:induction false} MarkLevelsLessonReward(levels: seq<Level>, t: string, c: Cursor)
    requires DistinctLessonIds(levels)
    requires c.next.None? || !HasLessonId(levels, c.next.value)
    ensures var r := MarkLevels(levels, t, c);
      && (forall k, i :: ValidLoc(levels, k, i) && levels[k].lessons[i].id == t ==>
            r.1.lessonReward == Some(levels[k].lessons[i].reward))
      && (!HasLessonId(levels, t) ==> r.1.lessonReward == c.lessonReward)
    decreases |levels|
  {
    if levels != [] {
      var lv := levels[0];
      NextStaysFresh(levels, t, c);
      DistinctTail(levels);
      MarkLevelAgrees(lv, t, c);
      var head := MarkLevel(lv, t, c);
      MarkLevelsLessonReward(levels[1..], t, head.1);
      assert forall k :: 0 <= k < |levels[1..]| ==> levels[1..][k] == levels[k + 1];
      forall k, i | ValidLoc(levels, k, i) && levels[k].lessons[i].id == t
        ensures MarkLevels(levels, t, c).1.lessonReward == Some(levels[k].lessons[i].reward)
      {
        if k > 0 {
          assert ValidLoc(levels[1..], k - 1, i);
        }
      }
      if !HasLessonId(levels, t) {
        MissingTail(levels, t);
      }
    }
  }

  /** No level after `k` newly completes. */
  ghost predicate LastNewlyCompleted(levels: seq<Level>, t: string, k: int)
  {
    0 <= k < |levels| && NewlyCompletes(levels[k], t) &&
    forall k' :: k < k' < |levels| ==> !NewlyCompletes(levels[k'], t)
  }

  lemma {:induction false} MarkLevelsCompletion(levels: seq<Level>, t: string, c: Cursor)
    requires DistinctLessonIds(levels)
    requires c.next.None? || !HasLessonId(levels, c.next.value)
    ensures var r := MarkLevels(levels, t, c);
      && r.1.levelCompleted == (c.levelCompleted || exists k :: 0 <= k < |levels| && NewlyCompletes(levels[k], t))
      && ((forall k :: 0 <= k < |levels| ==> !NewlyCompletes(levels[k], t)) ==> r.1.levelReward == c.levelReward)
      && (forall k :: LastNewlyCompleted(levels, t, k) ==> r.1.levelReward == Some(levels[k].reward))
    decreases |levels|
  {
    if levels != [] {
      var lv, rest := levels[0], levels[1..];
      NextStaysFresh(levels, t, c);
      DistinctTail(levels);
      MarkLevelFlags(lv, t, c);
      var head := MarkLevel(lv, t, c);
      MarkLevelsCompletion(rest, t, head.1);
      var r := MarkLevels(levels, t, c);
      assert r.1 == MarkLevels(rest, t, head.1).1;
      NewlyCompletesSplit(levels, t);
      forall k | LastNewlyCompleted(levels, t, k)
        ensures r.1.levelReward == Some(levels[k].reward)
      {
        LastSplit(levels, t, k);
      }
    }
  }

  /** The level flags of the cursor after one level. */
  lemma MarkLevelFlags(lv: Level, t: string, c: Cursor)
    requires DistinctIds(lv.lessons)
    requires c.next.None? || forall j :: 0 <= j < |lv.lessons| ==> c.next != Some(lv.lessons[j].id)
    ensures var r := MarkLevel(lv, t, c);
      && r.1.levelCompleted == (c.levelCompleted || NewlyCompletes(lv, t))
      && r.1.levelReward == (if NewlyCompletes(lv, t) then Some(lv.reward) else c.levelReward)
  {
    MarkLevelAgrees(lv, t, c);
  }

  /** Some level newly completes iff the first does or one of the rest does. */
  lemma NewlyCompletesSplit(levels: seq<Level>, t: string)
    requires |levels| > 0
    ensures (exists k :: 0 <= k < |levels| && NewlyCompletes(levels[k], t)) <==>
            (NewlyCompletes(levels[0], t) || exists k :: 0 <= k < |levels[1..]| && NewlyCompletes(levels[1..][k], t))
  {
    var rest := levels[1..];
    if exists k :: 0 <= k < |levels| && NewlyCompletes(levels[k], t) {
      var k :| 0 <= k < |levels| && NewlyCompletes(levels[k], t);
      if k > 0 {
        assert NewlyCompletes(rest[k - 1], t);
      }
    }
    if exists k :: 0 <= k < |rest| && NewlyCompletes(rest[k], t) {
      var k :| 0 <= k < |rest| && NewlyCompletes(rest[k], t);
      assert NewlyCompletes(levels[k + 1], t);
    }
  }

  /** The last newly completed level, seen from the rest of the list. */
  lemma LastSplit(levels: seq<Level>, t: string, k: int)
    requires LastNewlyCompleted(levels, t, k)
    ensures k > 0 ==> LastNewlyCompleted(levels[1..], t, k - 1)
    ensures k == 0 ==> forall k' :: 0 <= k' < |levels[1..]| ==> !NewlyCompletes(levels[1..][k'], t)
  {
    var rest := levels[1..];
    assert forall k' :: 0 <= k' < |rest| ==> rest[k'] == levels[k' + 1];
  }

  // ---------------------------------------------------------------------------
  // completeLesson on well-formed states

  ghost predicate WellFormed(levels: seq<Level>)
  {
    DistinctLessonIds(levels) && DistinctLevelIds(levels) && Consistent(levels)
  }

  /** Completing lesson `i` of `lv` completes the level: it was not completed and every other lesson is. */
  predicate CompletesLevel(lv: Level, i: int)
  {
    !lv.isCompleted && forall j :: 0 <= j < |lv.lessons| && j != i ==> lv.lessons[j].isCompleted
  }

  /**
   * Completing lesson (k, i) unlocks level `j`: it finishes level `k`, and
   * `j` is the level numbered `user.level + 1`, is not `k` and is not completed.
   */
  ghost predicate Advances(s: GameState, k: int, i: int, j: int)
  {
    && 0 <= k < |s.levels| && CompletesLevel(s.levels[k], i)
    && 0 <= j < |s.levels| && j != k
    && s.levels[j].id == s.user.level + 1 && !s.levels[j].isCompleted
  }

  lemma MarkedLessonsFlags(lessons: seq<Lesson>, t: string, i: int)
    requires DistinctIds(lessons) && 0 <= i < |lessons| && lessons[i].id == t
    ensures var m := MarkedLessons(lessons, t);
      forall j :: 0 <= j < |lessons| ==>
        && m[j].isCompleted == (lessons[j].isCompleted || j == i)
        && m[j].isUnlocked == (lessons[j].isUnlocked || j == i + 1)
  {
  }

  lemma NewlyCompletesIff(lv: Level, t: string, i: int)
    requires DistinctIds(lv.lessons) && 0 <= i < |lv.lessons| && lv.lessons[i].id == t
    ensures NewlyCompletes(lv, t) <==> CompletesLevel(lv, i)
  {
    MarkedLessonsFlags(lv.lessons, t, i);
  }

  /** A level without lesson `t` is left exactly as it was, given its flag agrees with its lessons. */
  lemma AbsentLevelUnchanged(lv: Level, t: string)
    requires forall j :: 0 <= j < |lv.lessons| ==> lv.lessons[j].id != t
    requires lv.isCompleted <==> AllCompleted(lv.lessons)
    ensures MarkedLessons(lv.lessons, t) == lv.lessons
    ensures !NewlyCompletes(lv, t) && MarkedLevel(lv, t) == lv
  {
    assert MarkedLessons(lv.lessons, t) == lv.lessons;
  }

  /** On a well-formed state, only the level owning lesson (k, i) can change, and it is the reference's. */
  lemma MarkedOwner(levels: seq<Level>, t: string, k: int, i: int)
    requires WellFormed(levels) && ValidLoc(levels, k, i) && levels[k].lessons[i].id == t
    ensures DistinctIds(levels[k].lessons)
    ensures NewlyCompletes(levels[k], t) <==> CompletesLevel(levels[k], i)
    ensures forall k' :: 0 <= k' < |levels| && k' != k ==>
      MarkedLevel(levels[k'], t) == levels[k'] && !NewlyCompletes(levels[k'], t)
  {
    forall a, b | 0 <= a < b < |levels[k].lessons|
      ensures levels[k].lessons[a].id != levels[k].lessons[b].id
    {
      assert ValidLoc(levels, k, a) && ValidLoc(levels, k, b);
    }
    NewlyCompletesIff(levels[k], t, i);
    forall k' | 0 <= k' < |levels| && k' != k
      ensures MarkedLevel(levels[k'], t) == levels[k'] && !NewlyCompletes(levels[k'], t)
    {
      forall j | 0 <= j < |levels[k'].lessons|
        ensures levels[k'].lessons[j].id != t
      {
        assert ValidLoc(levels, k', j);
      }
      AbsentLevelUnchanged(levels[k'], t);
    }
  }

  /** The fold's result on a well-formed state, in terms of the owner (k, i). */
  lemma FoldOnOwner(s: GameState, t: string, k: int, i: int)
    requires WellFormed(s.levels) && ValidLoc(s.levels, k, i) && s.levels[k].lessons[i].id == t
    ensures var m := MarkLevels(s.levels, t, StartCursor);
      && m.0 == MarkedLevels(s.levels, t)
      && m.1.lessonReward == Some(s.levels[k].lessons[i].reward)
      && m.1.levelCompleted == CompletesLevel(s.levels[k], i)
      && (CompletesLevel(s.levels[k], i) ==> m.1.levelReward == Some(s.levels[k].reward))
  {
    MarkLevelsAgrees(s.levels, t, StartCursor);
    MarkLevelsLessonReward(s.levels, t, StartCursor);
    MarkLevelsCompletion(s.levels, t, StartCursor);
    MarkedOwner(s.levels, t, k, i);
    if CompletesLevel(s.levels[k], i) {
      assert LastNewlyCompleted(s.levels, t, k);
    }
  }

  /** With distinct level numbers, an open level numbered `current + 1` is the one advanced to. */
  lemma AdvanceLevelAt(levels: seq<Level>, current: int, j: int)
    requires DistinctLevelIds(levels) && 0 <= j < |levels|
    requires levels[j].id == current + 1 && !levels[j].isCompleted
    ensures AdvanceLevel(levels, current) == (UnlockAt(levels, j), current + 1)
  {
    forall j' | 0 <= j' < |levels| && j' != j
      ensures levels[j'].id != current + 1
    {
    }
    assert !SomeCompletedWithId(levels, current + 1);
    assert FindLevel(levels, current + 1) == Some(j);
  }

  /** When every level numbered `current + 1` is completed, the cascade does nothing. */
  lemma AdvanceLevelNone(levels: seq<Level>, current: int)
    requires forall j :: 0 <= j < |levels| && levels[j].id == current + 1 ==> levels[j].isCompleted
    ensures AdvanceLevel(levels, current) == (levels, current)
  {
    var f := FindLevel(levels, current + 1);
    if f.Some? {
      assert levels[f.value].isCompleted;
      assert SomeCompletedWithId(levels, current + 1);
    }
  }

  /** The reference overlay keeps every level number and changes only the owner level. */
  lemma MarkedLevelsShape(levels: seq<Level>, t: string, k: int, i: int)
    requires WellFormed(levels) && ValidLoc(levels, k, i) && levels[k].lessons[i].id == t
    ensures var m := MarkedLevels(levels, t);
      && |m| == |levels| && DistinctLevelIds(m)
      && (forall j :: 0 <= j < |m| ==> m[j].id == levels[j].id)
      && (forall j :: 0 <= j < |m| && j != k ==> m[j] == levels[j])
      && m[k].isCompleted == (levels[k].isCompleted || CompletesLevel(levels[k], i))
  {
    MarkedOwner(levels, t, k, i);
    var m := MarkedLevels(levels, t);
    assert forall j :: 0 <= j < |m| ==> m[j] == MarkedLevel(levels[j], t);
  }

  /** Where the cascade goes: the level found by number is the one `Advances` names. */
  lemma CascadeTarget(s: GameState, t: string, k: int, i: int)
    requires WellFormed(s.levels) && ValidLoc(s.levels, k, i) && s.levels[k].lessons[i].id == t
    requires CompletesLevel(s.levels[k], i)
    ensures var m := MarkedLevels(s.levels, t);
      && ((forall j :: !Advances(s, k, i, j)) ==> AdvanceLevel(m, s.user.level) == (m, s.user.level))
      && (forall j :: Advances(s, k, i, j) ==> AdvanceLevel(m, s.user.level) == (UnlockAt(m, j), s.user.level + 1))
  {
    var m := MarkedLevels(s.levels, t);
    MarkedLevelsShape(s.levels, t, k, i);
    forall j | Advances(s, k, i, j)
      ensures AdvanceLevel(m, s.user.level) == (UnlockAt(m, j), s.user.level + 1)
    {
      AdvanceLevelAt(m, s.user.level, j);
    }
    if forall j :: !Advances(s, k, i, j) {
      forall j | 0 <= j < |m| && m[j].id == s.user.level + 1
        ensures m[j].isCompleted
      {
        assert !Advances(s, k, i, j);
      }
      AdvanceLevelNone(m, s.user.level);
    }
  }

  /**
   * Completing lesson (k, i) of a well-formed state: coins and experience grow
   * by exactly the lesson's reward, plus the level's when the lesson finishes
   * its level; then the level's badges are added, the level numbered
   * `user.level + 1` is advanced to if it is there and not completed, and the
   * (possibly unchanged) level number is appended to `unlockedLevels`.
   */
  lemma CompleteLessonUser(s: GameState, t: string, now: int, k: int, i: int)
    requires WellFormed(s.levels) && t !in s.user.completedLessons
    requires ValidLoc(s.levels, k, i) && s.levels[k].lessons[i].id == t
    ensures var r := CompleteLesson(s, t, now);
      var lv := s.levels[k];
      var done := CompletesLevel(lv, i);
      && r.user.coins == s.user.coins + lv.lessons[i].reward.coins + (if done then lv.reward.coins else 0)
      && r.user.experience == s.user.experience + lv.lessons[i].reward.experience + (if done then lv.reward.experience else 0)
      && r.user.badges == (if done then AddRewardBadges(s.user.badges, lv.reward.badges, now) else s.user.badges)
      && r.user.level == (if exists j :: Advances(s, k, i, j) then s.user.level + 1 else s.user.level)
      && r.user.unlockedLevels == (if done then s.user.unlockedLevels + [r.user.level] else s.user.unlockedLevels)
      && r.user.completedLessons == s.user.completedLessons + [t]
  {
    CompleteLessonRewards(s, t, now, k, i);
    CompleteLessonLevel(s, t, now, k, i);
  }

  /** The rewards half of `CompleteLessonUser`. */
  lemma CompleteLessonRewards(s: GameState, t: string, now: int, k: int, i: int)
    requires WellFormed(s.levels) && t !in s.user.completedLessons
    requires ValidLoc(s.levels, k, i) && s.levels[k].lessons[i].id == t
    ensures var r := CompleteLesson(s, t, now);
      var lv := s.levels[k];
      var done := CompletesLevel(lv, i);
      && r.user.coins == s.user.coins + lv.lessons[i].reward.coins + (if done then lv.reward.coins else 0)
      && r.user.experience == s.user.experience + lv.lessons[i].reward.experience + (if done then lv.reward.experience else 0)
      && r.user.badges == (if done then AddRewardBadges(s.user.badges, lv.reward.badges, now) else s.user.badges)
  {
    FoldOnOwner(s, t, k, i);
  }

  /** The level half of `CompleteLessonUser`. */
  lemma CompleteLessonLevel(s: GameState, t: string, now: int, k: int, i: int)
    requires WellFormed(s.levels) && t !in s.user.completedLessons
    requires ValidLoc(s.levels, k, i) && s.levels[k].lessons[i].id == t
    ensures var r := CompleteLesson(s, t, now);
      && r.user.level == (if exists j :: Advances(s, k, i, j) then s.user.level + 1 else s.user.level)
      && r.user.unlockedLevels == (if CompletesLevel(s.levels[k], i) then s.user.unlockedLevels + [r.user.level] else s.user.unlockedLevels)
  {
    FoldOnOwner(s, t, k, i);
    if CompletesLevel(s.levels[k], i) {
      CascadeTarget(s, t, k, i);
    } else {
      assert forall j :: !Advances(s, k, i, j);
    }
  }

  /** The overlay after the fold and the cascade, with the cascade's level named. */
  lemma OverlayShape(s: GameState, t: string, now: int, k: int, i: int)
    requires WellFormed(s.levels) && t !in s.user.completedLessons
    requires ValidLoc(s.levels, k, i) && s.levels[k].lessons[i].id == t
    ensures var r := CompleteLesson(s, t, now);
      && ((forall j :: !Advances(s, k, i, j)) ==> r.levels == MarkedLevels(s.levels, t))
      && (forall j :: Advances(s, k, i, j) ==> r.levels == UnlockAt(MarkedLevels(s.levels, t), j))
  {
    FoldOnOwner(s, t, k, i);
    var m := MarkLevels(s.levels, t, StartCursor);
    var rewarded := m.1.levelCompleted && m.1.levelReward.Some?;
    assert CompleteLesson(s, t, now).levels ==
      (if rewarded then AdvanceLevel(m.0, s.user.level) else (m.0, s.user.level)).0;
    if CompletesLevel(s.levels[k], i) {
      CascadeTarget(s, t, k, i);
    } else {
      assert forall j :: !Advances(s, k, i, j);
    }
  }

  /** At most one level is advanced to, since level numbers are distinct. */
  lemma AdvancesUnique(s: GameState, k: int, i: int, j: int)
    requires DistinctLevelIds(s.levels) && Advances(s, k, i, j)
    ensures forall j' :: Advances(s, k, i, j') <==> j' == j
  {
    forall j' | 0 <= j' < |s.levels| && j' != j
      ensures s.levels[j'].id != s.levels[j].id
    {
    }
  }

  /** `UnlockAt` switches on exactly level `j`'s flag and its first lesson's. */
  lemma UnlockAtFlags(levels: seq<Level>, j: nat)
    requires j < |levels|
    ensures var r := UnlockAt(levels, j);
      && |r| == |levels|
      && (forall k' :: 0 <= k' < |levels| ==>
            && r[k'].id == levels[k'].id
            && r[k'].isCompleted == levels[k'].isCompleted
            && r[k'].isUnlocked == (levels[k'].isUnlocked || k' == j)
            && |r[k'].lessons| == |levels[k'].lessons|)
      && (forall k', i' :: ValidLoc(levels, k', i') ==>
            && r[k'].lessons[i'].isCompleted == levels[k'].lessons[i'].isCompleted
            && r[k'].lessons[i'].isUnlocked == (levels[k'].lessons[i'].isUnlocked || (k' == j && i' == 0)))
  {
  }

  /** The reference overlay's flags: the owner lesson completed, its successor unlocked, its level completed when finished. */
  lemma MarkedLevelsFlags(levels: seq<Level>, t: string, k: int, i: int)
    requires WellFormed(levels) && ValidLoc(levels, k, i) && levels[k].lessons[i].id == t
    ensures var m := MarkedLevels(levels, t);
      && |m| == |levels|
      && (forall k' :: 0 <= k' < |levels| ==>
            && m[k'].isCompleted == (levels[k'].isCompleted || (k' == k && CompletesLevel(levels[k], i)))
            && m[k'].isUnlocked == levels[k'].isUnlocked
            && |m[k'].lessons| == |levels[k'].lessons|)
      && (forall k', i' :: ValidLoc(levels, k', i') ==>
            && m[k'].lessons[i'].isCompleted == (levels[k'].lessons[i'].isCompleted || (k' == k && i' == i))
            && m[k'].lessons[i'].isUnlocked == (levels[k'].lessons[i'].isUnlocked || (k' == k && i' == i + 1)))
  {
    MarkedLevelsShape(levels, t, k, i);
    MarkedOwner(levels, t, k, i);
    MarkedLessonsFlags(levels[k].lessons, t, i);
  }

  /**
   * The level flags after completing lesson (k, i): its level completed when
   * the lesson finishes it, and the advanced-to level unlocked. No other level
   * flag changes.
   */
  lemma CompleteLessonLevelFlags(s: GameState, t: string, now: int, k: int, i: int)
    requires WellFormed(s.levels) && t !in s.user.completedLessons
    requires ValidLoc(s.levels, k, i) && s.levels[k].lessons[i].id == t
    ensures var r := CompleteLesson(s, t, now);
      forall k' :: 0 <= k' < |s.levels| ==>
        && r.levels[k'].isCompleted == (s.levels[k'].isCompleted || (k' == k && CompletesLevel(s.levels[k], i)))
        && r.levels[k'].isUnlocked == (s.levels[k'].isUnlocked || Advances(s, k, i, k'))
  {
    OverlayShape(s, t, now, k, i);
    OverlayLevelFlags(s, t, k, i, CompleteLesson(s, t, now).levels);
  }

  /** The level flags of either overlay `completeLesson` can produce. */
  lemma OverlayLevelFlags(s: GameState, t: string, k: int, i: int, rl: seq<Level>)
    requires WellFormed(s.levels) && ValidLoc(s.levels, k, i) && s.levels[k].lessons[i].id == t
    requires (forall j :: !Advances(s, k, i, j)) ==> rl == MarkedLevels(s.levels, t)
    requires forall j :: Advances(s, k, i, j) ==> rl == UnlockAt(MarkedLevels(s.levels, t), j)
    ensures |rl| == |s.levels|
    ensures forall k' :: 0 <= k' < |s.levels| ==>
      && rl[k'].isCompleted == (s.levels[k'].isCompleted || (k' == k && CompletesLevel(s.levels[k], i)))
      && rl[k'].isUnlocked == (s.levels[k'].isUnlocked || Advances(s, k, i, k'))
  {
    MarkedLevelsFlags(s.levels, t, k, i);
    if j :| Advances(s, k, i, j) {
      UnlockAtFlags(MarkedLevels(s.levels, t), j);
      AdvancesUnique(s, k, i, j);
    }
  }

  /**
   * The lesson flags after completing lesson (k, i): that lesson completed,
   * the next one in its level unlocked, and the first lesson of the
   * advanced-to level unlocked. No other lesson flag changes.
   */
  lemma CompleteLessonLessonFlags(s: GameState, t: string, now: int, k: int, i: int)
    requires WellFormed(s.levels) && t !in s.user.completedLessons
    requires ValidLoc(s.levels, k, i) && s.levels[k].lessons[i].id == t
    ensures var r := CompleteLesson(s, t, now);
      forall k', i' :: ValidLoc(s.levels, k', i') ==>
        && r.levels[k'].lessons[i'].isCompleted == (s.levels[k'].lessons[i'].isCompleted || (k' == k && i' == i))
        && r.levels[k'].lessons[i'].isUnlocked ==
             (s.levels[k'].lessons[i'].isUnlocked || (k' == k && i' == i + 1) || (i' == 0 && Advances(s, k, i, k')))
  {
    OverlayShape(s, t, now, k, i);
    OverlayLessonFlags(s, t, k, i, CompleteLesson(s, t, now).levels);
  }

  /** The lesson flags of either overlay `completeLesson` can produce. */
  lemma OverlayLessonFlags(s: GameState, t: string, k: int, i: int, rl: seq<Level>)
    requires WellFormed(s.levels) && ValidLoc(s.levels, k, i) && s.levels[k].lessons[i].id == t
    requires (forall j :: !Advances(s, k, i, j)) ==> rl == MarkedLevels(s.levels, t)
    requires forall j :: Advances(s, k, i, j) ==> rl == UnlockAt(MarkedLevels(s.levels, t), j)
    ensures |rl| == |s.levels| && forall k' :: 0 <= k' < |s.levels| ==> |rl[k'].lessons| == |s.levels[k'].lessons|
    ensures forall k', i' :: ValidLoc(s.levels, k', i') ==>
      && rl[k'].lessons[i'].isCompleted == (s.levels[k'].lessons[i'].isCompleted || (k' == k && i' == i))
      && rl[k'].lessons[i'].isUnlocked ==
           (s.levels[k'].lessons[i'].isUnlocked || (k' == k && i' == i + 1) || (i' == 0 && Advances(s, k, i, k')))
  {
    MarkedLevelsFlags(s.levels, t, k, i);
    if j :| Advances(s, k, i, j) {
      UnlockAtFlags(MarkedLevels(s.levels, t), j);
      AdvancesUnique(s, k, i, j);
    }
  }
}

=== FILE: user_profile.dfy ===
/**
 * The profile card's derived figures: progress through the current level's
 * experience band, the four most recent badges, the NEW marker, and the
 * three counters.
 */
module UserProfile {
  import opened Wrappers
  import opened GameTypes
  import GameStore
  import StoreLaws
  import GameData

  /** Width of a level's experience band: level `L` runs from `100L` to `100(L+1)`. */
  const BandWidth := 100

  /** A badge is marked NEW for a day after it is earned, in milliseconds. */
  const Day := 24 * 60 * 60 * 1000

  /** Progress to the next level, as a percentage clamped to 0..100. */
  function Progress(u: User): (r: int)
    ensures 0 <= r <= 100
  {
    var current, next := u.level * BandWidth, (u.level + 1) * BandWidth;
    var raw := (u.experience - current) * 100 / (next - current);
    Max(0, Min(100, raw))
  }

  function Min(a: int, b: int): int { if a <= b then a else b }
  function Max(a: int, b: int): int { if a >= b then a else b }

  /** Because the band is 100 wide, the percentage is the experience past the band's floor, clamped. */
  lemma ProgressIsClamp(u: User)
    ensures u.experience <= 100 * u.level ==> Progress(u) == 0
    ensures u.experience >= 100 * u.level + 100 ==> Progress(u) == 100
    ensures 100 * u.level <= u.experience <= 100 * u.level + 100 ==> Progress(u) == u.experience - 100 * u.level
  {
    assert (u.level + 1) * BandWidth - u.level * BandWidth == 100;
    assert (u.experience - u.level * BandWidth) * 100 / 100 == u.experience - u.level * BandWidth;
  }

  // ---------------------------------------------------------------------------
  // Recent badges

  /** The sort key: the time earned, or 0 when there is none. */
  function EarnedKey(b: Badge): int
  {
    if b.earnedAt.Some? then b.earnedAt.value else 0
  }

  predicate SortedByRecency(s: seq<Badge>)
  {
    forall i, j :: 0 <= i < j < |s| ==> EarnedKey(s[i]) >= EarnedKey(s[j])
  }

  /** Place `b`, which came before all of `sorted`, ahead of the first badge not more recent than it. */
  function Insert(b: Badge, sorted: seq<Badge>): (r: seq<Badge>)
    requires SortedByRecency(sorted)
    ensures SortedByRecency(r)
    ensures multiset(r) == multiset(sorted) + multiset{b}
    decreases |sorted|
  {
    if sorted == [] || EarnedKey(sorted[0]) <= EarnedKey(b) then
      [b] + sorted
    else
      var rest := Insert(b, sorted[1..]);
      assert multiset(sorted) == multiset{sorted[0]} + multiset(sorted[1..]) by {
        assert sorted == [sorted[0]] + sorted[1..];
      }
      InsertBelow(sorted[0], b, sorted[1..], rest);
      [sorted[0]] + rest
  }

  /** Every badge of `rest` is no more recent than `first`, which is what keeps `[first] + rest` sorted. */
  lemma InsertBelow(first: Badge, b: Badge, tail: seq<Badge>, rest: seq<Badge>)
    requires EarnedKey(first) > EarnedKey(b)
    requires forall x :: x in tail ==> EarnedKey(x) <= EarnedKey(first)
    requires multiset(rest) == multiset(tail) + multiset{b}
    requires SortedByRecency(rest)
    ensures SortedByRecency([first] + rest)
  {
    forall j | 0 <= j < |rest|
      ensures EarnedKey(rest[j]) <= EarnedKey(first)
    {
      assert rest[j] in multiset(rest);
    }
    var r := [first] + rest;
    forall i, j | 0 <= i < j < |r|
      ensures EarnedKey(r[i]) >= EarnedKey(r[j])
    {
      if i > 0 {
        assert r[i] == rest[i - 1] && r[j] == rest[j - 1];
      } else {
        assert r[j] == rest[j - 1];
      }
    }
  }

  /** The badges most recent first, by insertion: each badge goes ahead of the first one not more recent than it. */
  function SortByRecency(s: seq<Badge>): (r: seq<Badge>)
    ensures SortedByRecency(r)
    ensures multiset(r) == multiset(s)
    decreases |s|
  {
    if s == [] then []
    else
      assert s == [s[0]] + s[1..];
      Insert(s[0], SortByRecency(s[1..]))
  }

  /** The badges of `s` with sort key `k`, in their order in `s`. */
  function WithKey(s: seq<Badge>, k: int): seq<Badge>
    decreases |s|
  {
    if s == [] then [] else (if EarnedKey(s[0]) == k then [s[0]] else []) + WithKey(s[1..], k)
  }

  /** Insertion puts `b` ahead of every badge with the same key. */
  lemma {:induction false} InsertStable(b: Badge, sorted: seq<Badge>, k: int)
    requires SortedByRecency(sorted)
    ensures WithKey(Insert(b, sorted), k) == (if EarnedKey(b) == k then [b] else []) + WithKey(sorted, k)
    decreases |sorted|
  {
    if sorted == [] || EarnedKey(sorted[0]) <= EarnedKey(b) {
      var r := [b] + sorted;
      assert r[0] == b && r[1..] == sorted;
    } else {
      var tail := sorted[1..];
      SortedTail(sorted);
      InsertStable(b, tail, k);
      InsertPast(b, sorted);
      assert sorted == [sorted[0]] + tail;
      StableStep(b, sorted[0], tail, Insert(b, tail), k);
    }
  }

  lemma SortedTail(sorted: seq<Badge>)
    requires SortedByRecency(sorted) && sorted != []
    ensures SortedByRecency(sorted[1..])
  {
    var tail := sorted[1..];
    forall i, j | 0 <= i < j < |tail|
      ensures EarnedKey(tail[i]) >= EarnedKey(tail[j])
    {
      assert tail[i] == sorted[i + 1] && tail[j] == sorted[j + 1];
    }
  }

  /** The step of `InsertStable` past a more recent head: the head's key is not `b`'s. */
  lemma StableStep(b: Badge, head: Badge, tail: seq<Badge>, rest: seq<Badge>, k: int)
    requires EarnedKey(head) > EarnedKey(b)
    requires WithKey(rest, k) == (if EarnedKey(b) == k then [b] else []) + WithKey(tail, k)
    ensures WithKey([head] + rest, k) == (if EarnedKey(b) == k then [b] else []) + WithKey([head] + tail, k)
  {
    WithKeyCons(head, rest, k);
    WithKeyCons(head, tail, k);
    if EarnedKey(b) == k {
      assert WithKey([head] + rest, k) == WithKey(rest, k);
      assert WithKey([head] + tail, k) == WithKey(tail, k);
    } else if EarnedKey(head) == k {
      assert WithKey(rest, k) == WithKey(tail, k);
    } else {
      assert WithKey(rest, k) == WithKey(tail, k);
    }
  }

  lemma InsertPast(b: Badge, sorted: seq<Badge>)
    requires SortedByRecency(sorted) && sorted != [] && EarnedKey(sorted[0]) > EarnedKey(b)
    ensures SortedByRecency(sorted[1..])
    ensures Insert(b, sorted) == [sorted[0]] + Insert(b, sorted[1..])
  {
    SortedTail(sorted);
  }

  lemma WithKeyCons(x: Badge, xs: seq<Badge>, k: int)
    ensures WithKey([x] + xs, k) == (if EarnedKey(x) == k then [x] else []) + WithKey(xs, k)
  {
    var r := [x] + xs;
    assert r[0] == x && r[1..] == xs;
  }

  /** The sort is stable: badges earned at the same time keep their order. */
  lemma {:induction false} SortStable(s: seq<Badge>, k: int)
    ensures WithKey(SortByRecency(s), k) == WithKey(s, k)
    decreases |s|
  {
    if s != [] {
      SortStable(s[1..], k);
      InsertStable(s[0], SortByRecency(s[1..]), k);
    }
  }

  /**
   * The store stamps a level reward's badges with one clock reading each; two
   * readings a millisecond apart put the later badge first on the card,
   * ahead of the reward's catalog order.
   */
  lemma SplitStampShowsNewestFirst(t: int)
    ensures var first := GameData.FirstSteps.(earnedAt := Some(t));
            var second := GameData.MoneyHistorian.(earnedAt := Some(t + 1));
            RecentBadges([first, second]) == [second, first]
  {
  }

  /** The badges shown under "Recent Badges": the first four after sorting. */
  function RecentBadges(s: seq<Badge>): (r: seq<Badge>)
    ensures |r| == Min(4, |s|)
    ensures SortedByRecency(r)
    ensures multiset(r) <= multiset(s)
    ensures forall b :: b in multiset(s) - multiset(r) ==> forall i :: 0 <= i < |r| ==> EarnedKey(b) <= EarnedKey(r[i])
  {
    var sorted := SortByRecency(s);
    assert |sorted| == |multiset(sorted)| == |multiset(s)| == |s|;
    SortedPrefix(sorted, Min(4, |s|));
    sorted[..Min(4, |s|)]
  }

  /** A prefix of a sorted list is sorted, part of the list, and no less recent than anything after it. */
  lemma SortedPrefix(sorted: seq<Badge>, n: nat)
    requires SortedByRecency(sorted) && n <= |sorted|
    ensures SortedByRecency(sorted[..n])
    ensures multiset(sorted[..n]) <= multiset(sorted)
    ensures forall b :: b in multiset(sorted) - multiset(sorted[..n]) ==>
      forall i :: 0 <= i < n ==> EarnedKey(b) <= EarnedKey(sorted[i])
  {
    var r, rest := sorted[..n], sorted[n..];
    assert sorted == r + rest;
    assert multiset(sorted) == multiset(r) + multiset(rest);
    forall b | b in multiset(sorted) - multiset(r)
      ensures forall i :: 0 <= i < n ==> EarnedKey(b) <= EarnedKey(sorted[i])
    {
      assert b in rest;
      var k :| 0 <= k < |rest| && rest[k] == b;
      assert sorted[n + k] == b;
    }
  }

  /** The NEW marker: earned, and less than a day ago. */
  predicate IsNew(b: Badge, now: int)
  {
    b.earnedAt.Some? && now - b.earnedAt.value < Day
  }

  lemma NewForADay(b: Badge, t: int, now: int)
    requires b.earnedAt == Some(t)
    ensures IsNew(b, now) <==> now < t + 86400000
  {
  }

  /** A badge the store stamps is NEW at the moment it is earned, and stops being NEW a day later. */
  lemma AwardedIsNew(s: GameStore.GameState, id: string, now: int)
    requires HasBadge(s.availableBadges, id) && !HasBadge(s.user.badges, id)
    ensures var held := GameStore.AwardBadge(s, id, now).user.badges;
      IsNew(held[|s.user.badges|], now) && !IsNew(held[|s.user.badges|], now + Day)
  {
  }

  /** The same for every badge a lesson's or a level's reward adds. */
  lemma RewardedAreNew(held: seq<Badge>, rewards: seq<Badge>, now: int)
    ensures var r := GameStore.AddRewardBadges(held, rewards, now);
      forall j :: |held| <= j < |r| ==> IsNew(r[j], now) && !IsNew(r[j], now + Day)
  {
    var r := GameStore.AddRewardBadges(held, rewards, now);
    forall j | |held| <= j < |r|
      ensures IsNew(r[j], now) && !IsNew(r[j], now + Day)
    {
      var b :| b in rewards && r[j] == b.(earnedAt := Some(now));
    }
  }

  /** Once a badge is no longer NEW it never is again as time goes on. */
  lemma NewOnlyFades(b: Badge, t: int, later: int)
    requires t <= later && !IsNew(b, t)
    ensures !IsNew(b, later)
  {
  }

  // ---------------------------------------------------------------------------
  // Counters

  /** The Lessons, Badges and Levels counters. */
  datatype Counters = Counters(lessons: nat, badges: nat, levels: nat)

  function ProfileCounters(u: User): (r: Counters)
    ensures r.lessons == |u.completedLessons| && r.badges == |u.badges| && r.levels == |u.unlockedLevels|
  {
    Counters(|u.completedLessons|, |u.badges|, |u.unlockedLevels|)
  }

  /** The ids of the held badges, in order. */
  function Ids(held: seq<Badge>): (r: seq<string>)
    ensures |r| == |held| && forall i :: 0 <= i < |held| ==> r[i] == held[i].id
  {
    seq(|held|, i requires 0 <= i < |held| => held[i].id)
  }

  /** Without repeats, the length of a list is the number of its distinct entries. */
  lemma {:induction false} DistinctCount(xs: seq<string>)
    requires StoreLaws.NoRepeats(xs)
    ensures |set x | x in xs| == |xs|
    decreases |xs|
  {
    if xs != [] {
      var tail := xs[1..];
      assert StoreLaws.NoRepeats(tail) by {
        forall j, k | 0 <= j < k < |tail|
          ensures tail[j] != tail[k]
        {
          assert tail[j] == xs[j + 1] && tail[k] == xs[k + 1];
        }
      }
      DistinctCount(tail);
      assert xs[0] !in tail by {
        forall k | 0 <= k < |tail|
          ensures tail[k] != xs[0]
        {
          assert tail[k] == xs[k + 1];
        }
      }
      assert xs == [xs[0]] + tail;
      assert (set x | x in xs) == {xs[0]} + (set x | x in tail);
    }
  }

  /**
   * On every state the store's actions reach, the Lessons counter is the
   * number of distinct completed lessons and the Badges counter the number
   * of distinct badge ids held.
   */
  lemma CountersCountDistinct(actions: seq<StoreLaws.Action>)
    ensures var u := StoreLaws.Run(GameStore.InitialState, actions).user;
      && ProfileCounters(u).lessons == |set x | x in u.completedLessons|
      && ProfileCounters(u).badges == |set x | x in Ids(u.badges)|
  {
    var u := StoreLaws.Run(GameStore.InitialState, actions).user;
    StoreLaws.ReachableInvariant(actions);
    DistinctCount(u.completedLessons);
    assert StoreLaws.NoRepeats(Ids(u.badges));
    DistinctCount(Ids(u.badges));
  }

  /** The Levels counter does not: one `unlockLevel(1)` from the first load shows 2 for one distinct level. */
  lemma LevelsCounterExceedsDistinct()
    ensures var u := StoreLaws.Run(GameStore.InitialState, [StoreLaws.Unlock(1)]).user;
      && u.unlockedLevels == [1, 1]
      && ProfileCounters(u).levels == 2 && |set x | x in u.unlockedLevels| == 1
  {
    var actions := [StoreLaws.Unlock(1)];
    var s1 := GameStore.UnlockLevel(GameStore.InitialState, 1);
    assert actions[0] == StoreLaws.Unlock(1) && actions[1..] == [];
    assert StoreLaws.Run(GameStore.InitialState, actions) == StoreLaws.Run(s1, []);
    assert s1.user.unlockedLevels == [1, 1];
    LevelsCounterCountsRepeats(s1.user);
  }

  /** The Levels counter counts entries, not levels: a repeated entry is counted twice. */
  lemma LevelsCounterCountsRepeats(u: User)
    requires u.unlockedLevels == [1, 1]
    ensures ProfileCounters(u).levels == 2 && |set x | x in u.unlockedLevels| == 1
  {
    assert (set x | x in u.unlockedLevels) == {1};
  }
}

=== FILE: video_lesson_viewer.dfy ===
/**
 * The video lesson screen: a video step and, for lessons that have one, an
 * interactive step behind it, with two completion flags that only ever turn
 * on. Completing reports success to the caller; leaving returns home.
 */
module VideoLessonViewer {
  import opened Wrappers

  /** `interactiveType`: a mini-game, a checklist exercise, or an upsell prompt. */
  datatype InteractiveType = BlockBuilderGame | SecurityGame | InvestmentGame | Exercise | Upsell

  datatype VideoStep = VideoStep | InteractiveStep

  datatype VideoViewer = VideoViewer(step: VideoStep, videoCompleted: bool,
                                     interactiveCompleted: bool, showUpsell: bool)

  const StartVideo := VideoViewer(VideoStep, false, false, false)

  /** What a click asks of the caller: nothing, `onComplete(success)`, or `onBack`. */
  datatype VideoOutcome = Stay | Complete(success: bool) | Leave

  datatype VideoEvent =
    | VideoEnded
    | Continue
    | InteractiveDone(success: bool)
    | InteractiveBack
    | CompleteButton
    | BackButton
    | CloseUpsell

  /** The lesson has an interactive step a user can enter: present and not an upsell. */
  predicate HasInteractive(t: Option<InteractiveType>)
  {
    t.Some? && t.value != Upsell
  }

  /** `canProceedToInteractive`: the video has ended. */
  predicate CanProceed(s: VideoViewer)
  {
    s.videoCompleted
  }

  /** `canCompleteLesson`. */
  predicate CanComplete(t: Option<InteractiveType>, s: VideoViewer)
  {
    s.videoCompleted && (t.None? || t == Some(Upsell) || s.interactiveCompleted)
  }

  /** `handleInteractiveComplete`: done whatever the result; upsell opens its modal; success after the video completes. */
  function InteractiveFinished(t: Option<InteractiveType>, s: VideoViewer, success: bool): (r: (VideoViewer, VideoOutcome))
    ensures r.0.interactiveCompleted
    ensures r.0.step == s.step && r.0.videoCompleted == s.videoCompleted
    ensures r.0.showUpsell == (s.showUpsell || t == Some(Upsell))
    ensures r.1 == (if success && s.videoCompleted then Complete(true) else Stay)
  {
    var u := s.(interactiveCompleted := true, showUpsell := if t == Some(Upsell) then true else s.showUpsell);
    (u, if success && s.videoCompleted then Complete(true) else Stay)
  }

  /**
   * The clicks the screen offers: the player only on the video step; the
   * continue button once the video has ended and there is an interactive to
   * enter; the interactive and its back link only on its step; the complete
   * button on the video step once the lesson can be completed; the modal's
   * close while it is open. The back-to-home link is always there.
   * The interactive's back link is offered on the whole interactive step,
   * although the security checker's result screen renders none
   * (`MiniGame.tsx:392-447`): the inner game's phases are not modelled here,
   * so this over-approximates the clicks; the invariants hold either way.
   */
  predicate VideoEnabled(t: Option<InteractiveType>, s: VideoViewer, e: VideoEvent)
  {
    match e
    case VideoEnded => s.step == VideoStep
    case Continue => s.step == VideoStep && CanProceed(s) && HasInteractive(t)
    case InteractiveDone(_) => s.step == InteractiveStep && HasInteractive(t)
    case InteractiveBack => s.step == InteractiveStep && HasInteractive(t)
    case CompleteButton => s.step == VideoStep && CanComplete(t, s)
    case BackButton => true
    case CloseUpsell => s.showUpsell
  }

  function VideoStepFn(t: Option<InteractiveType>, s: VideoViewer, e: VideoEvent): (r: (VideoViewer, VideoOutcome))
    ensures !VideoEnabled(t, s, e) ==> r == (s, Stay)
    ensures r.1 != Complete(false)
  {
    if !VideoEnabled(t, s, e) then (s, Stay)
    else
      match e
      case VideoEnded => (s.(videoCompleted := true), Stay)
      case Continue => (s.(step := InteractiveStep), Stay)
      case InteractiveDone(success) => InteractiveFinished(t, s, success)
      case InteractiveBack => (s.(step := VideoStep), Stay)
      case CompleteButton => (s, Complete(true))
      case BackButton => (s, Leave)
      case CloseUpsell => (s.(showUpsell := false), Stay)
  }

  function VideoRun(t: Option<InteractiveType>, s: VideoViewer, events: seq<VideoEvent>): (r: (VideoViewer, seq<VideoOutcome>))
    ensures |r.1| == |events|
    decreases |events|
  {
    if events == [] then (s, [])
    else
      var step := VideoStepFn(t, s, events[0]);
      var rest := VideoRun(t, step.0, events[1..]);
      (rest.0, [step.1] + rest.1)
  }

  // ---------------------------------------------------------------------------
  // Properties

  /**
   * Every reachable screen: the interactive step is shown only after the
   * video has ended and only for a lesson with an interactive to enter, and
   * the upsell modal, whose only opener runs on that step, stays closed.
   */
  predicate VideoInv(t: Option<InteractiveType>, s: VideoViewer)
  {
    && (s.step == InteractiveStep ==> s.videoCompleted && HasInteractive(t))
    && !s.showUpsell
  }

  lemma VideoStepKeepsInv(t: Option<InteractiveType>, s: VideoViewer, e: VideoEvent)
    requires VideoInv(t, s)
    ensures VideoInv(t, VideoStepFn(t, s, e).0)
  {
  }

  /** Both completion flags only ever turn on. */
  lemma FlagsMonotone(t: Option<InteractiveType>, s: VideoViewer, e: VideoEvent)
    ensures var r := VideoStepFn(t, s, e).0;
      (s.videoCompleted ==> r.videoCompleted) && (s.interactiveCompleted ==> r.interactiveCompleted)
  {
  }

  /** Completion is reported only once the video has ended, and always as a success. */
  lemma CompletesAfterVideo(t: Option<InteractiveType>, s: VideoViewer, e: VideoEvent)
    ensures VideoStepFn(t, s, e).1.Complete? ==> s.videoCompleted && VideoStepFn(t, s, e).1.success
  {
  }

  lemma {:induction false} VideoRunKeepsInv(t: Option<InteractiveType>, s: VideoViewer, events: seq<VideoEvent>)
    requires VideoInv(t, s)
    ensures VideoInv(t, VideoRun(t, s, events).0)
    decreases |events|
  {
    if events != [] {
      VideoStepKeepsInv(t, s, events[0]);
      VideoRunKeepsInv(t, VideoStepFn(t, s, events[0]).0, events[1..]);
    }
  }

  /** Along any run the flags stay on once set, and every completion reported is a success. */
  lemma {:induction false} VideoRunFacts(t: Option<InteractiveType>, s: VideoViewer, events: seq<VideoEvent>)
    ensures var r := VideoRun(t, s, events);
      && (s.videoCompleted ==> r.0.videoCompleted)
      && (s.interactiveCompleted ==> r.0.interactiveCompleted)
      && Complete(false) !in r.1
    decreases |events|
  {
    if events != [] {
      var step := VideoStepFn(t, s, events[0]);
      FlagsMonotone(t, s, events[0]);
      VideoRunFacts(t, step.0, events[1..]);
      assert VideoRun(t, s, events).1 == [step.1] + VideoRun(t, step.0, events[1..]).1;
    }
  }

  /** From the start, the upsell modal never opens, even for an upsell lesson. */
  lemma UpsellNeverOpens(t: Option<InteractiveType>, events: seq<VideoEvent>)
    ensures !VideoRun(t, StartVideo, events).0.showUpsell
  {
    VideoRunKeepsInv(t, StartVideo, events);
  }

  /** A lesson whose interactive can be entered completes by watching, continuing and finishing it. */
  lemma InteractiveLessonCompletes(t: Option<InteractiveType>)
    requires HasInteractive(t)
    ensures VideoRun(t, StartVideo, [VideoEnded, Continue, InteractiveDone(true)]).1 == [Stay, Stay, Complete(true)]
  {
    var s1 := StartVideo.(videoCompleted := true);
    var s2 := s1.(step := InteractiveStep);
    var s3 := s2.(interactiveCompleted := true);
    assert VideoRun(t, s3, []) == (s3, []);
    assert VideoRun(t, s2, [InteractiveDone(true)]).1 == [Complete(true)];
    assert [Continue, InteractiveDone(true)][1..] == [InteractiveDone(true)];
    assert VideoRun(t, s1, [Continue, InteractiveDone(true)]).1 == [Stay, Complete(true)];
    assert [VideoEnded, Continue, InteractiveDone(true)][1..] == [Continue, InteractiveDone(true)];
  }
}

=== FILE: wrappers.dfy ===
/** Optional values, standing in for the `undefined`/`null` cases of the game's records. */
module Wrappers {

  datatype Option<+T> = None | Some(value: T)
}
